=== FILE: README.md ===
# Chemical traceability: custody store, ledger gateways and browser rules

This project models the core of a chemical-traceability web application in
Dafny. The application has a Flask backend and a browser front end. It keeps
a local custody store of chemicals, movement logs, receipts, organisations,
users, audit rows and ledger anomalies. It can also record movements on an
optional Ethereum ledger.

The model covers five parts:

- **Two ledger gateways.** These are `BlockchainFallback` and
  `BlockchainClient`. The model covers bounded retries with exponential
  backoff, the connection and contract guards, gas budgets, history read by
  index, and failures returned as values. Web3 is an oracle: a sequence of
  connection outcomes, a gas estimate that may fail, a send that may be
  mined, and a record count with indexed reads. Sleeps are a list of wait
  durations.
- **The routes as store transitions.** Each route is a pure function from
  (store, request) to (store, response). A `dbOk` flag stands for whether
  the database commit raises; when it is false the store is left as it was,
  which is the rollback. A route's ledger call is an input that either
  raises or returns a truthy or falsy value.
- **The browser client.** This covers how blockchain.js classifies HTTP
  answers and falls back from verified to local history.
- **Access control and validation.** This covers the decorators, the
  browser's prefix table, the registration chain from email domain to
  organisation to role, the admin domain normalisation, and the declared form
  rules.
- **Small browser helpers.** These are status formatting, badge lookup, the
  navigation stack, page titles, address truncation and required-field
  checks.

The modules follow the source files:

| module | file |
|---|---|
| `Ledger` | the web3 oracle and the retry schedule |
| `Fallback` | app/blockchain_fallback.py |
| `Client` | app/blockchain_client.py |
| `Drift` | differences between the two gateways |
| `Custody` | the store and the query helpers |
| `Domains` | the two domain regular expressions |
| `Forms` | app/forms.py |
| `Access` | app/decorators.py |
| `MainRoutes` | app/routes/main.py |
| `DistributorRoutes` | app/routes/distributor.py |
| `ManufacturerRoutes` | app/routes/manufacturer.py |
| `CustomerRoutes` | app/routes/customer.py |
| `AuthRoutes` | app/routes/auth.py |
| `AdminRoutes` | app/routes/admin.py |
| `BrowserClient` | blockchain.js |
| `BrowserAuth` | modules/auth.js |
| `BrowserMovement` | modules/movement.js |
| `AppShell` | app.js |

`Wrappers` (Option and Result) and `Text` (character classes, trimming,
splitting) are helpers.

## Model

| member | source | states |
|---|---|---|
| Ledger.Buffered | app/blockchain_fallback.py:229-230 | The movement gas limit is never below the estimate. It is the floor of estimate × 1.1: gas × 10 ≤ estimate × 11 < gas × 10 + 10. |
| Ledger.ScheduleFrom | app/blockchain_fallback.py:26-79 | From attempt k, the loop stops at the first attempt that comes up or at attempt 3. No earlier attempt from k on came up. The wait after failed attempt j is 2^j. |
| Ledger.Backoff | app/blockchain_fallback.py:25-79 | Between 1 and 3 attempts are made. The waits are 2^1, 2^2, … and there is one fewer wait than attempts, so there is no wait after the last attempt. |
| Ledger.SumAppend | app/blockchain_fallback.py:68-79 | Waits add up across concatenation. This is used to total the sleeps of the retry loops. |
| Ledger.BackoffStopsAtFirstSuccess | app/blockchain_fallback.py:25-63 | Every attempt before the last one made failed. If none of the three comes up, all three are made. Success holds iff one of the first three attempts comes up. |
| Ledger.BackoffWaitsAtMostSix | app/blockchain_fallback.py:68-79 | The waits are a prefix of [2, 4], total at most 6 seconds, and are empty when the first attempt succeeds. |
| Ledger.ReadFrom | app/blockchain_fallback.py:289-307 | Reading indices i..n succeeds iff every indexed read succeeds. Entry j then comes from index j with `blockchain_verified` true. On failure the error is the error of a failed read in the range. |
| Ledger.ReadHistory | app/blockchain_fallback.py:287-307 | A history of n records succeeds iff all n indexed reads succeed. It then has exactly n entries, in index order, each verified. |
| Fallback.Reconnect | app/blockchain_fallback.py:81-137 | Returns true iff one of three attempts comes up. It stops at the first success and makes three attempts otherwise. It waits 2, then 4, so 6 seconds at most. `connected` follows the result. The contract is reloaded only after a success with an address and ABI configured. |
| Fallback.Connect | app/blockchain_fallback.py:23-79 | The gateway is connected iff one of three attempts comes up. A contract is loaded only when configured and connected. Total wait is at most 6 seconds. |
| Fallback.IsConnected | app/blockchain_fallback.py:139-151 | No handle gives false. A live node gives true. A lost connection gives the result of `reconnect`. A raising probe gives false. At most 3 attempts are made, with at most 6 seconds of waiting. |
| Fallback.RegisterChemical | app/blockchain_fallback.py:153-191 | When the guard fails, the result is "connection unavailable" with fallback set and nothing is sent. Otherwise it sends `registerChemical` with 200000 gas. It succeeds iff the transaction is mined, reporting `tx_hash` and no contract address. Every failure carries fallback. |
| Fallback.Answer | app/blockchain_fallback.py:180-191 | The reply is a success iff the send was mined. Every refusal carries fallback. |
| Fallback.MovementGas | app/blockchain_fallback.py:222-233 | With an estimate, the gas is the floor of estimate × 1.1 and never below the estimate. If estimation fails, the gas is exactly 300000. |
| Fallback.Submit | app/blockchain_fallback.py:214-274 | Without a loaded contract, nothing is sent and the reply is a fallback refusal. Otherwise the call is sent with the gas from the estimate rule. |
| Fallback.RecordMovement | app/blockchain_fallback.py:193-274 | When the guard fails, the reply is "network connection unavailable" with fallback and nothing is sent. Anything sent is the movement call with the estimated gas, on a loaded contract. If the guard passes and the node is live, the send is attempted. Success holds iff the send is mined, reporting `tx_hash`. Total wait is at most 12 seconds. |
| Fallback.GetMovementHistory | app/blockchain_fallback.py:276-315 | When the guard fails, the reply is a fallback refusal. On success the node is connected and counted, and there are exactly `count` entries, where entry i is record i, verified. Success holds whenever the guard passes, the count succeeds and every read succeeds. |
| Fallback.GetStatus | app/blockchain_fallback.py:317-339 | `connected` is the result of `is_connected`. `contract_loaded` is the gateway's state after that check. Without a handle the status is disconnected and the contract state is unchanged. |
| Fallback.GuardFailureSubmitsNothing | app/blockchain_fallback.py:155-160 | When the guard fails, neither write sends a transaction or succeeds, and the history read is refused. |
| Fallback.Guard | app/blockchain_fallback.py:155 | The `is_connected()` call each operation starts with; the operation goes on only when it answers true and a contract is loaded. |
| Client.New | app/blockchain_client.py:7-81 | An unset URL, or one containing the placeholder project id, raises before any attempt. Otherwise the attempts and waits follow the three-attempt backoff. Construction succeeds iff a handle is built, the decisive liveness check passes, a contract address is known, the account and key are set, the account is valid and the balance check passes. A handle that is lost again raises ConnectionError. A missing account raises only after a live check. |
| Client.IsConnected | app/blockchain_client.py:83-93 | True iff the handle answers that it is live. A raising probe gives false. |
| Client.Reconnect | app/blockchain_client.py:95-113 | Makes exactly one attempt and sets `connected` to its outcome. The contract address is kept. |
| Client.Refresh | app/blockchain_client.py:184-194 | The liveness check passes iff the node is live, or it was lost and a rebuilt handle is live. A node lost twice gives "Lost connection" as the error. |
| Client.Answer | app/blockchain_client.py:135-145 | The reply is a success iff the send was mined. Refusals never carry the fallback flag. |
| Client.RegisterChemical | app/blockchain_client.py:115-145 | Always sends `registerChemical` with a fixed 2000000 gas and no liveness check. It succeeds iff mined, reporting `transaction_hash` and the contract address. Otherwise the error comes back without a fallback flag. |
| Client.RecordMovement | app/blockchain_client.py:179-288 | A failed liveness check is returned as an error. A failed gas estimate aborts with that error and sends nothing; there is no default budget. A transaction is sent iff the check passes and the estimate succeeds. It succeeds iff mined, under `transaction_hash`. |
| Client.GetMovementHistory | app/blockchain_client.py:290-343 | A failed liveness check is refused. The read succeeds iff the count and every indexed read succeed. It then has exactly `count` entries in index order, each verified. |
| Drift.RegistrationHashKeysDiffer | app/blockchain_fallback.py:180-184 | On a mined registration, the fallback reports `tx_hash` with no contract address. The client reports `transaction_hash` with its contract address (app/blockchain_client.py:135-140). |
| Drift.RegistrationGasDiffers | app/blockchain_fallback.py:169 | The fallback registers with a tenth of the client's 2000000 gas (app/blockchain_client.py:124). |
| Drift.EstimateFailureDiverges | app/blockchain_fallback.py:231-233 | When gas estimation fails, the fallback still sends with 300000 gas. The client sends nothing and fails (app/blockchain_client.py:222-225). |
| Drift.EstimatedMovementAgrees | app/blockchain_fallback.py:222-230 | With a working estimate on a live node, both gateways send the same call with the same gas and both succeed when it is mined. |
| Drift.ReconnectRetriesDiffer | app/blockchain_fallback.py:86-87 | A node that is down once and then up is reached by the fallback's reconnect after one 2-second wait. The client's single attempt fails (app/blockchain_client.py:95-113). |
| Drift.HistoryReadsAgree | app/blockchain_fallback.py:287-307 | On the same node answers, a history read succeeds through one gateway iff through the other, with identical entries (app/blockchain_client.py:307-336). |
| Custody.Find | app/routes/main.py:45 | `filter_by(...).first()`: the index of the first row satisfying the filter. It is None iff no row does. |
| Custody.Select | app/routes/distributor.py:105-108 | `filter_by(...).all()`: exactly the rows satisfying the filter, each with its multiplicity in the store. |
| Custody.Count | app/routes/manufacturer.py:42-43 | The number of rows satisfying a filter is at most the number of rows. |
| Custody.Insert | app/routes/main.py:74 | Adding one row to a newest-first list keeps it newest first and adds exactly that row. |
| Custody.ConsNewestFirst | app/routes/main.py:74 | A row no older than every row of a newest-first list can be put in front of it. |
| Custody.Newest | app/routes/main.py:74 | `order_by(timestamp.desc())`: a newest-first permutation of the rows. |
| Custody.NextId | app/routes/distributor.py:38-53 | The id given to a new row is larger than every id in use. |
| Custody.Ids | app/routes/distributor.py:38-53 | The primary keys of a table's rows, position by position. |
| Custody.Put | app/routes/customer.py:103 | An update of one row changes that row and no other. |
| Custody.NewestSelectExact | app/routes/main.py:74 | Filtering and then ordering newest first keeps exactly the rows that pass the filter. |
| Custody.CountDisjoint | app/routes/manufacturer.py:41-43 | Counts of two filters that never hold together add up to the count of their disjunction. |
| Custody.ParseId | app/routes/customer.py:26 | An id string is read iff it is non-empty and all decimal digits. |
| Custody.DecimalValueAppend | app/routes/customer.py:26 | Appending a digit to a digit string multiplies its value by ten and adds the digit. |
| Custody.ParseIdIsDecimalValue | app/routes/customer.py:26 | A read id is the decimal value of its digits, read from the most significant digit. |
| Custody.Decimal | app/routes/customer.py:26 | The printed form of an id: digits only, with no leading zero. |
| Custody.ParseIdDecimal | app/routes/customer.py:26 | Every printed id reads back as itself. |
| Custody.OrgOf | app/routes/manufacturer.py:190 | `current_user.organization` is the organisation the user's id names, or None iff there is no such row. |
| Text.ContainsAt | app/blockchain_client.py:11 | A text holding the substring at some position contains it: this is how a URL with the placeholder project id is recognised. |
| Text.Upper | modules/movement.js:247 | `toUpperCase` on ASCII: a lower-case letter becomes its upper-case letter, 32 code points lower, and any other character is kept. |
| Text.UpperString | app/routes/manufacturer.py:84 | `upper()`: the same length, upper-casing every character. |
| Text.Capitalize | app.js:2171 | The first character upper-cased, the rest kept, the length unchanged. |
| Text.TrimStart | app/routes/admin.py:24 | The longest prefix of dropped characters is removed: the result is a suffix that starts with a kept character. |
| Text.TrimEnd | app/routes/admin.py:24 | The longest suffix of dropped characters is removed: the result is a prefix that ends with a kept character. |
| Text.LStripChar | app/routes/admin.py:24 | `lstrip('@')`: the result is a suffix of the input that does not start with '@', and every character removed before it is '@'. |
| Text.PyStrip | app/routes/admin.py:24 | Python `strip()`: TrimEnd after TrimStart over Python whitespace. |
| Text.JsTrim | app.js:426-429 | JavaScript `trim()`: TrimEnd after TrimStart over JavaScript whitespace. |
| Text.AfterLast | app/routes/auth.py:139 | `split('@')[-1]`: a suffix without '@', preceded by '@' when shorter than the text. |
| Text.Split | modules/movement.js:246 | `split('_')` gives at least one part. |
| Text.SplitPartsAvoidSeparator | modules/movement.js:246 | No part of a split contains the separator. |
| Text.JoinSplitRoundTrip | modules/movement.js:246-248 | Joining the parts of a split with the separator gives back the text. |
| Text.SplitFirstIsPrefix | modules/movement.js:246 | The first part is a prefix of the text, and the whole text when there is no separator. |
| Text.SplitLastIsSuffix | modules/movement.js:246 | The last part is a suffix of the text. |
| Domains.PatternsAgree | app/forms.py:35-36 | On domains whose labels have no doubled hyphen and are at most 63 characters long, the form pattern and the admin pattern (app/routes/admin.py:27) accept the same strings. |
| Domains.AdminPattern | app/routes/admin.py:27 | The admin regex: labels of one letter or digit, optionally followed by up to 61 letters, digits or hyphens and a final letter or digit, then a top-level part of two or more letters. |
| Domains.FormPattern | app/forms.py:35-36 | The form regex: alphanumeric runs joined by single hyphens or dots, then a top-level part of two or more letters. |
| Domains.LabelsDiffer | app/routes/admin.py:27 | "a--b" is a label for the admin pattern but not for the form pattern. |
| Domains.AcceptedDomainEdges | app/routes/admin.py:27-28 | A domain either pattern accepts starts with a letter or digit and ends with a letter. |
| Forms.OrgWithDomain | app/forms.py:47 | The first organisation holding a domain, or None iff no organisation holds it. |
| Forms.MovementValid | app/forms.py:85-111 | Every required field filled in within its length, a known movement type and transport method, a recipient among the offered ids, and the accuracy box ticked. |
| Forms.VerifyReceiptValid | app/forms.py:113-116 | A movement id of at most 100 characters, and a tag of at most 100 when one is given. |
| Forms.ConfirmReceiptValid | app/forms.py:118-123 | A movement id, notes of at most 500 characters, and both boxes ticked. |
| Forms.AnomalyResolutionValid | app/forms.py:125-134 | An anomaly id, notes of at most 500 characters, and one of the three statuses. |
| Forms.RegistrationValid | app/forms.py:12-30 | The declared registration rules: an unused email, a password of at least 8 characters typed twice the same, names given, and an unused domain. |
| Forms.OrgDomainUniqueAsWritten | app/forms.py:46-49 | As written, the validator raises AttributeError iff some organisation holds the domain, because the form has no `id` field. Otherwise it accepts. |
| Forms.OrgDomainUnique | app/forms.py:46-49 | Corrected: it never crashes and accepts an unheld domain. It rejects only held domains, and when adding, it rejects exactly the held ones. When editing, it accepts a held domain only if the edited organisation is the holder. |
| Forms.OrgDomainResaveDiffers | app/forms.py:46-49 | Submitting this form with the domain its organisation already holds crashes as written and is accepted by the corrected check. No route of the application uses the form, so the defect is latent. |
| Forms.OrganizationValid | app/forms.py:32-49 | A name of 2 to 100 characters, a domain matching the form pattern, and the corrected uniqueness check accepting. |
| Access.AdminRequired | app/decorators.py:6-15 | Anonymous visitors go to the login page. The handler runs iff the user is an administrator. |
| Access.HasRole | app/decorators.py:24 | `has_role`, assumed to be equality with the user's role. |
| Access.RoleRequired | app/decorators.py:18-51 | Anonymous visitors go to login before any role check. The handler runs iff the user has the role. |
| Access.ManufacturerRequired | app/decorators.py:18-27 | Admits exactly signed-in manufacturers; administrators get no bypass. |
| Access.DistributorRequired | app/decorators.py:30-39 | Admits exactly signed-in distributors. |
| Access.CustomerRequired | app/decorators.py:42-51 | Admits exactly signed-in customers. |
| Access.AnyRoleRequired | app/decorators.py:54-79 | Anonymous visitors go to login and administrators are always admitted. Anyone else is admitted iff they have one of the listed roles. |
| Access.AdminBypassOnlyInRoleRequired | app/decorators.py:24 | A non-manufacturer administrator is sent away by the manufacturer decorator but admitted by `role_required` for that role (app/decorators.py:66-68). |
| MainRoutes.ChemicalByTag | app/routes/main.py:45 | A chemical carrying the tag, or None iff there is none. |
| MainRoutes.LogEvent | app/routes/main.py:20-70 | Without `tag_id` or `location` the answer is 400 and nothing is written. Otherwise exactly one movement with that tag and location is added, and a chemical with the tag moves there. JSON gets 201 and a form gets a redirect. The answer is never 207. A failed commit gives 500 with the store unchanged. |
| MainRoutes.UnknownTagStillLogged | app/routes/main.py:46-53 | An event for a tag no chemical carries is still logged. No chemical changes. |
| MainRoutes.ChemicalHistory | app/routes/main.py:72-83 | Exactly the logs with the tag, newest first, each once for every time it is stored. |
| MainRoutes.RegisterChemical | app/routes/main.py:9-17 | A chemical is added with the JSON name and tag and 201 is returned iff both keys are present, the tag is unused and the commit succeeds. Otherwise the answer is 500 and the store is unchanged. |
| MainRoutes.RegisteredTagRefusedTwice | app/routes/main.py:9-17 | Registering the same tag again fails with 500 and changes nothing. |
| DistributorRoutes.ChemicalByTag | app/routes/distributor.py:31 | The first chemical carrying the tag, or None iff there is none. |
| DistributorRoutes.Commit | app/routes/distributor.py:38-69 | One movement is appended with status in_transit, the destination as location, the form's source and the user's organisation as source. The chemical becomes "In Transit" in the user's custody. One `movement_created` audit row is added. Nothing else changes. |
| DistributorRoutes.LogMovement | app/routes/distributor.py:20-100 | Guards in order: the form, then the tag (unknown tag: no change). The route logs iff the form is valid, the tag is known and the commit succeeds; then the store is the commit. The ledger warning shows iff the ledger call was not truthy. A failed commit rolls back. |
| DistributorRoutes.UnattestedMovementNeverLogged | app/forms.py:110 | A movement whose accuracy box is unticked is sent back to the form and nothing is stored, whatever the ledger and the database do. |
| DistributorRoutes.LedgerNeverBlocksCommit | app/routes/distributor.py:84-92 | Whatever the ledger call does, the route logs or not alike, and the stores differ only in the movement's `blockchain_recorded` flag. |
| DistributorRoutes.ValidatedFormAlwaysTriesLedger | app/routes/distributor.py:72 | After validation the accuracy box is ticked, so the ledger is always tried. `blockchain_recorded` holds iff the call returned a truthy value (app/forms.py:110). |
| DistributorRoutes.AsWrittenNeverRecords | app/routes/distributor.py:74-82 | With the argumentless client the movement is never marked recorded, and the warning always shows. |
| DistributorRoutes.ViewMovements | app/routes/distributor.py:105-108 | Exactly the user's own movements, newest first. |
| DistributorRoutes.GetChemicalByRfid | app/routes/distributor.py:113-127 | 404 iff no chemical carries the tag; otherwise a chemical with that tag. |
| ManufacturerRoutes.Batches | app/routes/manufacturer.py:46 | The distinct non-empty batch numbers of the chemicals, no more of them than chemicals. |
| ManufacturerRoutes.BatchesStep | app/routes/manufacturer.py:46 | The batches of all rows are the first row's non-empty batch plus the batches of the others. |
| ManufacturerRoutes.ViewDashboard | app/routes/manufacturer.py:26-60 | The chemicals are exactly the organisation's, each as often as it is stored. The shipments are its outgoing movements of the last 30 days, each as often as stored, newest first. `pending` counts in_transit and `shipped` counts delivered, together at most the shipments. `active_batches` is the number of distinct non-empty batch numbers, at most the number of chemicals. |
| ManufacturerRoutes.BatchesOfSelection | app/routes/manufacturer.py:29-31 | The batches of a selection are the non-empty batch numbers of the chemicals passing the filter. |
| ManufacturerRoutes.GeneratedTag | app/routes/manufacturer.py:84 | A generated tag is "RFID-" followed by the first 12 hex characters upper-cased: 17 characters. |
| ManufacturerRoutes.RequestColumns | app/routes/manufacturer.py:75-130 | A form request gives columns iff it validates; there a blank tag is replaced by a generated one and a blank location by "Storage". A JSON request gives columns iff it has `name` and `rfid_tag`; its location is "Storage" when the key is absent. |
| ManufacturerRoutes.Inserted | app/routes/manufacturer.py:127-184 | Exactly one chemical is appended with a fresh id and the request's columns. Its registrant is the user, and its manufacturer and custodian are the user's organisation. One `chemical_registered` audit row is added. Nothing else changes. |
| ManufacturerRoutes.RegisterChemical | app/routes/manufacturer.py:65-225 | An invalid form shows the form again and changes nothing. A JSON date that does not parse fails before the ledger and changes nothing. The chemical is registered iff the columns exist, the form user has an organisation, the dates parse, name and tag are non-null, the tag is free and the commit succeeds. The ledger is asked iff a client exists and the request got past the columns and dates, with the tag and name as given (null included) and the manufacturer name. A ledger exception becomes a failure value that does not stop the commit. JSON gets 201 carrying `blockchain` iff a client exists. |
| ManufacturerRoutes.LedgerAskedForRefusedTag | app/routes/manufacturer.py:186-200 | A JSON registration whose tag is taken still asks the ledger with its tag and name, then fails and changes nothing. |
| ManufacturerRoutes.LedgerAskedForNullName | app/routes/manufacturer.py:186-198 | A JSON registration whose name is null still asks the ledger, with no name, then fails at the commit and changes nothing. |
| ManufacturerRoutes.ShipmentValid | app/routes/manufacturer.py:244-253 | The shipment form validates and its carrier is among the active organisations that may distribute. |
| ManufacturerRoutes.BlankFormFieldsDefaulted | app/routes/manufacturer.py:84-100 | A valid form with blank tag and location registers the generated tag at "Storage". |
| ManufacturerRoutes.ChemicalById | app/routes/manufacturer.py:232 | The chemical with that id, or None iff there is none. |
| ManufacturerRoutes.Ship | app/routes/manufacturer.py:260-298 | One movement is appended: from "Storage" to "In Transit" with status in_transit. Temperature bounds are kept only when the shipment is temperature-controlled. The chemical becomes "In Transit" and one `shipment_created` audit row is added. Nothing else changes. |
| ManufacturerRoutes.PrepareShipment | app/routes/manufacturer.py:230-336 | Not found iff no chemical has the id. Refused as not yours iff the chemical belongs to another organisation. The shipment is prepared iff the chemical is the user's, is exactly at "Storage", the form validates and the commit succeeds, whatever the ledger does. The warning shows iff the accuracy box was ticked and the ledger call was not truthy. |
| ManufacturerRoutes.ShippedOnlyOnce | app/routes/manufacturer.py:239-242 | After a shipment the chemical is in transit, so preparing it again is refused. |
| ManufacturerRoutes.ShipmentById | app/routes/manufacturer.py:343 | The first movement with the id, or None iff there is none. |
| ManufacturerRoutes.ViewShipment | app/routes/manufacturer.py:341-368 | 404 iff no movement has the id. The request is refused iff the first movement with that id has another source organisation. Otherwise that movement is displayed. Its chemical and destination are the rows it names, and each is absent iff it names none or no row has that id. The page lists exactly the `MovementLog` audit rows for that id. |
| ManufacturerRoutes.ShipmentAuditNeverListed | app/routes/manufacturer.py:289-298 | The audit row of a new shipment is stored before the movement has an id, so it is never among the rows `view_shipment` lists (app/routes/manufacturer.py:357-360). |
| CustomerRoutes.MovementById | app/routes/customer.py:26 | The movement whose id the form's text names, or None iff the text is not an id or no movement has it. |
| CustomerRoutes.ChemicalByRef | app/routes/customer.py:39 | The chemical a movement points at, or None iff there is no reference or no such chemical. |
| CustomerRoutes.VerifyReceipt | app/routes/customer.py:17-74 | Checks in order: the form, the movement exists, it is addressed to the user's organisation, the chemical exists, the tag matches if given. Each refusal is returned iff the checks before it pass and it fails, and Verified iff every check passes. A verification carries the movement and its chemical, `blockchain_verified` iff the ledger returned a truthy value, and a warning iff the ledger raised. |
| CustomerRoutes.AsWrittenNeverVerified | app/routes/customer.py:54-61 | With the argumentless client a verified receipt never shows ledger verification. |
| CustomerRoutes.ReceiptFor | app/routes/customer.py:97 | The receipt for a movement, or None iff there is none. |
| CustomerRoutes.Receive | app/routes/customer.py:103-150 | The movement becomes delivered to the user, with the form's notes and both confirmation boxes. It is marked as recorded on the ledger exactly when the ledger answers truthy. One receipt is added whose received and expected quantities both equal the quantity moved, plus one `receipt_confirmed` audit row. Nothing else changes. |
| CustomerRoutes.ConfirmReceipt | app/routes/customer.py:76-162 | Corrected: the confirmation carries the scanned tag. A missing movement, a foreign destination or an existing receipt is refused without change, and so are a missing chemical and a tag mismatch. A confirmation happens iff every check passes and the commit succeeds, whatever the ledger does. The confirmed movement is delivered to the user with both boxes confirmed, and is marked as recorded on the ledger iff the ledger answered truthy. |
| CustomerRoutes.UntickedBoxNeverConfirms | app/forms.py:121-122 | With either confirmation box unticked, both the corrected and the as-written route refuse the submission and keep the store. |
| CustomerRoutes.ConfirmReceiptAsWritten | app/routes/customer.py:110-113 | As written, reading the undeclared `rfid_tag` field ends every confirmation whose chemical exists in a server error. No confirmation ever happens, and the store never changes. |
| CustomerRoutes.AsWrittenNeverConfirms | app/routes/customer.py:110-113 | Where the corrected route confirms, the written one fails with a server error. Where the corrected route refuses early, both give the same answer. |
| CustomerRoutes.ConfirmedOnlyOnce | app/routes/customer.py:95-100 | After a confirmation the same submission is refused as already received, whatever either ledger call does. |
| CustomerRoutes.Addressed | app/routes/customer.py:170-179 | Exactly the movements addressed to the organisation with the given status, each with its multiplicity, newest first. |
| CustomerRoutes.ViewReceipts | app/routes/customer.py:167-181 | The received list is exactly the organisation's delivered inbound movements and the pending list its in-transit ones, each with every row's multiplicity and newest first. No movement is in both. |
| CustomerRoutes.ConfirmedShowsAsReceived | app/routes/customer.py:103 | A confirmed movement moves from pending to received. |
| CustomerRoutes.Reverse | app/routes/customer.py:190 | The movements in reverse order. |
| CustomerRoutes.ReverseFlipsOrder | app/routes/customer.py:190 | Reversing a newest-first list gives an oldest-first list of the same rows. |
| CustomerRoutes.PendingShipments | app/routes/customer.py:186-193 | Exactly the organisation's in-transit inbound movements, each with its multiplicity, oldest first. |
| AuthRoutes.EmailDomain | app/routes/auth.py:38-39 | The text after the last '@': a suffix of the email containing no '@'. It is the whole email when there is no '@'. |
| AuthRoutes.ActiveOrgForDomain | app/routes/auth.py:41-43 | The first active organisation with the domain, or None iff there is none. |
| AuthRoutes.ValidateEmail | app/routes/auth.py:32-52 | A used email is refused first. Then a domain with no active organisation is refused. An accepted email's organisation grants the role: manufacture, distribute or receive. |
| AuthRoutes.Permits | app/routes/auth.py:46-52 | A manufacturer needs `can_manufacture`, a distributor `can_distribute` and a customer `can_receive`; any other role passes. |
| AuthRoutes.SignUpValid | app/routes/auth.py:17-52 | Every field filled in, the passwords equal, the email chain accepting, and one of the three self-service roles. |
| AuthRoutes.Register | app/routes/auth.py:131-191 | A signed-in visitor is redirected and nothing changes. Otherwise sign-up succeeds iff the form (with its email chain) is valid and the commit succeeds. The new user is active, not an administrator, has a fresh id and the chosen role, and belongs to the matched active organisation, which permits that role. One `user_registration` audit row is added. Failures change nothing. |
| AuthRoutes.RouteRechecksAreRedundant | app/routes/auth.py:141-158 | The route's own domain and role checks never fire, because the form validator already made them. |
| AuthRoutes.RegisterAsWritten | app/routes/auth.py:24 | As written, a signed-in visitor is redirected. For anyone else the organisation field has no choices, so validation raises. No sign-up changes the store. |
| AuthRoutes.AsWrittenSignUpFails | app/routes/auth.py:24 | A submission the corrected route accepts fails as written. |
| AuthRoutes.Landing | app/routes/auth.py:92-105 | `next` is followed iff it starts with '/'. Otherwise the order is administrator, customer, distributor, manufacturer, then the dashboard. |
| AuthRoutes.SchemeRelativeNextFollowed | app/routes/auth.py:93 | "//example.org" starts with '/', so it is followed. |
| AuthRoutes.UserByEmail | app/routes/auth.py:67 | The first user with the email, or None iff the email is unused. |
| AuthRoutes.Login | app/routes/auth.py:61-107 | A signed-in visitor is sent away. An unknown user and a wrong password get the same refusal. A deactivated account is refused. The user is signed in iff the password matches and the account is active, whatever the commit does. The redirect and one `user_login` audit row follow iff the commit also succeeds. A failed commit gives a server error with the user still signed in and the store unchanged. |
| AuthRoutes.SignedInWithoutAudit | app/routes/auth.py:77-90 | Valid credentials with a failing commit leave the user signed in with no `user_login` audit row. |
| AuthRoutes.PasswordCheckedBeforeState | app/routes/auth.py:69-75 | A wrong password is refused as bad credentials even for a deactivated account. |
| AuthRoutes.ViewProfile | app/routes/auth.py:193-203 | 404 iff no user has the username. The profile shown is the first user with that username. It is shown iff the viewer is an administrator or that user, and refused otherwise. |
| AuthRoutes.UserByName | app/routes/auth.py:196 | The first user with the username, or none iff no user has it. |
| AuthRoutes.OwnerSeesOwnProfile | app/routes/auth.py:196-203 | A user whose username is unique is always shown their own profile. |
| AdminRoutes.CleanDomain | app/routes/admin.py:24 | Strip whitespace, then every leading '@'. The result is a suffix of the stripped input, and everything removed before it is '@'. It does not start with '@' and does not end in whitespace. |
| AdminRoutes.CleanedNeedsNoNewlineAllowance | app/routes/admin.py:27-28 | On a cleaned domain, `$` matching before a final newline makes no difference. |
| AdminRoutes.CleanFixesTidyEdges | app/routes/admin.py:24 | A domain that starts with a letter or digit and ends with a letter is its own cleaning. |
| AdminRoutes.CleanStable | app/routes/admin.py:24-41 | Cleaning an accepted domain again, as happens to the written-back value on re-validation, changes nothing. |
| AdminRoutes.ValidateDomain | app/routes/admin.py:16-41 | Bad format iff the cleaned domain misses the pattern. Held iff it matches and another organisation holds it. An accepted domain is written back cleaned. |
| AdminRoutes.Editing | app/routes/admin.py:32-34 | An edit is in progress iff the URL carries a non-zero `org_id`. |
| AdminRoutes.HeldElsewhere | app/routes/admin.py:32-37 | Some organisation other than the one being edited holds the domain. |
| AdminRoutes.OrganizationValid | app/routes/admin.py:13-41 | Name and domain given, and the domain check accepts. |
| AdminRoutes.EditingZeroCountsAsAdding | app/routes/admin.py:33-35 | An `org_id` of 0 is falsy, so the check runs as when adding. |
| AdminRoutes.ResaveAccepted | app/routes/admin.py:32-38 | Re-saving an organisation under the domain only it holds is accepted. |
| AdminRoutes.Holder | app/routes/admin.py:31-37 | An organisation other than the edited one holding the domain is found iff one exists. |
| AdminRoutes.OrgById | app/routes/admin.py:120 | The organisation with the id, or None iff there is none. |
| AdminRoutes.UserById | app/routes/admin.py:248 | The user with the id, or None iff there is none. |
| AdminRoutes.AddOrganization | app/routes/admin.py:78-112 | An organisation is added iff the form is valid and the commit succeeds. It is active, with the cleaned domain and permissions, plus one `organization_creation` audit row. Otherwise nothing changes. |
| AdminRoutes.EditOrganization | app/routes/admin.py:116-147 | 404 iff there is no such organisation. An edit rewrites that organisation's fields and nothing else, plus one `organization_update` audit row, iff the form is valid with this organisation excluded and the commit succeeds. |
| AdminRoutes.DeactivateOrganization | app/routes/admin.py:175-201 | 404 iff there is no such organisation. The "System" organisation is refused without change. Otherwise only that organisation becomes inactive, with one `organization_deactivation` audit row. |
| AdminRoutes.DeactivateUser | app/routes/admin.py:245-271 | 404 iff there is no such user. Administrators are refused without change. Otherwise only that user becomes inactive, with one `user_deactivation` audit row. |
| AdminRoutes.ActivateOrganization | app/routes/admin.py:151-171 | 404 iff there is no such organisation. Otherwise only it becomes active, with one `organization_activation` audit row. |
| AdminRoutes.ActivateUser | app/routes/admin.py:221-241 | 404 iff there is no such user. Otherwise only that user becomes active, with one `user_activation` audit row. |
| AdminRoutes.DeactivateThenActivateRestores | app/routes/admin.py:151-201 | Deactivating an active organisation and activating it again restores the organisations as they were, with the two audit rows appended. |
| AdminRoutes.ProtectedRowsStayActive | app/routes/admin.py:179-181 | Whatever deactivation is asked, the System organisation and every administrator keep their active state (app/routes/admin.py:249-251). |
| AdminRoutes.Occurrences | app/routes/admin.py:287-289 | The number of times a value occurs: at most the length, and positive iff the value occurs. |
| AdminRoutes.ThreeOccurrencesBounded | app/routes/admin.py:287-289 | Counts of three distinct values add up to at most the length. |
| AdminRoutes.Statuses | app/routes/admin.py:287-289 | The anomalies' statuses, position by position. |
| AdminRoutes.Kinds | app/routes/admin.py:291-296 | The anomalies' types, position by position. |
| AdminRoutes.AbsentCountsZero | app/routes/admin.py:291-296 | A type without an entry has count 0. |
| AdminRoutes.Bump | app/routes/admin.py:293-296 | Counting one more anomaly of a type keeps one entry per type, adds one to the total and to that type only, and adds the type to the key set. |
| AdminRoutes.Tallied | app/routes/admin.py:292-296 | The dictionary built by counting a list of types has one entry per type. Each entry holds that type's number of occurrences. The entries sum to the length, and the keys are exactly the types present. |
| AdminRoutes.ViewAnomalies | app/routes/admin.py:281-303 | `total` is the number of anomalies. `open`, `resolved` and `false_positive` count those statuses and add up to at most the total. Each type's count is its number of occurrences, the per-type counts sum to exactly the total, and the types listed are exactly those present. |
| AdminRoutes.AnomalyById | app/routes/admin.py:308 | The anomaly with the id, or None iff there is none. |
| AdminRoutes.ResolveAnomaly | app/routes/admin.py:307-332 | 404 iff there is no such anomaly. Otherwise the anomaly takes the form's status, defaulting to "resolved", and its notes, defaulting to "". It records the resolving administrator, but no resolution time, and adds one `anomaly_resolution` audit row. Nothing else changes. |
| AdminRoutes.ResolutionStatusUnchecked | app/routes/admin.py:310 | The route stores any status, such as "reopened", that the resolution form's list (app/forms.py:128-132) would refuse. |
| BrowserClient.LogEvent | blockchain.js:104-139 | Success iff the status is 201 or 207 and the body parses. `partialSuccess` holds iff the status is 207, and the message is chosen by that flag. A thrown error or any other status is a failure value. |
| BrowserClient.BackendNeverPartial | blockchain.js:120 | Against `log_event` (app/routes/main.py:56-59) success holds iff the code is 201. It is never partial, `blockchainStatus` is false and the message claims blockchain verification. |
| BrowserClient.RegisterChemical | blockchain.js:68-97 | Success iff any 2xx status with a readable body; other statuses are failures. |
| BrowserClient.RegisterAcceptsWhatLogRefuses | blockchain.js:75-117 | A 200 answer is a registration success but a logging failure. |
| BrowserClient.GetChemicalHistory | blockchain.js:146-184 | An OK verified answer succeeds iff it parses, carrying its history and flag. A non-OK one falls back to local history with `blockchainEnabled` false and the local messages. A network error on the first call fails without trying the local endpoint. A failure has an empty history and a message made of "Failed to get chemical history: " and the error's text, such as the fetch's message or "HTTP error! Status: " and the status. On success the blockchain error is the body's when it is a non-empty string and null otherwise, and the message is the body's when it is non-empty and the verified default otherwise. |
| BrowserClient.BothEndpointsDownGiveNothing | blockchain.js:163-183 | When both endpoints fail, success is false and the history is empty. |
| BrowserClient.CheckConnection | blockchain.js:21-61 | The status is never pending afterwards. It is connected iff the body parses and says connected. A failed fetch or body marks the client disconnected and keeps the other facts. When the body parses, the provider and the contract address are the body's when they are non-empty strings, and "Unknown" otherwise. |
| BrowserClient.LatestCheckDecides | blockchain.js:25-59 | The status and result depend only on the latest check. |
| BrowserAuth.Logout | modules/auth.js:119-122 | After `logout` the session is not authenticated. |
| BrowserAuth.IsAuthenticated | modules/auth.js:24-26 | Signed in iff there is a current user. |
| BrowserAuth.HasRole | modules/auth.js:41-49 | False without a user or a role. An array asks for membership, a single role for equality. |
| BrowserAuth.Permitted | modules/auth.js:233-254 | The rule-lookup reference for `canAccessRoute`: signed in, and either no prefix matches or the first matching rule lists the role. |
| BrowserAuth.SingletonArrayIsOneRole | modules/auth.js:41-49 | A one-element role array asks the same as the single role. |
| BrowserAuth.FirstRule | modules/auth.js:246-250 | The first rule, in declared order, whose prefix the route starts with, or None iff there is none. |
| BrowserAuth.CanAccessRoute | modules/auth.js:233-254 | The loop answers false without a user, the first matching rule's roles decide, and an unmatched route is open. This equals the rule-lookup definition. |
| BrowserAuth.AdminInEveryRule | modules/auth.js:237-243 | Every rule lists the administrator. |
| BrowserAuth.AdminOpensEveryRoute | modules/auth.js:237-250 | An administrator may open every route. |
| BrowserAuth.UnlistedRoutesOpen | modules/auth.js:234-253 | No route is open without a user. A route with no matching prefix is open to any signed-in user. |
| BrowserAuth.FirstRuleIs | modules/auth.js:246-250 | The rule a route falls under is the first one it starts with. |
| BrowserAuth.PrefixNotSegment | modules/auth.js:246-250 | "/administrator" falls under the "/admin" rule and is closed to a manufacturer. |
| BrowserAuth.ManufacturerPagesOpen | modules/auth.js:238-250 | "/manufacturer/dashboard" is open to a manufacturer. |
| BrowserAuth.BrowserLaxerThanServer | modules/auth.js:238 | The browser opens "/manufacturer" to an administrator, while the manufacturer decorator sends a pure administrator to the dashboard (app/decorators.py:24). |
| BrowserAuth.AuthHeaders | modules/auth.js:219-226 | Empty iff no user. Otherwise exactly `Authorization` with "Bearer " and the token, and `Content-Type` with "application/json". |
| BrowserAuth.LogoutClosesEverything | modules/auth.js:119-122 | After logout no route is open and no headers are sent. |
| BrowserMovement.EventBody | modules/movement.js:22-31 | The request body carries exactly the six keys. The tag, the location, the status (default "in_transit") and the purpose (default "") are as given. |
| BrowserMovement.Classify | modules/movement.js:35-43 | OK iff a 2xx answer; otherwise the recording failure. |
| BrowserMovement.RecordMovementAsWritten | modules/movement.js:18-49 | As written, the body's `rfid_tag` key is not `tag_id`, so `log_event` never answers OK. |
| BrowserMovement.AsWrittenAlwaysRefused | modules/movement.js:26-27 | Every call fails and leaves the store unchanged (app/routes/main.py:30-31). |
| BrowserMovement.RecordMovement | modules/movement.js:18-49 | Corrected: the movement is recorded iff the commit succeeds. The new log has the tag, the location and the defaulted status and purpose. Failures change nothing. |
| BrowserMovement.HandleSubmit | modules/movement.js:79-124 | A missing tag or location stops before recording. The status defaults to in_transit in the form. Recording succeeds iff both are present and the commit succeeds, and the new movement names the signed-in user's id (or 'system') as its mover. |
| BrowserMovement.BlankStatusDefaultsOnlyInForm | modules/movement.js:18-96 | An empty status typed in the form becomes in_transit. The same empty string passed directly to `recordMovement` is kept. |
| BrowserMovement.HandleSubmitAsWritten | modules/movement.js:100-108 | As written, missing fields are refused. Every other submission throws at `getCurrentUser`. |
| BrowserMovement.AsWrittenFormNeverRecords | modules/movement.js:108 | As written, the form never records and never changes the store. |
| BrowserMovement.GetMovementHistory | modules/movement.js:56-73 | A parsed body iff a 2xx answer that parses; otherwise the empty history. |
| BrowserMovement.CapitalizeAll | modules/movement.js:246-247 | Each word with its first character upper-cased. |
| BrowserMovement.Label | modules/movement.js:244-249 | Reference definition: same length, no '_'. Each '_' becomes a space and every other character is kept or upper-cased. |
| BrowserMovement.JoinFirstChar | modules/movement.js:248 | Joining a list whose first word begins with c begins with c. |
| BrowserMovement.CapitalizeCons | modules/movement.js:247 | Capitalising a list whose first word begins with c upper-cases c and leaves the rest of the list as capitalising it alone would. |
| BrowserMovement.SeparatorStep | modules/movement.js:244-249 | A leading '_' adds an empty first part, so the formatted text gains a leading space, as the reference does. |
| BrowserMovement.LetterStep | modules/movement.js:244-249 | A leading letter joins the first part, so the formatted text begins with it upper-cased, as the reference does. |
| BrowserMovement.FormatMatchesLabel | modules/movement.js:244-249 | Split on '_', capitalise and join with ' ' equals the character-by-character reference. |
| BrowserMovement.FormatStatusShape | modules/movement.js:244-249 | `formatStatus` keeps the length and leaves no '_'. Each '_' becomes a space, and the first character is upper-cased. |
| BrowserMovement.FormatStatus | modules/movement.js:244-249 | Split on '_', capitalise each part, join with spaces; its meaning is fixed by FormatMatchesLabel. |
| BrowserMovement.BadgeClass | modules/movement.js:256-266 | in_transit gives info, delivered success, returned warning, damaged danger and lost dark. "secondary" is given iff the status is none of the five. |
| BrowserMovement.BadgesTellListedStatusesApart | modules/movement.js:258-265 | Two different statuses share a badge only when both are unlisted and get "secondary". |
| BrowserMovement.RouteStatusesHaveBadges | modules/movement.js:258-265 | in_transit gives info and delivered gives success, but the formatted "In Transit" gets secondary. |
| AppShell.NavigateTo | app.js:683-700 | The current page is pushed iff history is asked for and there is a current page. The path becomes the current page. |
| AppShell.GoBack | app.js:703-719 | A non-empty stack pops its top and goes there without pushing, answering true. An empty stack goes to "/dashboard" with an empty stack, answering false. |
| AppShell.NavigateThenBack | app.js:683-714 | Going somewhere and back restores the page and the stack. |
| AppShell.FirstNavigationLeavesNoTrail | app.js:683-719 | After the very first navigation, going back lands on the dashboard and answers false. |
| AppShell.ReplaceKeepsStack | app.js:683-700 | Navigating without history leaves the stack alone. |
| AppShell.PageTitle | app.js:2163-2173 | overview, blockchain, register, track and verify give "Dashboard", "Blockchain Status", "Register Chemical", "Track Movement" and "Verify Chemical". An unlisted page is itself with its first character upper-cased. |
| AppShell.UnlistedCapitalPageIsItsTitle | app.js:2163-2173 | An unlisted page starting with no lower-case letter is its own title. |
| AppShell.ShortAddress | app.js:2406-2409 | An address longer than 12 characters shows as the first 6, "..." and the last 6. Others are unchanged. The display is never longer than 15. |
| AppShell.ShortAddressKeepsEnds | app.js:2406-2409 | The displayed address keeps the first and last six characters. |
| AppShell.BlankFieldRejected | app.js:426-434 | A field of blanks fails the registration check after trimming. |
| AppShell.RegistrationComplete | app.js:426-432 | Name, tag, manufacturer and location are all non-empty after trimming. |
| AppShell.MovementBody | app.js:584-598 | The form's body carries its tag and location as JSON fields. |
| AppShell.MovementComplete | app.js:595 | Tag, location and mover are non-empty; unlike registration, nothing is trimmed. |
| AppShell.CompleteMovementAccepted | app.js:595-598 | A movement the form lets through is never refused with 400 by `log_event`. It is stored with the form's tag and mover when the commit succeeds. |

## Left out

- Web3 networking, signing, nonces, chain ids and receipt waits are not modelled. The node is an oracle of outcomes. Only the order guard → estimate → send → reply is kept.
- `time.sleep` and the 120 and 180 second timeouts are not modelled. The sleeps become a list of wait durations.
- The gas-price increase `int(gas_price * 1.1)` is left out, because it never reaches a modelled result.
- Ledger.Buffered: the float product `int(estimate * 1.1)` is stated as integer floor bounds, not the exact float result.
- Flask, `flash` messages, templates, `url_for`, the MSDS file upload and the request's IP address are not modelled. Pages are outcome values.
- `uuid4` randomness is an input: the hex string of the generated tag.
- SQLAlchemy is not modelled. Its place is taken by an in-memory store plus a `dbOk` commit flag; a failed commit restores the store. A route that commits twice is modelled with one flag.
- The organisation `description` field is not stored, because no rule reads it.
- Each route's `BlockchainClient()` call is an input that raises or returns a truthy or falsy value. That value stands for what the argumentless call would do.
- `current_app.blockchain_client` is never set anywhere in the application. The manufacturer registration takes the client's presence as an input.
- The manufacturer's `ChemicalRegistrationForm` and `ShipmentForm` are not declared in app/forms.py. Their validity is an input.
- As written, no route is reachable. app/routes/manufacturer.py:7 imports `ChemicalRegistrationForm` and `ShipmentForm`, which app/forms.py does not declare, so importing that module raises ImportError. app/routes/__init__.py:7 imports the manufacturer module, so the package import at app/__init__.py:3 fails and the application never starts. Each route is modelled as if these imports succeeded.
- Endpoint names missing from `url_for`, and blueprints that app/__init__.py does not register, are not modelled. Each route is modelled as if reachable.
- `logout` and `change_password` of app/routes/auth.py are not modelled. They carry no decision beyond an audit row and a password check.
- The admin blueprint's own `admin_required` (app/routes/admin.py:44-52) behaves like Access.AdminRequired and is not modelled separately.
- The admin dashboard and list pages of app/routes/admin.py are not modelled. They only read and render.
- AdminRoutes.ViewAnomalies: the anomaly list is taken in the order the query returns it; `order_by(detected_at)` is not modelled.
- The first `record_movement` of app/blockchain_client.py (line 147) is not modelled, because Python replaces it with the second definition.
- The browser's `fetch`, the DOM, `sessionStorage`, the 30-second polling and the `login`, `initAuth` and `protectRoutes` functions of modules/auth.js are not modelled.
- `renderMovementHistory`, `formatDate`, the location autocomplete of modules/movement.js and rendering in app.js are not modelled.
- BrowserMovement.BadgeClass and AppShell.PageTitle: keys inherited from the object prototype (such as "constructor") are not modelled as lookup hits.
- BrowserMovement.FormatStatusShape and AppShell.PageTitle: upper-casing is modelled for ASCII letters only. JavaScript's full Unicode case mapping, which can change lengths, is not.
- BrowserAuth.CanAccessRoute: `getCurrentUser` is replaced by the session value passed in.
- modules/ui.js, modules/chemical.js, modules/blockchain.js, the operational scripts and the test scripts are not part of this model. They hold DOM code, I/O or printing only.
- app/models.py declares only `Chemical(id, name, rfid_tag)` and `MovementLog(id, tag_id, location, timestamp)`. Every other table (organisations, users, receipts, audit rows, anomalies) and every other column the routes use is assumed from the routes' own use of it.
- Access.HasRole: No file of the application defines `User.has_role`. It is assumed to be equality with the user's role, and `is_admin` is assumed to be a stored flag.
- MainRoutes.LogEvent: against the declared `MovementLog`, the keywords `moved_by`, `purpose`, `status` and `remarks` (app/routes/main.py:34-42) would raise TypeError. The model assumes the columns exist, as the routes do.
- The audit rows are built with two keyword families: `action=`/`details=` in app/routes/distributor.py:61-68 and app/routes/customer.py:128-135, and `action_type=`/`description=` in the admin, auth and manufacturer routes. No single schema accepts both, so one family raises. The model stores both alike.
- The `RegistrationForm`, `OrganizationForm` and `AnomalyResolutionForm` of app/forms.py are used by no route of the application: the auth and admin routes declare forms of their own, and `resolve_anomaly` reads the raw request. Their rules are modelled as declared, and nothing connects them to a route.
- Custody.ParseId: SQLite (the database URI at app/__init__.py:7) compares text with an integer key by numeric affinity, so "+5", " 5" or "5.0" would find row 5. Only plain digit strings are read as ids.
- CustomerRoutes.MovementById: inherits the same restriction to plain digit strings.
- ManufacturerRoutes.ViewDashboard: `order_by(Chemical.created_at.desc())` is not modelled, because the model's chemicals carry no creation time. They are listed in table order.
- CustomerRoutes.ConfirmReceipt: the scanned tag is an input of its own, because `ConfirmReceiptForm` declares no `rfid_tag` field for it to come from.
- ManufacturerRoutes.RegisterChemical: the strptime checks on JSON dates are an input flag, not a date parser.
- Forms.MovementValid: the FloatFields `quantity`, `min_temperature` and `max_temperature` (app/forms.py:95,107,108) and the DateTimeField `estimated_arrival` are integers. Fractional values are not represented, and None stands for a blank or unparseable entry.
- BrowserClient.GetChemicalHistory: after a body that does not parse as JSON, the message is the prefix alone. The parser's own error text is defined by the JavaScript engine and is not modelled.
- No anomaly-detection rules are modelled, because the application defines none: anomalies are only counted and resolved.
- ManufacturerRoutes.ViewShipment: the audit rows are listed in table order. `order_by(AuditLog.timestamp.desc())` (app/routes/manufacturer.py:357-360) is not modelled, because the model's audit rows carry no timestamp.

## Findings

| source | as written | input that shows it | evidently intended | confidence | as-written member | corrected member |
|---|---|---|---|---|---|---|
| app/forms.py:46-49 | `validate_email_domain` reads `self.id.data`, but the form declares no `id` field. The defect is latent: the admin and auth routes declare their own `OrganizationForm` and `RegistrationForm` (app/routes/admin.py:13, app/routes/auth.py:17), so no route of the application uses this class | any submission of this form naming a domain some organisation already holds, such as re-submitting an organisation's own domain | reject a domain held by an organisation other than the one being edited | medium, not executed | Forms.OrgDomainUniqueAsWritten (shown by Forms.OrgDomainResaveDiffers) | Forms.OrgDomainUnique |
| app/routes/distributor.py:74-82 | `BlockchainClient()` is built with no arguments (the constructor at app/blockchain_client.py:7 needs two) and called with keywords `record_movement` does not accept | any valid movement form | record the movement on the ledger when the client is configured | high, not executed | DistributorRoutes.AsWrittenNeverRecords, CustomerRoutes.AsWrittenNeverVerified | DistributorRoutes.LogMovement (with DistributorRoutes.ValidatedFormAlwaysTriesLedger) |
| app/routes/auth.py:24 | the `organization` SelectField is given no choices, so validating it fails | any sign-up with valid fields | sign-up succeeds for a valid form | medium, not executed | AuthRoutes.RegisterAsWritten (shown by AuthRoutes.AsWrittenSignUpFails) | AuthRoutes.Register |
| modules/movement.js:26-27 | the body sends the tag under `rfid_tag`, while `log_event` requires `tag_id` (app/routes/main.py:30) | any tag and location | the backend logs the movement | high, not executed | BrowserMovement.RecordMovementAsWritten (shown by BrowserMovement.AsWrittenAlwaysRefused) | BrowserMovement.RecordMovement |
| modules/movement.js:108 | `getCurrentUser` is called but never imported (lines 6-7), so the handler throws | any submission with a tag and location | the mover is the signed-in user's id, or 'system' when no user is signed in | high, not executed | BrowserMovement.HandleSubmitAsWritten (shown by BrowserMovement.AsWrittenFormNeverRecords) | BrowserMovement.HandleSubmit |
| app/routes/customer.py:111 | `confirm_receipt` reads `form.rfid_tag.data`, but `ConfirmReceiptForm` declares no `rfid_tag` field (app/forms.py:118-123), so the attribute error ends the request | any valid confirmation of a pending inbound shipment whose chemical exists | confirm the receipt, checking a scanned tag when one is given | high, not executed | CustomerRoutes.ConfirmReceiptAsWritten (shown by CustomerRoutes.AsWrittenNeverConfirms) | CustomerRoutes.ConfirmReceipt |

=== FILE: access.dfy ===
/** The server-side access decorators: every protected view first sends an
    anonymous visitor to the login page, then checks the signed-in user's
    standing. */
module Access {
  import opened Custody

  /** Who is making the request. */
  datatype Visitor = Anonymous | Signed(user: User)

  /** What a decorator does with the request: redirect to the login page,
      redirect to the dashboard, or call the view. */
  datatype Gate = ToLogin | ToDashboard | Admit

  /** `User.has_role`: the user's role is the one asked for. */
  predicate HasRole(user: User, role: Role) {
    user.role == role
  }

  /** `admin_required`. */
  function AdminRequired(v: Visitor): (g: Gate)
    ensures v.Anonymous? <==> g == ToLogin
    ensures g == Admit <==> v.Signed? && v.user.isAdmin
  {
    match v
    case Anonymous => ToLogin
    case Signed(u) => if u.isAdmin then Admit else ToDashboard
  }

  /** `manufacturer_required`, `distributor_required` and `customer_required`:
      the role alone decides; being an administrator does not help. */
  function RoleRequired(role: Role, v: Visitor): (g: Gate)
    ensures v.Anonymous? <==> g == ToLogin
    ensures g == Admit <==> v.Signed? && HasRole(v.user, role)
  {
    match v
    case Anonymous => ToLogin
    case Signed(u) => if HasRole(u, role) then Admit else ToDashboard
  }

  function ManufacturerRequired(v: Visitor): (g: Gate)
    ensures g == Admit <==> v.Signed? && v.user.role == Manufacturer
    ensures v.Anonymous? <==> g == ToLogin
  {
    RoleRequired(Manufacturer, v)
  }

  function DistributorRequired(v: Visitor): (g: Gate)
    ensures g == Admit <==> v.Signed? && v.user.role == Distributor
    ensures v.Anonymous? <==> g == ToLogin
  {
    RoleRequired(Distributor, v)
  }

  function CustomerRequired(v: Visitor): (g: Gate)
    ensures g == Admit <==> v.Signed? && v.user.role == Customer
    ensures v.Anonymous? <==> g == ToLogin
  {
    RoleRequired(Customer, v)
  }

  /** `role_required(*roles)`: administrators always pass; anyone else passes
      when one of the listed roles is theirs, found by a scan that stops at
      the first match. */
  method AnyRoleRequired(roles: seq<Role>, v: Visitor) returns (g: Gate)
    ensures v.Anonymous? <==> g == ToLogin
    ensures v.Signed? && v.user.isAdmin ==> g == Admit
    ensures v.Signed? && !v.user.isAdmin ==> (g == Admit <==> exists i :: 0 <= i < |roles| && HasRole(v.user, roles[i]))
  {
    if v.Anonymous? {
      return ToLogin;
    }
    var u := v.user;
    if u.isAdmin {
      return Admit;
    }
    var permitted := false;
    var i := 0;
    while i < |roles|
      invariant 0 <= i <= |roles|
      invariant !permitted ==> forall j :: 0 <= j < i ==> !HasRole(u, roles[j])
      invariant permitted ==> exists r :: r in roles && HasRole(u, r)
      decreases |roles| - i
    {
      if HasRole(u, roles[i]) {
        permitted := true;
        break;
      }
      i := i + 1;
    }
    g := if permitted then Admit else ToDashboard;
  }

  /** The per-role decorators and `role_required` part ways on administrators:
      an administrator holding another role is refused by the first and
      admitted by the second. */
  method AdminBypassOnlyInRoleRequired(u: User, role: Role) returns (single: Gate, listed: Gate)
    requires u.isAdmin && u.role != role
    ensures single == ToDashboard && listed == Admit
  {
    single := RoleRequired(role, Signed(u));
    listed := AnyRoleRequired([role], Signed(u));
  }
}

=== FILE: admin_routes.dfy ===
/** The administration blueprint: the organisation form with its domain
    cleaning and uniqueness rule, adding and editing organisations, the
    guarded deactivation of organisations and users, and the anomaly
    statistics and resolution. Every view here sits behind `admin_required`
    (see `Access.AdminRequired`). */
module AdminRoutes {
  import opened Wrappers
  import opened Text
  import opened Custody
  import Domains
  import Forms

  /** `email_domain.data.strip().lstrip('@')`. */
  function CleanDomain(raw: string): (d: string)
    ensures |d| <= |raw|
    ensures var p := PyStrip(raw); |d| <= |p| && d == p[|p| - |d|..]
    ensures var p := PyStrip(raw); forall i :: 0 <= i < |p| - |d| ==> p[i] == '@'
    ensures |d| == 0 || d[0] != '@'
    ensures |d| > 0 ==> !IsPySpace(d[|d| - 1])
  {
    LStripChar(PyStrip(raw), '@')
  }

  /** `re.match(pattern, domain)` with the pattern's `$`: stripping has already
      removed any final newline, so the allowance `$` makes for one never
      applies to a cleaned domain. */
  lemma {:induction false} CleanedNeedsNoNewlineAllowance(raw: string)
    ensures Domains.WithNewlineAllowance(CleanDomain(raw), Domains.AdminPattern) <==> Domains.AdminPattern(CleanDomain(raw))
  {
  }

  /** A cleaned domain is its own cleaning once its edges are neither blank
      nor '@'. */
  lemma CleanFixesTidyEdges(d: string)
    requires |d| > 0 && IsAlnum(d[0]) && IsLetter(d[|d| - 1])
    ensures CleanDomain(d) == d
  {
    assert !IsPySpace(d[0]) && !IsPySpace(d[|d| - 1]);
    var front := TrimStart(d, IsPySpace);
    assert front == d;
    var both := TrimEnd(front, IsPySpace);
    assert both == d;
    assert d[0] != '@';
    assert LStripChar(d, '@') == d;
  }

  /** Cleaning a domain the pattern accepts again changes nothing: the value
      written back into the form is a fixed point. */
  lemma CleanStable(raw: string)
    requires Domains.AdminPattern(CleanDomain(raw))
    ensures CleanDomain(CleanDomain(raw)) == CleanDomain(raw)
  {
    Domains.AcceptedDomainEdges(CleanDomain(raw));
    CleanFixesTidyEdges(CleanDomain(raw));
  }

  /** The id the edit route passes in its URL; `if org_id:` treats 0 like
      no id at all. */
  predicate Editing(orgId: Option<nat>) {
    orgId.Some? && orgId.value != 0
  }

  /** Another organisation already holds `d` (the one being edited excluded). */
  predicate HeldElsewhere(s: Store, d: string, orgId: Option<nat>) {
    exists i :: 0 <= i < |s.orgs| && s.orgs[i].emailDomain == Some(d) && !(Editing(orgId) && s.orgs[i].id == orgId.value)
  }

  /** The first organisation other than the edited one holding `d`. */
  function Holder(s: Store, d: string, orgId: Option<nat>): (i: Option<nat>)
    ensures i.Some? ==> i.value < |s.orgs| && s.orgs[i.value].emailDomain == Some(d)
    ensures i.Some? <==> HeldElsewhere(s, d, orgId)
  {
    Find(s.orgs, (o: Org) => o.emailDomain == Some(d) && !(Editing(orgId) && o.id == orgId.value))
  }

  datatype DomainCheck = BadFormat | DomainHeld | DomainAccepted(cleaned: string)

  /** `OrganizationForm.validate_email_domain` of the admin blueprint: clean,
      match the pattern, refuse a domain held by another organisation, and
      hand back the cleaned value to be written into the field. */
  function ValidateDomain(s: Store, raw: string, orgId: Option<nat>): (r: DomainCheck)
    ensures r == BadFormat <==> !Domains.AdminPattern(CleanDomain(raw))
    ensures r == DomainHeld <==> Domains.AdminPattern(CleanDomain(raw)) && HeldElsewhere(s, CleanDomain(raw), orgId)
    ensures r.DomainAccepted? ==> r.cleaned == CleanDomain(raw)
  {
    var d := CleanDomain(raw);
    CleanedNeedsNoNewlineAllowance(raw);
    if !Domains.WithNewlineAllowance(d, Domains.AdminPattern) then BadFormat
    else if Holder(s, d, orgId).Some? then DomainHeld
    else DomainAccepted(d)
  }

  /** Editing organisation 0 is checked as if adding: its own domain counts
      against it. */
  lemma EditingZeroCountsAsAdding(s: Store, raw: string)
    ensures ValidateDomain(s, raw, Some(0)) == ValidateDomain(s, raw, None)
  {
  }

  /** Re-saving an organisation under the domain it holds is accepted when no
      other organisation holds it. */
  lemma ResaveAccepted(s: Store, k: nat, raw: string)
    requires k < |s.orgs| && s.orgs[k].id != 0
    requires Domains.AdminPattern(CleanDomain(raw)) && s.orgs[k].emailDomain == Some(CleanDomain(raw))
    requires forall j :: 0 <= j < |s.orgs| && s.orgs[j].id != s.orgs[k].id ==> s.orgs[j].emailDomain != Some(CleanDomain(raw))
    ensures ValidateDomain(s, raw, Some(s.orgs[k].id)) == DomainAccepted(CleanDomain(raw))
  {
  }

  datatype OrganizationForm = OrganizationForm(
    name: string, emailDomain: string, description: string,
    canManufacture: bool, canDistribute: bool, canReceive: bool)

  /** The admin organisation form validates: a name and a domain are given,
      and the domain check accepts. */
  predicate OrganizationValid(s: Store, f: OrganizationForm, orgId: Option<nat>) {
    Forms.Required(f.name) && Forms.Required(f.emailDomain) && ValidateDomain(s, f.emailDomain, orgId).DomainAccepted?
  }

  function OrgById(s: Store, id: nat): (i: Option<nat>)
    ensures i.Some? ==> i.value < |s.orgs| && s.orgs[i.value].id == id
    ensures i.Some? ==> forall j :: 0 <= j < i.value ==> s.orgs[j].id != id
    ensures i.None? <==> forall j :: 0 <= j < |s.orgs| ==> s.orgs[j].id != id
  {
    Find(s.orgs, (o: Org) => o.id == id)
  }

  function UserById(s: Store, id: nat): (i: Option<nat>)
    ensures i.Some? ==> i.value < |s.users| && s.users[i.value].id == id
    ensures i.None? <==> forall j :: 0 <= j < |s.users| ==> s.users[j].id != id
  {
    Find(s.users, (u: User) => u.id == id)
  }

  datatype AdminPage = NotFound404 | FormPage | Refused | ServerError | Done(id: nat)

  datatype AdminOutcome = AdminOutcome(store: Store, page: AdminPage)

  /** `add_organization`: a valid form adds an active organisation under the
      cleaned domain, and an audit row naming it. */
  function AddOrganization(s: Store, admin: User, f: OrganizationForm, dbOk: bool): (r: AdminOutcome)
    ensures !r.page.Done? ==> r.store == s
    ensures r.page.Done? <==> OrganizationValid(s, f, None) && dbOk
    ensures r.page.Done? ==>
      && |r.store.orgs| == |s.orgs| + 1 && r.store.orgs[..|s.orgs|] == s.orgs
      && var o := r.store.orgs[|s.orgs|];
      && o.id == r.page.id && (forall j :: 0 <= j < |s.orgs| ==> s.orgs[j].id != o.id)
      && o.name == f.name && o.emailDomain == Some(CleanDomain(f.emailDomain)) && o.active
      && Domains.AdminPattern(CleanDomain(f.emailDomain))
      && !Forms.DomainTaken(s, CleanDomain(f.emailDomain))
      && o.canManufacture == f.canManufacture && o.canDistribute == f.canDistribute && o.canReceive == f.canReceive
      && r.store.audits == s.audits + [Audit("organization_creation", "Organization", Some(o.id), admin.id, admin.org)]
      && r.store.(orgs := s.orgs, audits := s.audits) == s
  {
    if !OrganizationValid(s, f, None) then AdminOutcome(s, FormPage)
    else if !dbOk then AdminOutcome(s, ServerError)
    else
      var d := ValidateDomain(s, f.emailDomain, None).cleaned;
      var id := NextId(Ids(s.orgs, (o: Org) => o.id));
      var o := Org(id, f.name, Some(d), true, f.canManufacture, f.canDistribute, f.canReceive);
      AdminOutcome(s.(orgs := s.orgs + [o],
                      audits := s.audits + [Audit("organization_creation", "Organization", Some(id), admin.id, admin.org)]),
                   Done(id))
  }

  /** `edit_organization`: 404 for an unknown id; a valid form rewrites the
      name, the cleaned domain and the three permissions, keeping the id and
      the active flag. */
  function EditOrganization(s: Store, admin: User, orgId: nat, f: OrganizationForm, dbOk: bool): (r: AdminOutcome)
    ensures !r.page.Done? ==> r.store == s
    ensures r.page == NotFound404 <==> OrgById(s, orgId).None?
    ensures r.page.Done? <==> OrgById(s, orgId).Some? && OrganizationValid(s, f, Some(orgId)) && dbOk
    ensures r.page.Done? ==>
      var k := OrgById(s, orgId).value;
      && r.store.orgs == s.orgs[k := s.orgs[k].(name := f.name, emailDomain := Some(CleanDomain(f.emailDomain)),
           canManufacture := f.canManufacture, canDistribute := f.canDistribute, canReceive := f.canReceive)]
      && r.store.audits == s.audits + [Audit("organization_update", "Organization", Some(orgId), admin.id, admin.org)]
      && r.store.(orgs := s.orgs, audits := s.audits) == s
  {
    match OrgById(s, orgId)
    case None => AdminOutcome(s, NotFound404)
    case Some(k) =>
      if !OrganizationValid(s, f, Some(orgId)) then AdminOutcome(s, FormPage)
      else if !dbOk then AdminOutcome(s, ServerError)
      else
        var d := ValidateDomain(s, f.emailDomain, Some(orgId)).cleaned;
        var o := s.orgs[k].(name := f.name, emailDomain := Some(d), canManufacture := f.canManufacture,
                            canDistribute := f.canDistribute, canReceive := f.canReceive);
        AdminOutcome(s.(orgs := Put(s.orgs, k, o),
                        audits := s.audits + [Audit("organization_update", "Organization", Some(orgId), admin.id, admin.org)]),
                     Done(orgId))
  }

  const SystemOrg: string := "System"

  /** `deactivate_organization`: 404 for an unknown id; the organisation named
      "System" is refused; otherwise only that organisation's active flag
      changes, and an audit row names it. */
  function DeactivateOrganization(s: Store, admin: User, orgId: nat, dbOk: bool): (r: AdminOutcome)
    ensures !r.page.Done? ==> r.store == s
    ensures r.page == NotFound404 <==> OrgById(s, orgId).None?
    ensures r.page == Refused <==> OrgById(s, orgId).Some? && s.orgs[OrgById(s, orgId).value].name == SystemOrg
    ensures r.page.Done? ==>
      var k := OrgById(s, orgId).value;
      && s.orgs[k].name != SystemOrg
      && r.store.orgs == s.orgs[k := s.orgs[k].(active := false)]
      && r.store.audits == s.audits + [Audit("organization_deactivation", "Organization", Some(orgId), admin.id, admin.org)]
      && r.store.(orgs := s.orgs, audits := s.audits) == s
  {
    match OrgById(s, orgId)
    case None => AdminOutcome(s, NotFound404)
    case Some(k) =>
      if s.orgs[k].name == SystemOrg then AdminOutcome(s, Refused)
      else if !dbOk then AdminOutcome(s, ServerError)
      else AdminOutcome(s.(orgs := Put(s.orgs, k, s.orgs[k].(active := false)),
                           audits := s.audits + [Audit("organization_deactivation", "Organization", Some(orgId), admin.id, admin.org)]),
                        Done(orgId))
  }

  /** `deactivate_user`: 404 for an unknown id; an administrator is refused;
      otherwise only that user's active flag changes. */
  function DeactivateUser(s: Store, admin: User, userId: nat, dbOk: bool): (r: AdminOutcome)
    ensures !r.page.Done? ==> r.store == s
    ensures r.page == NotFound404 <==> UserById(s, userId).None?
    ensures r.page == Refused <==> UserById(s, userId).Some? && s.users[UserById(s, userId).value].isAdmin
    ensures r.page.Done? ==>
      var k := UserById(s, userId).value;
      && !s.users[k].isAdmin
      && r.store.users == s.users[k := s.users[k].(active := false)]
      && r.store.audits == s.audits + [Audit("user_deactivation", "User", Some(userId), admin.id, admin.org)]
      && r.store.(users := s.users, audits := s.audits) == s
  {
    match UserById(s, userId)
    case None => AdminOutcome(s, NotFound404)
    case Some(k) =>
      if s.users[k].isAdmin then AdminOutcome(s, Refused)
      else if !dbOk then AdminOutcome(s, ServerError)
      else AdminOutcome(s.(users := Put(s.users, k, s.users[k].(active := false)),
                           audits := s.audits + [Audit("user_deactivation", "User", Some(userId), admin.id, admin.org)]),
                        Done(userId))
  }

  /** `activate_organization`: 404 for an unknown id; otherwise only that
      organisation's active flag is set, with no name check. */
  function ActivateOrganization(s: Store, admin: User, orgId: nat, dbOk: bool): (r: AdminOutcome)
    ensures !r.page.Done? ==> r.store == s
    ensures r.page == NotFound404 <==> OrgById(s, orgId).None?
    ensures r.page.Done? <==> OrgById(s, orgId).Some? && dbOk
    ensures r.page.Done? ==>
      var k := OrgById(s, orgId).value;
      && r.store.orgs == s.orgs[k := s.orgs[k].(active := true)]
      && r.store.audits == s.audits + [Audit("organization_activation", "Organization", Some(orgId), admin.id, admin.org)]
      && r.store.(orgs := s.orgs, audits := s.audits) == s
  {
    match OrgById(s, orgId)
    case None => AdminOutcome(s, NotFound404)
    case Some(k) =>
      if !dbOk then AdminOutcome(s, ServerError)
      else AdminOutcome(s.(orgs := Put(s.orgs, k, s.orgs[k].(active := true)),
                           audits := s.audits + [Audit("organization_activation", "Organization", Some(orgId), admin.id, admin.org)]),
                        Done(orgId))
  }

  /** `activate_user`: 404 for an unknown id; otherwise only that user's
      active flag is set. */
  function ActivateUser(s: Store, admin: User, userId: nat, dbOk: bool): (r: AdminOutcome)
    ensures !r.page.Done? ==> r.store == s
    ensures r.page == NotFound404 <==> UserById(s, userId).None?
    ensures r.page.Done? <==> UserById(s, userId).Some? && dbOk
    ensures r.page.Done? ==>
      var k := UserById(s, userId).value;
      && r.store.users == s.users[k := s.users[k].(active := true)]
      && r.store.audits == s.audits + [Audit("user_activation", "User", Some(userId), admin.id, admin.org)]
      && r.store.(users := s.users, audits := s.audits) == s
  {
    match UserById(s, userId)
    case None => AdminOutcome(s, NotFound404)
    case Some(k) =>
      if !dbOk then AdminOutcome(s, ServerError)
      else AdminOutcome(s.(users := Put(s.users, k, s.users[k].(active := true)),
                           audits := s.audits + [Audit("user_activation", "User", Some(userId), admin.id, admin.org)]),
                        Done(userId))
  }

  /** Deactivating an active organisation and activating it again leaves the
      organisation table as it was; only the two audit rows remain. */
  lemma DeactivateThenActivateRestores(s: Store, admin: User, orgId: nat)
    requires OrgById(s, orgId).Some? && s.orgs[OrgById(s, orgId).value].active
    requires DeactivateOrganization(s, admin, orgId, true).page.Done?
    ensures
      var s1 := DeactivateOrganization(s, admin, orgId, true).store;
      var s2 := ActivateOrganization(s1, admin, orgId, true).store;
      && s2.orgs == s.orgs
      && s2.audits == s.audits + [Audit("organization_deactivation", "Organization", Some(orgId), admin.id, admin.org),
                                  Audit("organization_activation", "Organization", Some(orgId), admin.id, admin.org)]
  {
    var k := OrgById(s, orgId).value;
    var s1 := DeactivateOrganization(s, admin, orgId, true).store;
    assert OrgById(s1, orgId) == Some(k) by {
      assert forall j :: 0 <= j < |s1.orgs| ==> s1.orgs[j].id == s.orgs[j].id;
    }
  }

  /** No deactivation request ever turns off the "System" organisation or an
      administrator, whatever id it names. */
  lemma ProtectedRowsStayActive(s: Store, admin: User, id: nat, dbOk: bool)
    ensures forall i :: 0 <= i < |s.orgs| && s.orgs[i].name == SystemOrg ==>
      DeactivateOrganization(s, admin, id, dbOk).store.orgs[i] == s.orgs[i]
    ensures forall i :: 0 <= i < |s.users| && s.users[i].isAdmin ==>
      DeactivateUser(s, admin, id, dbOk).store.users[i] == s.users[i]
  {
  }

  /** How often `x` occurs in `xs`. */
  function Occurrences(xs: seq<string>, x: string): (n: nat)
    ensures n <= |xs|
    ensures n > 0 <==> x in xs
  {
    if |xs| == 0 then 0
    else
      assert xs == xs[..|xs| - 1] + [xs[|xs| - 1]];
      Occurrences(xs[..|xs| - 1], x) + (if xs[|xs| - 1] == x then 1 else 0)
  }

  /** Three different values occur at most as often, together, as the
      sequence is long. */
  lemma {:induction false} ThreeOccurrencesBounded(xs: seq<string>, a: string, b: string, c: string)
    requires a != b && b != c && a != c
    ensures Occurrences(xs, a) + Occurrences(xs, b) + Occurrences(xs, c) <= |xs|
    decreases |xs|
  {
    if |xs| > 0 {
      ThreeOccurrencesBounded(xs[..|xs| - 1], a, b, c);
    }
  }

  function Statuses(anomalies: seq<Anomaly>): (r: seq<string>)
    ensures |r| == |anomalies| && forall i :: 0 <= i < |anomalies| ==> r[i] == anomalies[i].status
  {
    seq(|anomalies|, i requires 0 <= i < |anomalies| => anomalies[i].status)
  }

  function Kinds(anomalies: seq<Anomaly>): (r: seq<string>)
    ensures |r| == |anomalies| && forall i :: 0 <= i < |anomalies| ==> r[i] == anomalies[i].kind
  {
    seq(|anomalies|, i requires 0 <= i < |anomalies| => anomalies[i].kind)
  }

  /** One entry of the per-type dictionary, in first-seen order. */
  datatype Tally = Tally(kind: string, count: nat)

  function Total(t: seq<Tally>): nat {
    if |t| == 0 then 0 else t[0].count + Total(t[1..])
  }

  /** The count the dictionary holds for `k`, 0 when absent. */
  function CountOf(t: seq<Tally>, k: string): nat {
    if |t| == 0 then 0 else if t[0].kind == k then t[0].count else CountOf(t[1..], k)
  }

  /** The kinds the dictionary has keys for. */
  function KindSet(t: seq<Tally>): set<string> {
    if |t| == 0 then {} else {t[0].kind} + KindSet(t[1..])
  }

  predicate DistinctKinds(t: seq<Tally>) {
    |t| == 0 || (t[0].kind !in KindSet(t[1..]) && DistinctKinds(t[1..]))
  }

  /** A kind the dictionary has no key for counts 0. */
  lemma {:induction false} AbsentCountsZero(t: seq<Tally>, k: string)
    requires k !in KindSet(t)
    ensures CountOf(t, k) == 0
  {
    if |t| > 0 {
      AbsentCountsZero(t[1..], k);
    }
  }

  /** `if k not in d: d[k] = 0` then `d[k] += 1`. */
  function Bump(t: seq<Tally>, k: string): (r: seq<Tally>)
    requires DistinctKinds(t)
    ensures DistinctKinds(r)
    ensures Total(r) == Total(t) + 1
    ensures KindSet(r) == KindSet(t) + {k}
    ensures forall j :: CountOf(r, j) == CountOf(t, j) + (if j == k then 1 else 0)
  {
    if |t| == 0 then
      assert [Tally(k, 1)][1..] == [];
      [Tally(k, 1)]
    else if t[0].kind == k then
      var r := [t[0].(count := t[0].count + 1)] + t[1..];
      assert r[1..] == t[1..];
      r
    else
      var rest := Bump(t[1..], k);
      var r := [t[0]] + rest;
      assert r[1..] == rest;
      r
  }

  /** The per-type dictionary built by counting `kinds` in order: one entry
      per kind, each holding that kind's number of occurrences. */
  function Tallied(kinds: seq<string>): (t: seq<Tally>)
    ensures DistinctKinds(t) && Total(t) == |kinds|
    ensures forall k :: CountOf(t, k) == Occurrences(kinds, k)
    ensures forall k :: k in KindSet(t) <==> k in kinds
    decreases |kinds|
  {
    if |kinds| == 0 then []
    else
      var init := kinds[..|kinds| - 1];
      assert kinds == init + [kinds[|kinds| - 1]];
      Bump(Tallied(init), kinds[|kinds| - 1])
  }

  datatype AnomalyStats = AnomalyStats(total: nat, open: nat, resolved: nat, falsePositives: nat, byType: seq<Tally>)

  /** `view_anomalies`: the three status counters, each a count over the
      list, and the per-type dictionary, filled in one pass. */
  method ViewAnomalies(anomalies: seq<Anomaly>) returns (st: AnomalyStats)
    ensures st.total == |anomalies|
    ensures st.open == Occurrences(Statuses(anomalies), "open")
    ensures st.resolved == Occurrences(Statuses(anomalies), "resolved")
    ensures st.falsePositives == Occurrences(Statuses(anomalies), "false_positive")
    ensures st.open + st.resolved + st.falsePositives <= st.total
    ensures DistinctKinds(st.byType) && Total(st.byType) == st.total
    ensures forall k :: CountOf(st.byType, k) == Occurrences(Kinds(anomalies), k)
    ensures forall k :: k in KindSet(st.byType) <==> k in Kinds(anomalies)
  {
    var statuses := Statuses(anomalies);
    var open := Occurrences(statuses, "open");
    var resolved := Occurrences(statuses, "resolved");
    var falsePositives := Occurrences(statuses, "false_positive");
    ThreeOccurrencesBounded(statuses, "open", "resolved", "false_positive");
    var kinds := Kinds(anomalies);
    var types: seq<Tally> := [];
    var i := 0;
    while i < |anomalies|
      invariant 0 <= i <= |anomalies|
      invariant types == Tallied(kinds[..i])
      decreases |anomalies| - i
    {
      assert kinds[..i + 1][..i] == kinds[..i];
      types := Bump(types, anomalies[i].kind);
      i := i + 1;
    }
    assert kinds[..i] == kinds;
    st := AnomalyStats(|anomalies|, open, resolved, falsePositives, types);
  }

  /** `request.form.get(key, default)`. */
  function FormGet(form: map<string, string>, key: string, default: string): (v: string)
    ensures key in form ==> v == form[key]
    ensures key !in form ==> v == default
  {
    if key in form then form[key] else default
  }

  function AnomalyById(s: Store, id: nat): (i: Option<nat>)
    ensures i.Some? ==> i.value < |s.anomalies| && s.anomalies[i.value].id == id
    ensures i.None? <==> forall j :: 0 <= j < |s.anomalies| ==> s.anomalies[j].id != id
  {
    Find(s.anomalies, (a: Anomaly) => a.id == id)
  }

  /** `resolve_anomaly`: 404 for an unknown id; otherwise the status (default
      "resolved"), the notes (default empty) and the resolving administrator
      are recorded, with an audit row. The posted status is not checked
      against any list. */
  function ResolveAnomaly(s: Store, admin: User, anomalyId: nat, form: map<string, string>, dbOk: bool): (r: AdminOutcome)
    ensures !r.page.Done? ==> r.store == s
    ensures r.page == NotFound404 <==> AnomalyById(s, anomalyId).None?
    ensures r.page.Done? <==> AnomalyById(s, anomalyId).Some? && dbOk
    ensures r.page.Done? ==>
      var k := AnomalyById(s, anomalyId).value;
      && |r.store.anomalies| == |s.anomalies|
      && r.store.anomalies[k].id == anomalyId && r.store.anomalies[k].kind == s.anomalies[k].kind
      && r.store.anomalies[k].status == (if "resolution_status" in form then form["resolution_status"] else "resolved")
      && r.store.anomalies[k].notes == (if "resolution_notes" in form then form["resolution_notes"] else "")
      && r.store.anomalies[k].resolvedBy == Some(admin.id)
      && (forall j :: 0 <= j < |s.anomalies| && j != k ==> r.store.anomalies[j] == s.anomalies[j])
      && r.store.audits == s.audits + [Audit("anomaly_resolution", "BlockchainAnomaly", Some(anomalyId), admin.id, admin.org)]
      && r.store.(anomalies := s.anomalies, audits := s.audits) == s
  {
    match AnomalyById(s, anomalyId)
    case None => AdminOutcome(s, NotFound404)
    case Some(k) =>
      if !dbOk then AdminOutcome(s, ServerError)
      else
        var a := s.anomalies[k].(status := FormGet(form, "resolution_status", "resolved"),
                                 notes := FormGet(form, "resolution_notes", ""),
                                 resolvedBy := Some(admin.id));
        AdminOutcome(s.(anomalies := Put(s.anomalies, k, a),
                        audits := s.audits + [Audit("anomaly_resolution", "BlockchainAnomaly", Some(anomalyId), admin.id, admin.org)]),
                     Done(anomalyId))
  }

  /** The route does not use the anomaly resolution form: a status outside
      the form's three choices is stored as posted. */
  lemma ResolutionStatusUnchecked(s: Store, admin: User, anomalyId: nat)
    requires AnomalyById(s, anomalyId).Some?
    ensures
      var r := ResolveAnomaly(s, admin, anomalyId, map["resolution_status" := "reopened"], true);
      && r.store.anomalies[AnomalyById(s, anomalyId).value].status == "reopened"
      && "reopened" !in Forms.ResolutionStatuses
  {
  }
}

=== FILE: app_js.dfy ===
/** The single-page application object of app.js: the navigation history
    stack, page titles, the contract-address display and the required-field
    checks of the registration and movement forms. Rendering is not
    modelled. */
module AppShell {
  import opened Wrappers
  import opened Text
  import Custody
  import MainRoutes

  /** `state.navigation`: the current page (`None` before the first
      navigation) and the stack of earlier pages, top last. */
  datatype Navigation = Navigation(currentPage: Option<string>, history: seq<string>)

  /** JavaScript truthiness of the current page. */
  predicate HasPage(n: Navigation) {
    n.currentPage.Some? && n.currentPage.value != ""
  }

  /** `navigateTo(path, addToHistory)`: the current page is pushed when
      asked and when there is one; the path becomes the current page. */
  function NavigateTo(n: Navigation, path: string, addToHistory: bool): (r: Navigation)
    ensures r.currentPage == Some(path)
    ensures addToHistory && HasPage(n) ==> r.history == n.history + [n.currentPage.value]
    ensures !(addToHistory && HasPage(n)) ==> r.history == n.history
  {
    Navigation(Some(path), if addToHistory && HasPage(n) then n.history + [n.currentPage.value] else n.history)
  }

  const Dashboard: string := "/dashboard"

  /** `goBack`: pops the top page and goes there without pushing, answering
      true; with an empty stack goes to the dashboard and answers false. */
  function GoBack(n: Navigation): (out: (Navigation, bool))
    ensures out.1 <==> |n.history| > 0
    ensures |n.history| > 0 ==> out.0 == Navigation(Some(n.history[|n.history| - 1]), n.history[..|n.history| - 1])
    ensures |n.history| == 0 ==> out.0 == Navigation(Some(Dashboard), [])
  {
    if |n.history| > 0 then
      var previous := n.history[|n.history| - 1];
      (NavigateTo(Navigation(n.currentPage, n.history[..|n.history| - 1]), previous, false), true)
    else (NavigateTo(n, Dashboard, false), false)
  }

  /** Going somewhere and back returns to the page you were on, with the
      stack as it was. */
  lemma NavigateThenBack(n: Navigation, path: string)
    requires HasPage(n)
    ensures GoBack(NavigateTo(n, path, true)) == (n, true)
  {
    var m := NavigateTo(n, path, true);
    assert m.history[..|m.history| - 1] == n.history;
  }

  /** Without a current page nothing is pushed: going back after the very
      first navigation lands on the dashboard and answers false. */
  lemma FirstNavigationLeavesNoTrail(path: string)
    ensures GoBack(NavigateTo(Navigation(None, []), path, true)) == (Navigation(Some(Dashboard), []), false)
  {
  }

  /** Navigating without history leaves the stack alone. */
  lemma ReplaceKeepsStack(n: Navigation, path: string)
    ensures NavigateTo(n, path, false).history == n.history
    ensures GoBack(NavigateTo(n, path, false)).0.history == GoBack(n).0.history
  {
  }

  /** `getPageTitle`: five fixed titles, otherwise the page with its first
      character upper-cased. */
  function PageTitle(page: string): (t: string)
    ensures page == "overview" ==> t == "Dashboard"
    ensures page == "blockchain" ==> t == "Blockchain Status"
    ensures page == "register" ==> t == "Register Chemical"
    ensures page == "track" ==> t == "Track Movement"
    ensures page == "verify" ==> t == "Verify Chemical"
    ensures page !in {"overview", "blockchain", "register", "track", "verify"} ==>
      |t| == |page| && (|page| > 0 ==> t[0] == Upper(page[0]) && t[1..] == page[1..])
  {
    match page
    case "overview" => "Dashboard"
    case "blockchain" => "Blockchain Status"
    case "register" => "Register Chemical"
    case "track" => "Track Movement"
    case "verify" => "Verify Chemical"
    case _ => Capitalize(page)
  }

  /** A page that is not one of the five and already starts with a capital
      (or no letter) is its own title. */
  lemma UnlistedCapitalPageIsItsTitle(page: string)
    requires page !in {"overview", "blockchain", "register", "track", "verify"}
    requires |page| > 0 && !IsLower(page[0])
    ensures PageTitle(page) == page
  {
  }

  const Ellipsis: string := "..."

  /** The contract address as displayed: longer than 12 characters becomes
      the first six, "..." and the last six. */
  function ShortAddress(address: string): (r: string)
    ensures |r| <= 15
    ensures |address| <= 12 ==> r == address
    ensures |address| > 12 ==> |r| == 15 && r[..6] == address[..6] && r[6..9] == Ellipsis && r[9..] == address[|address| - 6..]
  {
    if |address| > 12 then address[..6] + Ellipsis + address[|address| - 6..] else address
  }

  /** A displayed address never loses its ends: the first and last six
      characters are always shown. */
  lemma ShortAddressKeepsEnds(address: string)
    requires |address| >= 6
    ensures StartsWith(ShortAddress(address), address[..6])
    ensures var r := ShortAddress(address); r[|r| - 6..] == address[|address| - 6..]
  {
  }

  /** The registration form's check: name, tag, manufacturer and location
      must be non-blank after trimming. */
  predicate RegistrationComplete(name: string, rfidTag: string, manufacturer: string, location: string) {
    JsTrim(name) != "" && JsTrim(rfidTag) != "" && JsTrim(manufacturer) != "" && JsTrim(location) != ""
  }

  /** A field holding only blanks does not count as filled. */
  lemma BlankFieldRejected(blank: string, rfidTag: string, manufacturer: string, location: string)
    requires forall i :: 0 <= i < |blank| ==> IsJsSpace(blank[i])
    ensures !RegistrationComplete(blank, rfidTag, manufacturer, location)
  {
    assert TrimStart(blank, IsJsSpace) == [];
  }

  /** The movement form's fields; input values are never null. */
  datatype MovementFields = MovementFields(
    tagId: string, location: string, movedBy: string, purpose: string, status: string, remarks: string)

  /** The movement form's check: tag, location and mover non-empty (not
      trimmed). */
  predicate MovementComplete(f: MovementFields) {
    f.tagId != "" && f.location != "" && f.movedBy != ""
  }

  /** The body the movement form hands to `logEvent`. */
  function MovementBody(f: MovementFields): (b: MainRoutes.Body)
    ensures b.isJson && MainRoutes.HasFields(b.data)
    ensures b.data["tag_id"] == Some(f.tagId) && b.data["location"] == Some(f.location)
  {
    MainRoutes.Body(true, map["tag_id" := Some(f.tagId), "location" := Some(f.location), "moved_by" := Some(f.movedBy),
                              "purpose" := Some(f.purpose), "status" := Some(f.status), "remarks" := Some(f.remarks)])
  }

  /** A movement the form lets through is never refused by the event log
      for a missing field: it is stored with the form's tag and location
      unless the database fails. */
  lemma CompleteMovementAccepted(s: Custody.Store, f: MovementFields, now: int, dbOk: bool)
    requires MovementComplete(f)
    ensures MainRoutes.LogEvent(s, MovementBody(f), now, dbOk).code != 400
    ensures dbOk ==> MainRoutes.LogEvent(s, MovementBody(f), now, dbOk).code == 201
    ensures dbOk ==>
      var r := MainRoutes.LogEvent(s, MovementBody(f), now, dbOk);
      r.store.movements[|s.movements|].tag == f.tagId && r.store.movements[|s.movements|].movedBy == Some(f.movedBy)
  {
  }
}

=== FILE: auth_js.dfy ===
/** The browser's authentication module (modules/auth.js): the session's
    current user, role checks, the prefix table of route permissions and the
    request headers. Session storage and the DOM are not modelled. */
module BrowserAuth {
  import opened Wrappers
  import opened Text
  import Custody
  import Access

  /** `ROLES`. */
  const AdminRole: string := "admin"
  const ManufacturerRole: string := "manufacturer"
  const DistributorRole: string := "distributor"
  const RetailerRole: string := "retailer"
  const CustomerRole: string := "customer"

  /** The stored user; fields the server left out are `None` (JavaScript
      `undefined`). */
  datatype SessionUser = SessionUser(id: Option<nat>, username: Option<string>, email: Option<string>,
                                     role: Option<string>, token: Option<string>)

  /** `currentUser`: `None` is `null`. */
  type Session = Option<SessionUser>

  /** `isAuthenticated`. */
  predicate IsAuthenticated(session: Session) {
    session.Some?
  }

  /** `logout` clears the session. */
  function Logout(session: Session): (r: Session)
    ensures !IsAuthenticated(r)
  {
    None
  }

  /** The argument of `hasRole`: one role, or an array of roles. */
  datatype RequiredRole = OneRole(role: string) | AnyOf(roles: seq<string>)

  /** `hasRole`: false without a user or with an empty or missing role;
      membership for an array, equality otherwise. */
  predicate HasRole(session: Session, required: RequiredRole) {
    && session.Some? && session.value.role.Some? && session.value.role.value != ""
    && match required
       case OneRole(r) => session.value.role.value == r
       case AnyOf(rs) => session.value.role.value in rs
  }

  /** A one-element array asks the same as the single role. */
  lemma SingletonArrayIsOneRole(session: Session, role: string)
    ensures HasRole(session, AnyOf([role])) <==> HasRole(session, OneRole(role))
  {
  }

  /** One entry of `routePermissions`. */
  datatype Rule = Rule(prefix: string, allowed: seq<string>)

  /** `routePermissions`, in declaration order. */
  const Rules: seq<Rule> := [
    Rule("/admin", [AdminRole]),
    Rule("/manufacturer", [AdminRole, ManufacturerRole]),
    Rule("/distributor", [AdminRole, DistributorRole]),
    Rule("/retailer", [AdminRole, RetailerRole]),
    Rule("/customer", [AdminRole, CustomerRole])
  ]

  /** The index of the first rule whose prefix `route` starts with. */
  function FirstRule(rules: seq<Rule>, route: string): (i: Option<nat>)
    ensures i.Some? ==> i.value < |rules| && StartsWith(route, rules[i.value].prefix)
    ensures i.Some? ==> forall j :: 0 <= j < i.value ==> !StartsWith(route, rules[j].prefix)
    ensures i.None? <==> forall j :: 0 <= j < |rules| ==> !StartsWith(route, rules[j].prefix)
  {
    Custody.Find(rules, (r: Rule) => StartsWith(route, r.prefix))
  }

  /** What `canAccessRoute` decides, stated as a rule lookup: no access
      without a user; the first matching rule's roles; otherwise allowed. */
  predicate Permitted(session: Session, rules: seq<Rule>, route: string) {
    IsAuthenticated(session) &&
    match FirstRule(rules, route)
    case Some(i) => HasRole(session, AnyOf(rules[i].allowed))
    case None => true
  }

  /** `canAccessRoute`: scans the table in order and returns at the first
      prefix the route starts with. */
  method CanAccessRoute(session: Session, rules: seq<Rule>, route: string) returns (ok: bool)
    ensures ok <==> Permitted(session, rules, route)
  {
    if !IsAuthenticated(session) {
      return false;
    }
    var i := 0;
    while i < |rules|
      invariant 0 <= i <= |rules|
      invariant forall j :: 0 <= j < i ==> !StartsWith(route, rules[j].prefix)
      decreases |rules| - i
    {
      if StartsWith(route, rules[i].prefix) {
        assert FirstRule(rules, route) == Some(i);
        return HasRole(session, AnyOf(rules[i].allowed));
      }
      i := i + 1;
    }
    return true;
  }

  /** Every rule of the table lists the administrator. */
  lemma AdminInEveryRule()
    ensures forall i :: 0 <= i < |Rules| ==> AdminRole in Rules[i].allowed
  {
  }

  /** A signed-in administrator may open every route. */
  lemma AdminOpensEveryRoute(u: SessionUser, route: string)
    requires u.role == Some(AdminRole)
    ensures Permitted(Some(u), Rules, route)
  {
    AdminInEveryRule();
  }

  /** A route that starts with none of the prefixes is open to any signed-in
      user, and no route is open to a visitor. */
  lemma UnlistedRoutesOpen(session: Session, route: string)
    ensures !Permitted(None, Rules, route)
    ensures IsAuthenticated(session) && FirstRule(Rules, route).None? ==> Permitted(session, Rules, route)
  {
  }

  /** The rule a route falls under is the first one it starts with. */
  lemma FirstRuleIs(route: string, i: nat)
    requires i < |Rules| && StartsWith(route, Rules[i].prefix)
    requires forall j :: 0 <= j < i ==> !StartsWith(route, Rules[j].prefix)
    ensures FirstRule(Rules, route) == Some(i)
  {
  }

  /** The check is by prefix, not by path segment: "/administrator" falls
      under the "/admin" rule and is closed to a manufacturer. */
  lemma PrefixNotSegment(u: SessionUser)
    requires u.role == Some(ManufacturerRole)
    ensures FirstRule(Rules, "/administrator") == Some(0)
    ensures !Permitted(Some(u), Rules, "/administrator")
  {
    var route := "/administrator";
    assert route[..6] == "/admin";
    FirstRuleIs(route, 0);
  }

  /** A manufacturer's own pages fall under the "/manufacturer" rule and are
      open to them. */
  lemma ManufacturerPagesOpen(u: SessionUser)
    requires u.role == Some(ManufacturerRole)
    ensures Permitted(Some(u), Rules, "/manufacturer/dashboard")
  {
    var route := "/manufacturer/dashboard";
    assert route[..6][1] != Rules[0].prefix[1];
    assert route[..13] == "/manufacturer";
    FirstRuleIs(route, 1);
  }

  /** The browser and the server disagree about administrators: the browser
      opens the manufacturer pages to them, the server's manufacturer
      decorator sends them to the dashboard. */
  lemma BrowserLaxerThanServer(u: SessionUser, s: Custody.User)
    requires u.role == Some(AdminRole) && s.isAdmin && s.role == Custody.Admin
    ensures Permitted(Some(u), Rules, "/manufacturer")
    ensures Access.ManufacturerRequired(Access.Signed(s)) == Access.ToDashboard
  {
    AdminOpensEveryRoute(u, "/manufacturer");
  }

  /** `getAuthHeaders`: nothing without a user; otherwise a bearer token
      (the text "undefined" when the user has none) and the JSON content
      type. */
  function AuthHeaders(session: Session): (h: map<string, string>)
    ensures !IsAuthenticated(session) <==> h == map[]
    ensures IsAuthenticated(session) ==> h.Keys == {"Authorization", "Content-Type"}
    ensures IsAuthenticated(session) && session.value.token.Some? ==> h["Authorization"] == "Bearer " + session.value.token.value
    ensures IsAuthenticated(session) ==> h["Content-Type"] == "application/json"
  {
    match session
    case None => map[]
    case Some(u) =>
      var token := if u.token.Some? then u.token.value else "undefined";
      var h := map["Authorization" := "Bearer " + token, "Content-Type" := "application/json"];
      assert "Authorization" in h;
      h
  }

  /** After `logout` no route is open and no headers are sent. */
  lemma LogoutClosesEverything(session: Session, route: string)
    ensures !Permitted(Logout(session), Rules, route)
    ensures AuthHeaders(Logout(session)) == map[]
  {
  }
}

=== FILE: auth_routes.dfy ===
/** The authentication blueprint: self-registration, where the email's domain
    picks the organisation and the organisation's permissions limit the
    role; signing in with its landing-page choice; and viewing a profile. */
module AuthRoutes {
  import opened Wrappers
  import opened Text
  import opened Custody
  import Forms

  /** Whether an organisation may hold users of `role`. Only the three
      self-service roles are checked; any other passes. */
  predicate Permits(o: Org, role: Role) {
    match role
    case Manufacturer => o.canManufacture
    case Distributor => o.canDistribute
    case Customer => o.canReceive
    case Admin => true
  }

  /** The domain of an email address: the text after its last '@'. */
  function EmailDomain(email: string): (d: string)
    ensures '@' !in d
    ensures |d| <= |email| && d == email[|email| - |d|..]
    ensures '@' in email ==> email[|email| - |d| - 1] == '@'
    ensures '@' !in email ==> d == email
  {
    AfterLast(email, '@')
  }

  /** `Organization.query.filter_by(email_domain=domain, active=True).first()`. */
  function ActiveOrgForDomain(s: Store, domain: string): (i: Option<nat>)
    ensures i.Some? ==> i.value < |s.orgs| && s.orgs[i.value].active && s.orgs[i.value].emailDomain == Some(domain)
    ensures i.Some? ==> forall j :: 0 <= j < i.value ==> !(s.orgs[j].active && s.orgs[j].emailDomain == Some(domain))
    ensures i.None? <==> forall j :: 0 <= j < |s.orgs| ==> !(s.orgs[j].active && s.orgs[j].emailDomain == Some(domain))
  {
    Find(s.orgs, (o: Org) => o.active && o.emailDomain == Some(domain))
  }

  datatype EmailCheck = EmailRegistered | DomainUnknown | RoleNotPermitted | EmailAccepted

  /** `RegistrationForm.validate_email`: the address is new, an active
      organisation holds its domain, and the first such organisation permits
      the chosen role. */
  function ValidateEmail(s: Store, email: string, role: Role): (r: EmailCheck)
    ensures r == EmailRegistered <==> Forms.EmailTaken(s, email)
    ensures r == DomainUnknown <==> !Forms.EmailTaken(s, email) && ActiveOrgForDomain(s, EmailDomain(email)).None?
    ensures r == EmailAccepted <==>
      && !Forms.EmailTaken(s, email)
      && ActiveOrgForDomain(s, EmailDomain(email)).Some?
      && Permits(s.orgs[ActiveOrgForDomain(s, EmailDomain(email)).value], role)
  {
    if Find(s.users, (u: User) => u.email == email).Some? then EmailRegistered
    else match ActiveOrgForDomain(s, EmailDomain(email))
      case None => DomainUnknown
      case Some(i) => if Permits(s.orgs[i], role) then EmailAccepted else RoleNotPermitted
  }

  /** The fields of the registration form declared next to the route. */
  datatype SignUp = SignUp(
    email: string, username: string, firstName: string, lastName: string,
    password: string, confirmPassword: string, role: Role)

  /** The form validates: every field filled in, the two passwords equal, the
      email accepted, and a self-service role chosen. `emailOk` is the
      `Email()` validator's verdict. */
  predicate SignUpValid(s: Store, f: SignUp, emailOk: bool) {
    && Forms.Required(f.email) && emailOk && ValidateEmail(s, f.email, f.role) == EmailAccepted
    && Forms.Required(f.username) && Forms.Required(f.firstName) && Forms.Required(f.lastName)
    && Forms.Required(f.password)
    && Forms.Required(f.confirmPassword) && f.confirmPassword == f.password
    && f.role != Admin
  }

  datatype SignUpPage = AlreadySignedUp | SignUpForm | DomainNotRegistered | RoleRefused | SignUpServerError | SignedUp(userId: nat)

  datatype SignUpOutcome = SignUpOutcome(store: Store, page: SignUpPage)

  /** `register` on POST, without the form's unused `organization` choice
      field. A signed-in visitor is sent to the dashboard before the form is
      read. The route repeats the domain and role checks of the validator,
      then adds an active user in the matched organisation and an audit row
      naming the new user. `dbOk` false: a commit raises (the route has no
      handler) and nothing is kept. */
  function Register(s: Store, signedIn: bool, f: SignUp, emailOk: bool, dbOk: bool): (r: SignUpOutcome)
    ensures !r.page.SignedUp? ==> r.store == s
    ensures signedIn ==> r == SignUpOutcome(s, AlreadySignedUp)
    ensures r.page.SignedUp? <==> !signedIn && SignUpValid(s, f, emailOk) && dbOk
    ensures r.page.SignedUp? ==>
      var o := ActiveOrgForDomain(s, EmailDomain(f.email));
      && o.Some?
      && |r.store.users| == |s.users| + 1 && r.store.users[..|s.users|] == s.users
      && var u := r.store.users[|s.users|];
      && u.id == r.page.userId && (forall j :: 0 <= j < |s.users| ==> s.users[j].id != u.id)
      && u.email == f.email && u.username == f.username && u.role == f.role
      && u.active && !u.isAdmin
      && u.org == Some(s.orgs[o.value].id) && s.orgs[o.value].active
      && s.orgs[o.value].emailDomain == Some(EmailDomain(f.email)) && Permits(s.orgs[o.value], f.role)
      && r.store.audits == s.audits + [Audit("user_registration", "User", Some(u.id), u.id, u.org)]
      && r.store.(users := s.users, audits := s.audits) == s
  {
    if signedIn then SignUpOutcome(s, AlreadySignedUp)
    else if !SignUpValid(s, f, emailOk) then SignUpOutcome(s, SignUpForm)
    else match ActiveOrgForDomain(s, EmailDomain(f.email))
      case None => SignUpOutcome(s, DomainNotRegistered)
      case Some(i) =>
        var o := s.orgs[i];
        if !Permits(o, f.role) then SignUpOutcome(s, RoleRefused)
        else if !dbOk then SignUpOutcome(s, SignUpServerError)
        else
          var id := NextId(Ids(s.users, (u: User) => u.id));
          var u := User(id, f.username, f.email, f.password, f.role, false, true, Some(o.id));
          SignUpOutcome(s.(users := s.users + [u],
                           audits := s.audits + [Audit("user_registration", "User", Some(id), id, Some(o.id))]),
                        SignedUp(id))
  }

  /** The route's own domain and role checks never fire: the form's email
      validator has already made them. */
  lemma RouteRechecksAreRedundant(s: Store, signedIn: bool, f: SignUp, emailOk: bool, dbOk: bool)
    ensures Register(s, signedIn, f, emailOk, dbOk).page != DomainNotRegistered
    ensures Register(s, signedIn, f, emailOk, dbOk).page != RoleRefused
  {
  }

  /** `register` as written: the form declares an `organization` choice field
      whose choices are never set, and WTForms raises when it validates a
      choice field without choices, so every submission from a visitor who
      is not signed in fails at validation; a signed-in one is redirected
      first, as in the corrected route. */
  function RegisterAsWritten(s: Store, signedIn: bool, f: SignUp, emailOk: bool, dbOk: bool): (r: SignUpOutcome)
    ensures r.store == s
    ensures signedIn ==> r.page == AlreadySignedUp
    ensures !signedIn ==> r.page == SignUpServerError
  {
    SignUpOutcome(s, if signedIn then AlreadySignedUp else SignUpServerError)
  }

  /** The discrepancy: a sign-up the corrected route accepts fails as written. */
  lemma AsWrittenSignUpFails(s: Store, f: SignUp, emailOk: bool)
    requires SignUpValid(s, f, emailOk)
    ensures Register(s, false, f, emailOk, true).page.SignedUp?
    ensures RegisterAsWritten(s, false, f, emailOk, true).page == SignUpServerError
  {
  }

  datatype Credentials = Credentials(email: string, password: string)

  /** Where a signed-in user is sent. */
  datatype Target = NextPage(path: string) | AdminHome | CustomerHome | DistributorHome | ManufacturerHome | DefaultHome

  /** The landing page: a `next` path starting with '/' is followed;
      otherwise administrators, then customers, distributors and
      manufacturers each have their own page. */
  function Landing(user: User, next: Option<string>): (t: Target)
    ensures t.NextPage? <==> next.Some? && StartsWith(next.value, "/")
    ensures t.NextPage? ==> t.path == next.value
    ensures !t.NextPage? && user.isAdmin ==> t == AdminHome
    ensures !t.NextPage? && !user.isAdmin ==>
      t == match user.role
        case Customer => CustomerHome
        case Distributor => DistributorHome
        case Manufacturer => ManufacturerHome
        case Admin => DefaultHome
  {
    if next.Some? && next.value != "" && StartsWith(next.value, "/") then NextPage(next.value)
    else if user.isAdmin then AdminHome
    else if user.role == Customer then CustomerHome
    else if user.role == Distributor then DistributorHome
    else if user.role == Manufacturer then ManufacturerHome
    else DefaultHome
  }

  /** A scheme-relative `next` such as "//example.org" starts with '/', so
      it is followed like a local path. */
  lemma SchemeRelativeNextFollowed(user: User)
    ensures Landing(user, Some("//example.org")) == NextPage("//example.org")
  {
    assert StartsWith("//example.org", "/");
  }

  /** `LoginServerError` is the 500 of a failed audit commit: `login_user`
      has already run, and Flask still saves the session on that response,
      so the user stays signed in. */
  datatype LoginPage = AlreadySignedIn | LoginForm | BadCredentials | Deactivated | LoginServerError(user: User)
                     | SignedIn(user: User, target: Target)

  datatype LoginOutcome = LoginOutcome(store: Store, page: LoginPage)

  function UserByEmail(s: Store, email: string): (i: Option<nat>)
    ensures i.Some? ==> i.value < |s.users| && s.users[i.value].email == email
    ensures i.None? <==> !Forms.EmailTaken(s, email)
  {
    Find(s.users, (u: User) => u.email == email)
  }

  /** `login`. A signed-in visitor goes to the dashboard; the form needs an
      email and a password; an unknown email and a wrong password get the
      same answer; a deactivated account is refused; otherwise the user is
      signed in, and then an audit row is committed and the user is sent to
      the landing page. When that commit raises, the answer is a server
      error but the user is signed in all the same. */
  function Login(s: Store, signedIn: bool, f: Credentials, emailOk: bool, next: Option<string>, dbOk: bool)
    : (r: LoginOutcome)
    ensures !r.page.SignedIn? ==> r.store == s
    ensures signedIn ==> r.page == AlreadySignedIn
    ensures r.page == BadCredentials <==>
      && !signedIn && Forms.Required(f.email) && emailOk && Forms.Required(f.password)
      && (UserByEmail(s, f.email).None? || s.users[UserByEmail(s, f.email).value].secret != f.password)
    ensures r.page == Deactivated ==> UserByEmail(s, f.email).Some? && !s.users[UserByEmail(s, f.email).value].active
    ensures r.page.SignedIn? ==>
      && UserByEmail(s, f.email).Some? && r.page.user == s.users[UserByEmail(s, f.email).value]
      && r.page.user.secret == f.password && r.page.user.active
      && r.page.target == Landing(r.page.user, next)
      && r.store == s.(audits := s.audits + [Audit("user_login", "User", Some(r.page.user.id), r.page.user.id, r.page.user.org)])
    ensures r.page.SignedIn? || r.page.LoginServerError? <==>
      && !signedIn && Forms.Required(f.email) && emailOk && Forms.Required(f.password)
      && UserByEmail(s, f.email).Some?
      && s.users[UserByEmail(s, f.email).value].secret == f.password
      && s.users[UserByEmail(s, f.email).value].active
    ensures r.page.LoginServerError? ==>
      UserByEmail(s, f.email).Some? && r.page.user == s.users[UserByEmail(s, f.email).value]
    ensures r.page.SignedIn? ==> dbOk
    ensures r.page.LoginServerError? <==> (r.page.SignedIn? || r.page.LoginServerError?) && !dbOk
  {
    if signedIn then LoginOutcome(s, AlreadySignedIn)
    else if !(Forms.Required(f.email) && emailOk && Forms.Required(f.password)) then LoginOutcome(s, LoginForm)
    else match UserByEmail(s, f.email)
      case None => LoginOutcome(s, BadCredentials)
      case Some(i) =>
        var u := s.users[i];
        if u.secret != f.password then LoginOutcome(s, BadCredentials)
        else if !u.active then LoginOutcome(s, Deactivated)
        else if !dbOk then LoginOutcome(s, LoginServerError(u))
        else LoginOutcome(s.(audits := s.audits + [Audit("user_login", "User", Some(u.id), u.id, u.org)]),
                          SignedIn(u, Landing(u, next)))
  }

  /** A failed audit commit does not undo the sign-in: the account is
      signed in and no `user_login` row records it. */
  lemma SignedInWithoutAudit(s: Store, f: Credentials, next: Option<string>)
    requires Forms.Required(f.email) && Forms.Required(f.password)
    requires UserByEmail(s, f.email).Some?
    requires s.users[UserByEmail(s, f.email).value].secret == f.password
    requires s.users[UserByEmail(s, f.email).value].active
    ensures
      var r := Login(s, false, f, true, next, false);
      && r.page == LoginServerError(s.users[UserByEmail(s, f.email).value])
      && r.store.audits == s.audits
      && forall a :: a in r.store.audits && a.action == "user_login" ==> a in s.audits
  {
  }

  /** A wrong password on a deactivated account is still reported as bad
      credentials: the password is checked before the account's state, so the
      answer reveals nothing about accounts the caller cannot open. */
  lemma PasswordCheckedBeforeState(s: Store, f: Credentials, next: Option<string>, dbOk: bool)
    requires Forms.Required(f.email) && Forms.Required(f.password)
    requires UserByEmail(s, f.email).Some?
    requires s.users[UserByEmail(s, f.email).value].secret != f.password
    ensures Login(s, false, f, true, next, dbOk).page == BadCredentials
  {
  }

  datatype ProfileView = NoSuchUser | ProfileForbidden | Profile(user: User)

  /** `User.query.filter_by(username=…).first()`: the first user with the
      username. */
  function UserByName(s: Store, username: string): (i: Option<nat>)
    ensures i.Some? ==> i.value < |s.users| && s.users[i.value].username == username
    ensures i.Some? ==> forall j :: 0 <= j < i.value ==> s.users[j].username != username
    ensures i.None? <==> forall j :: 0 <= j < |s.users| ==> s.users[j].username != username
  {
    Find(s.users, (u: User) => u.username == username)
  }

  /** `view_profile`: 404 for an unknown username; only an administrator or
      the user themself may see the profile of the first user with that
      username. */
  function ViewProfile(s: Store, viewer: User, username: string): (v: ProfileView)
    ensures v.NoSuchUser? <==> UserByName(s, username).None?
    ensures v.Profile? <==>
      UserByName(s, username).Some? && (viewer.isAdmin || viewer.id == s.users[UserByName(s, username).value].id)
    ensures v.ProfileForbidden? <==>
      UserByName(s, username).Some? && !viewer.isAdmin && viewer.id != s.users[UserByName(s, username).value].id
    ensures v.Profile? ==> v.user == s.users[UserByName(s, username).value]
  {
    match UserByName(s, username)
    case None => NoSuchUser
    case Some(i) =>
      var u := s.users[i];
      if !viewer.isAdmin && viewer.id != u.id then ProfileForbidden else Profile(u)
  }

  /** A user whose username nobody else holds is shown their own profile. */
  lemma OwnerSeesOwnProfile(s: Store, k: nat)
    requires k < |s.users|
    requires forall j :: 0 <= j < |s.users| && j != k ==> s.users[j].username != s.users[k].username
    ensures ViewProfile(s, s.users[k], s.users[k].username) == Profile(s.users[k])
  {
    assert UserByName(s, s.users[k].username) == Some(k);
  }
}

=== FILE: blockchain_client.dfy ===
/** `BlockchainClient`: the gateway that insists on its configuration. The
    constructor raises on any missing setting or unreachable node; afterwards
    the operations catch their own exceptions and answer with a reply that
    carries no `'fallback'` key. */
module Client {
  import opened Wrappers
  import opened Text
  import opened Ledger

  /** The text whose presence marks an unedited example `INFURA_URL`. */
  const Placeholder: string := "YOUR_INFURA_PROJECT_ID"
  const LostConnection: string := "Lost connection to Ethereum network and failed to reconnect"

  /** The environment variables the constructor reads. */
  datatype Env = Env(infuraUrl: Option<string>, account: Option<string>, privateKey: Option<string>)

  /** Python truthiness of an optional string. */
  predicate Truthy(v: Option<string>) {
    v.Some? && v.value != ""
  }

  predicate UrlUsable(url: Option<string>) {
    Truthy(url) && !Contains(url.value, Placeholder)
  }

  /** What the node and web3 answer while the constructor runs. */
  datatype Boot = Boot(
    attempts: seq<Attempt>,          // the retry loop
    recheck: Probe,                  // the `is_connected()` after the loop
    contractAddress: Option<string>, // checksummed address, None when it or `eth.contract` raises
    accountValid: bool,              // `to_checksum_address` accepts ETH_ACCOUNT_ADDRESS
    balanceOk: bool)                 // `get_balance` answers

  /** Why the constructor raised. */
  datatype InitError =
    | UrlNotSet          // ValueError: missing, empty or placeholder INFURA_URL
    | NoHandle           // every attempt raised before `self.w3` was assigned
    | NotConnected       // ConnectionError after the loop
    | ProbeRaised(error: string)
    | ContractFailed
    | AccountNotSet
    | AccountInvalid
    | KeyNotSet
    | BalanceFailed

  /** A constructed client: whether it believes itself connected, and the
      checksummed contract address it reports. */
  datatype Client = Client(connected: bool, contractAddress: string)

  /** The constructor's outcome together with the attempts it made and its sleeps. */
  datatype Init = Init(result: Result<Client, InitError>, used: nat, waits: seq<nat>)

  /** Whether some attempt among the first `used` assigned `self.w3`. */
  predicate HandleBuilt(attempts: seq<Attempt>, used: nat) {
    exists i :: 0 <= i < used && BuildsHandle(AttemptAt(attempts, i))
  }

  /** `__init__`: URL check, the three-attempt loop, the decisive liveness check,
      the contract, then the account and key. */
  function New(env: Env, boot: Boot): (i: Init)
    ensures !UrlUsable(env.infuraUrl) ==> i == Init(Err(UrlNotSet), 0, [])
    ensures UrlUsable(env.infuraUrl) ==> i.used == Backoff(boot.attempts).used && i.waits == Backoff(boot.attempts).waits
    ensures i.result.Ok? <==>
      && UrlUsable(env.infuraUrl)
      && HandleBuilt(boot.attempts, Backoff(boot.attempts).used)
      && boot.recheck.Alive?
      && boot.contractAddress.Some?
      && Truthy(env.account) && boot.accountValid
      && Truthy(env.privateKey) && boot.balanceOk
    ensures i.result.Ok? ==> i.result.value == Client(true, boot.contractAddress.value)
    ensures UrlUsable(env.infuraUrl) && HandleBuilt(boot.attempts, i.used) && boot.recheck.Lost? ==> i.result == Err(NotConnected)
    ensures i.result.Err? && i.result.error.AccountNotSet? ==> boot.recheck.Alive? && !Truthy(env.account)
  {
    if !UrlUsable(env.infuraUrl) then Init(Err(UrlNotSet), 0, [])
    else
      var s := Backoff(boot.attempts);
      var r :=
        if !HandleBuilt(boot.attempts, s.used) then Err(NoHandle)
        else match boot.recheck
          case Lost => Err(NotConnected)
          case Fault(e) => Err(ProbeRaised(e))
          case Alive =>
            if boot.contractAddress.None? then Err(ContractFailed)
            else if !Truthy(env.account) then Err(AccountNotSet)
            else if !boot.accountValid then Err(AccountInvalid)
            else if !Truthy(env.privateKey) then Err(KeyNotSet)
            else if !boot.balanceOk then Err(BalanceFailed)
            else Ok(Client(true, boot.contractAddress.value));
      Init(r, s.used, s.waits)
  }

  /** `is_connected`: the handle's own answer, False when it raises. */
  function IsConnected(live: Probe): (ok: bool)
    ensures ok <==> live == Alive
  {
    live.Alive?
  }

  datatype Reconnected = Reconnected(client: Client, ok: bool)

  /** `reconnect`: a single attempt, no retry and no sleep; `connected` follows
      its outcome and the contract object is not rebuilt. */
  function Reconnect(c: Client, a: Attempt): (r: Reconnected)
    ensures r.ok <==> a.Up?
    ensures r.client == Client(r.ok, c.contractAddress)
  {
    Reconnected(Client(a.Up?, c.contractAddress), a.Up?)
  }

  /** The liveness check at the head of `record_movement` and
      `get_movement_history`: a lost handle is rebuilt once and checked again;
      the error it raises, if any. */
  function Refresh(node: Node): (err: Option<string>)
    ensures err.None? <==> node.live.Alive? || (node.live.Lost? && node.recheck.Alive?)
    ensures node.live.Lost? && node.recheck.Lost? ==> err == Some(LostConnection)
  {
    match node.live
    case Alive => None
    case Fault(e) => Some(e)
    case Lost =>
      match node.recheck
      case Alive => None
      case Lost => Some(LostConnection)
      case Fault(e) => Some(e)
  }

  /** A write's reply and the transaction handed on for submission, if any. */
  datatype Write = Write(reply: Reply, sent: Option<Tx>)

  function Answer(c: Client, send: Send): (r: Reply)
    ensures r.Success() <==> send.Mined?
    ensures r.Refused? ==> !r.fallback
  {
    match send
    case Mined(h, b) => Confirmed("transaction_hash", h, b, Some(c.contractAddress))
    case SendFailed(e) => Refused(e, false)
  }

  /** `register_chemical`: no liveness check, a fixed 2000000 gas budget. */
  function RegisterChemical(c: Client, send: Send, tag: string, name: string, manufacturer: string): (w: Write)
    ensures w.sent == Some(Tx(RegisterCall(tag, name, manufacturer), ClientFixedGas))
    ensures w.reply.Success() <==> send.Mined?
    ensures w.reply.Success() ==> w.reply == Confirmed("transaction_hash", send.txHash, send.block, Some(c.contractAddress))
    ensures w.reply.Refused? ==> w.reply == Refused(send.error, false)
  {
    Write(Answer(c, send), Some(Tx(RegisterCall(tag, name, manufacturer), ClientFixedGas)))
  }

  /** `str(x or "")` for an optional argument. */
  function Blank(v: Option<string>): (s: string)
    ensures v.None? ==> s == ""
    ensures v.Some? ==> s == v.value
  {
    v.GetOr("")
  }

  /** The second `record_movement` definition, the one Python keeps: liveness
      check, estimate (a failure aborts), the buffered gas limit, submit. */
  function RecordMovement(c: Client, node: Node, tag: string, location: string,
                          movedBy: Option<string>, purpose: Option<string>, status: Option<string>): (w: Write)
    ensures Refresh(node).Some? ==> w == Write(Refused(Refresh(node).value, false), None)
    ensures Refresh(node).None? && node.estimate.EstimateFailed? ==> w == Write(Refused(node.estimate.error, false), None)
    ensures w.sent.Some? <==> Refresh(node).None? && node.estimate.Estimated?
    ensures w.sent.Some? ==>
      w.sent.value == Tx(MovementCall(tag, location, Blank(movedBy), Blank(purpose), Blank(status)), Buffered(node.estimate.gas))
    ensures w.reply.Success() <==> w.sent.Some? && node.send.Mined?
    ensures w.reply.Success() ==> w.reply.hashKey == "transaction_hash"
    ensures w.reply.Refused? ==> !w.reply.fallback
  {
    match Refresh(node)
    case Some(e) => Write(Refused(e, false), None)
    case None =>
      match node.estimate
      case EstimateFailed(e) => Write(Refused(e, false), None)
      case Estimated(n) =>
        var call := MovementCall(tag, location, Blank(movedBy), Blank(purpose), Blank(status));
        Write(Answer(c, node.send), Some(Tx(call, Buffered(n))))
  }

  /** `get_movement_history`: liveness check, count, then the indexed reads. */
  function GetMovementHistory(c: Client, node: Node): (h: HistoryReply)
    ensures Refresh(node).Some? ==> h == HistoryRefused(Refresh(node).value, false)
    ensures h.HistoryOk? <==>
      && Refresh(node).None? && node.count.Counted? && node.count.n <= |node.records|
      && forall i :: 0 <= i < node.count.n ==> node.records[i].Got?
    ensures h.HistoryOk? ==> |h.history| == node.count.n
    ensures h.HistoryOk? ==> forall i :: 0 <= i < |h.history| ==> h.history[i] == Entry(node.records[i].record, true)
    ensures h.HistoryRefused? ==> !h.fallback
  {
    match Refresh(node)
    case Some(e) => HistoryRefused(e, false)
    case None =>
      match node.count
      case CountFailed(e) => HistoryRefused(e, false)
      case Counted(n) =>
        match ReadHistory(node.records, n)
        case Err(e) => HistoryRefused(e, false)
        case Ok(entries) => HistoryOk(entries)
  }
}

=== FILE: blockchain_fallback.dfy ===
/** `BlockchainFallback`: the gateway that never raises. Every operation first
    checks that the node is reachable and the contract object exists, and every
    failure comes back as a reply carrying `'fallback': True`. */
module Fallback {
  import opened Wrappers
  import opened Ledger

  const ConnectionUnavailable: string := "Blockchain connection unavailable"
  const NetworkUnavailable: string := "Blockchain network connection unavailable"
  /** What Python raises when `self.contract` is None and `.functions` is read. */
  const NoContract: string := "'NoneType' object has no attribute 'functions'"

  /** The part of a `BlockchainFallback` instance its behaviour depends on. */
  datatype Gateway = Gateway(
    configured: bool,      // contract_address and contract_abi are both truthy
    hasHandle: bool,       // self.w3 is not None
    connected: bool,       // self.connected
    contractLoaded: bool)  // self.contract is not None

  /** Outcome of the retry loop: the new state, whether it reached the node, how
      many attempts it made and the sleeps between them. */
  datatype Retry = Retry(gateway: Gateway, ok: bool, used: nat, waits: seq<nat>)

  /** The three-attempt loop of `reconnect`, which `_connect` repeats: stop at the
      first reachable node, mark it connected and (when an address and ABI are
      configured) rebuild the contract object; after three failures end
      disconnected. */
  function Reconnect(g: Gateway, outcomes: seq<Attempt>): (r: Retry)
    ensures 1 <= r.used <= MaxRetries
    ensures r.ok <==> exists i :: 0 <= i < MaxRetries && AttemptAt(outcomes, i).Up?
    ensures r.ok ==> AttemptAt(outcomes, r.used - 1).Up?
    ensures forall i :: 0 <= i < r.used - 1 ==> !AttemptAt(outcomes, i).Up?
    ensures !r.ok ==> r.used == MaxRetries
    ensures |r.waits| == r.used - 1
    ensures forall j :: 0 <= j < |r.waits| ==> r.waits[j] == Pow2(j + 1)
    ensures Sum(r.waits) <= 6
    ensures r.gateway.connected == r.ok
    ensures r.gateway.configured == g.configured
    ensures r.ok ==> r.gateway.hasHandle
    ensures g.hasHandle ==> r.gateway.hasHandle
    ensures r.ok && g.configured ==> r.gateway.contractLoaded == AttemptAt(outcomes, r.used - 1).contractLoads
    ensures !(r.ok && g.configured) ==> r.gateway.contractLoaded == g.contractLoaded
  {
    var s := Backoff(outcomes);
    BackoffStopsAtFirstSuccess(outcomes);
    BackoffWaitsAtMostSix(outcomes);
    var last := AttemptAt(outcomes, s.used - 1);
    var built := g.hasHandle || exists i :: 0 <= i < s.used && BuildsHandle(AttemptAt(outcomes, i));
    var loaded := if last.Up? && g.configured then last.contractLoads else g.contractLoaded;
    Retry(Gateway(g.configured, built, last.Up?, loaded), last.Up?, s.used, s.waits)
  }

  /** `__init__` followed by `_connect`: a fresh instance runs the same loop. */
  function Connect(configured: bool, outcomes: seq<Attempt>): (r: Retry)
    ensures r.gateway.connected <==> exists i :: 0 <= i < MaxRetries && AttemptAt(outcomes, i).Up?
    ensures r.gateway.contractLoaded ==> configured && r.gateway.connected
    ensures Sum(r.waits) <= 6
  {
    Reconnect(Gateway(configured, false, false, false), outcomes)
  }

  /** Result of `is_connected()`, with the reconnection it may have run. */
  datatype Check = Check(gateway: Gateway, ok: bool, used: nat, waits: seq<nat>)

  /** `is_connected`: no handle → False; a live handle → True; a lost one →
      whatever `reconnect()` returns; an exception → False. */
  function IsConnected(g: Gateway, live: Probe, outcomes: seq<Attempt>): (c: Check)
    ensures !g.hasHandle ==> c == Check(g, false, 0, [])
    ensures g.hasHandle && live.Alive? ==> c == Check(g, true, 0, [])
    ensures g.hasHandle && live.Fault? ==> c == Check(g, false, 0, [])
    ensures g.hasHandle && live.Lost? ==>
      && (c.ok <==> exists i :: 0 <= i < MaxRetries && AttemptAt(outcomes, i).Up?)
      && c.gateway.connected == c.ok
      && 1 <= c.used <= MaxRetries
    ensures c.used <= MaxRetries
    ensures Sum(c.waits) <= 6
  {
    if !g.hasHandle then Check(g, false, 0, [])
    else match live
      case Alive => Check(g, true, 0, [])
      case Fault(_) => Check(g, false, 0, [])
      case Lost =>
        var r := Reconnect(g, outcomes);
        Check(r.gateway, r.ok, r.used, r.waits)
  }

  /** The guard every operation starts with. */
  function Guard(g: Gateway, node: Node): Check {
    IsConnected(g, node.live, node.attempts)
  }

  predicate Passes(c: Check) {
    c.ok && c.gateway.contractLoaded
  }

  /** The attempts left after the first `n` were used. */
  function Drop(outcomes: seq<Attempt>, n: nat): (rest: seq<Attempt>)
    ensures forall i: nat :: AttemptAt(rest, i) == AttemptAt(outcomes, n + i)
  {
    if n <= |outcomes| then outcomes[n..] else []
  }

  /** Result of a write: new state, reply, the transaction handed on for
      submission if any, and all sleeps taken. */
  datatype Write = Write(gateway: Gateway, reply: Reply, sent: Option<Tx>, waits: seq<nat>)

  /** `register_chemical`: guard, then a transaction with a fixed 200000 gas. */
  function RegisterChemical(g: Gateway, node: Node, tag: string, name: string, manufacturer: string): (w: Write)
    ensures !Passes(Guard(g, node)) ==> w.reply == Refused(ConnectionUnavailable, true) && w.sent.None?
    ensures Passes(Guard(g, node)) ==> w.sent == Some(Tx(RegisterCall(tag, name, manufacturer), FallbackRegisterGas))
    ensures w.reply.Success() <==> Passes(Guard(g, node)) && node.send.Mined?
    ensures w.reply.Success() ==> w.reply == Confirmed("tx_hash", node.send.txHash, node.send.block, None)
    ensures w.reply.Refused? ==> w.reply.fallback
  {
    var c := Guard(g, node);
    if !Passes(c) then Write(c.gateway, Refused(ConnectionUnavailable, true), None, c.waits)
    else
      var tx := Tx(RegisterCall(tag, name, manufacturer), FallbackRegisterGas);
      Write(c.gateway, Answer(node.send), Some(tx), c.waits)
  }

  /** The reply once a transaction has been handed on. */
  function Answer(send: Send): (r: Reply)
    ensures r.Success() <==> send.Mined?
    ensures r.Refused? ==> r.fallback
  {
    match send
    case Mined(h, b) => Confirmed("tx_hash", h, b, None)
    case SendFailed(e) => Refused(e, true)
  }

  /** Gas limit for `record_movement`: the buffered estimate, or the 300000
      default when estimation raises. */
  function MovementGas(estimate: Estimate): (gas: nat)
    ensures estimate.Estimated? ==> estimate.gas <= gas && gas * 10 <= estimate.gas * 11 < gas * 10 + 10
    ensures estimate.EstimateFailed? ==> gas == FallbackDefaultMovementGas
  {
    match estimate
    case Estimated(n) => Buffered(n)
    case EstimateFailed(_) => FallbackDefaultMovementGas
  }

  /** Estimate, build, submit on an already checked connection. */
  function Submit(g: Gateway, node: Node, call: Call, waits: seq<nat>): (w: Write)
    ensures !g.contractLoaded ==> w.reply == Refused(NoContract, true) && w.sent.None?
    ensures g.contractLoaded ==> w.sent == Some(Tx(call, MovementGas(node.estimate)))
    ensures w.reply.Refused? ==> w.reply.fallback
  {
    if !g.contractLoaded then Write(g, Refused(NoContract, true), None, waits)
    else
      var tx := Tx(call, MovementGas(node.estimate));
      Write(g, Answer(node.send), Some(tx), waits)
  }

  /** `record_movement`: the guard, a second liveness check that may reconnect
      again, then estimate → submit → reply. Nothing is raised. */
  function RecordMovement(g: Gateway, node: Node, tag: string, location: string, movedBy: string, purpose: string, status: string): (w: Write)
    ensures !Passes(Guard(g, node)) ==> w.reply == Refused(NetworkUnavailable, true) && w.sent.None?
    ensures w.sent.Some? ==> w.sent.value == Tx(MovementCall(tag, location, movedBy, purpose, status), MovementGas(node.estimate))
    ensures w.sent.Some? ==> Passes(Guard(g, node)) && w.gateway.contractLoaded
    ensures Passes(Guard(g, node)) && node.recheck.Alive? ==> w.sent.Some?
    ensures w.reply.Success() <==> w.sent.Some? && node.send.Mined?
    ensures w.reply.Success() ==> w.reply.hashKey == "tx_hash"
    ensures w.reply.Refused? ==> w.reply.fallback
    ensures Sum(w.waits) <= 12
  {
    var call := MovementCall(tag, location, movedBy, purpose, status);
    var c := Guard(g, node);
    if !Passes(c) then Write(c.gateway, Refused(NetworkUnavailable, true), None, c.waits)
    else match node.recheck
      case Alive => Submit(c.gateway, node, call, c.waits)
      case Fault(e) => Write(c.gateway, Refused(e, true), None, c.waits)
      case Lost =>
        var rest := Drop(node.attempts, c.used);
        var r := Reconnect(c.gateway, rest);
        SumAppend(c.waits, r.waits);
        if !r.ok then Write(r.gateway, Refused(NetworkUnavailable, true), None, c.waits + r.waits)
        else Submit(r.gateway, node, call, c.waits + r.waits)
  }

  /** Result of a history read. */
  datatype HistoryRead = HistoryRead(gateway: Gateway, reply: HistoryReply, waits: seq<nat>)

  /** `get_movement_history`: guard, `getMovementHistoryCount`, then one
      `getMovementRecord` per index in order. */
  function GetMovementHistory(g: Gateway, node: Node): (h: HistoryRead)
    ensures !Passes(Guard(g, node)) ==> h.reply == HistoryRefused(ConnectionUnavailable, true)
    ensures h.reply.HistoryOk? ==> Passes(Guard(g, node)) && node.count.Counted?
    ensures h.reply.HistoryOk? ==> |h.reply.history| == node.count.n <= |node.records|
    ensures h.reply.HistoryOk? ==> forall i :: 0 <= i < |h.reply.history| ==>
      node.records[i].Got? && h.reply.history[i] == Entry(node.records[i].record, true)
    ensures (Passes(Guard(g, node)) && node.count.Counted? && node.count.n <= |node.records|
             && forall i :: 0 <= i < node.count.n ==> node.records[i].Got?) ==> h.reply.HistoryOk?
    ensures h.reply.HistoryRefused? ==> h.reply.fallback
  {
    var c := Guard(g, node);
    if !Passes(c) then HistoryRead(c.gateway, HistoryRefused(ConnectionUnavailable, true), c.waits)
    else match node.count
      case CountFailed(e) => HistoryRead(c.gateway, HistoryRefused(e, true), c.waits)
      case Counted(n) =>
        match ReadHistory(node.records, n)
        case Err(e) => HistoryRead(c.gateway, HistoryRefused(e, true), c.waits)
        case Ok(entries) => HistoryRead(c.gateway, HistoryOk(entries), c.waits)
  }

  /** The `connected` and `contract_loaded` fields of `get_status` (chain id,
      block number and balance are informational reads left out). */
  datatype Status = Status(gateway: Gateway, connected: bool, contractLoaded: bool)

  function GetStatus(g: Gateway, live: Probe, outcomes: seq<Attempt>): (s: Status)
    ensures s.connected == IsConnected(g, live, outcomes).ok
    ensures s.contractLoaded == s.gateway.contractLoaded
    ensures !g.hasHandle ==> !s.connected && s.contractLoaded == g.contractLoaded
  {
    var c := IsConnected(g, live, outcomes);
    Status(c.gateway, c.ok, c.gateway.contractLoaded)
  }

  /** Whatever the node answers, a guarded operation whose guard fails submits
      nothing, and every failing reply is marked as a fallback. */
  lemma GuardFailureSubmitsNothing(g: Gateway, node: Node, tag: string, name: string, actor: string, purpose: string, status: string)
    requires !Passes(Guard(g, node))
    ensures RegisterChemical(g, node, tag, name, actor).sent.None?
    ensures RecordMovement(g, node, tag, name, actor, purpose, status).sent.None?
    ensures !RegisterChemical(g, node, tag, name, actor).reply.Success()
    ensures !RecordMovement(g, node, tag, name, actor, purpose, status).reply.Success()
    ensures GetMovementHistory(g, node).reply.HistoryRefused?
  {
  }
}

=== FILE: blockchain_js.dfy ===
/** The browser's `BlockchainClient` (blockchain.js): how it reads the
    backend's answers. `fetch` is an input: either it throws, or it answers
    with a status code and a body that may fail to parse as JSON. The DOM
    updates and the 30-second polling are not modelled. */
module BrowserClient {
  import opened Wrappers
  import Custody
  import MainRoutes

  /** The outcome of one `fetch` followed by `response.json()`: a network
      error, or a status and the parsed body (`None` when parsing throws). */
  datatype Fetch<B> = Thrown(message: string) | Answered(status: nat, body: Option<B>)

  /** `response.ok`. */
  predicate Ok(status: nat) {
    200 <= status <= 299
  }

  /** Why a call ended in the `catch` block. */
  datatype Failure = Network(message: string) | HttpError(status: nat) | BadJson

  /** The body the backend sends after a write: `blockchain` is the nested
      ledger result when present, reduced to its `success` flag. */
  datatype WriteBody = WriteBody(blockchain: Option<bool>)

  /** `data.blockchain ? data.blockchain.success : false`. */
  function BlockchainStatus(data: WriteBody): (b: bool)
    ensures b <==> data.blockchain == Some(true)
  {
    match data.blockchain
    case Some(ok) => ok
    case None => false
  }

  const PartialMessage: string := "Event logged in local database, but blockchain recording failed"
  const VerifiedMessage: string := "Event successfully logged with blockchain verification"

  datatype LogResult =
    | LogSucceeded(data: WriteBody, blockchainStatus: bool, partialSuccess: bool, message: string)
    | LogFailed(failure: Failure)

  /** `logEvent`: 201 and 207 are successes, 207 a partial one; any other
      status, a network error or an unreadable body is a failure value, never
      an exception. */
  function LogEvent(f: Fetch<WriteBody>): (r: LogResult)
    ensures r.LogSucceeded? <==> f.Answered? && (f.status == 201 || f.status == 207) && f.body.Some?
    ensures r.LogSucceeded? ==> r.data == f.body.value
    ensures r.LogSucceeded? ==> (r.partialSuccess <==> f.status == 207)
    ensures r.LogSucceeded? ==> r.message == (if r.partialSuccess then PartialMessage else VerifiedMessage)
    ensures r.LogSucceeded? ==> (r.blockchainStatus <==> f.body.value.blockchain == Some(true))
    ensures f.Thrown? ==> r == LogFailed(Network(f.message))
    ensures f.Answered? && f.status != 201 && f.status != 207 ==> r == LogFailed(HttpError(f.status))
  {
    match f
    case Thrown(m) => LogFailed(Network(m))
    case Answered(status, body) =>
      if status != 201 && status != 207 then LogFailed(HttpError(status))
      else if body.None? then LogFailed(BadJson)
      else
        var partial := status == 207;
        LogSucceeded(body.value, BlockchainStatus(body.value), partial,
                     if partial then PartialMessage else VerifiedMessage)
  }

  /** Against the `log_event` route the partial-success branch is dead: the
      route answers a JSON request with 201, 400 or 500 and never with 207, and
      its 201 body has no ledger result, so every success reads "logged with
      blockchain verification" while `blockchainStatus` is false. */
  lemma BackendNeverPartial(s: Custody.Store, body: MainRoutes.Body, now: int, dbOk: bool)
    requires body.isJson
    ensures
      var code := MainRoutes.LogEvent(s, body, now, dbOk).code;
      var r := LogEvent(Answered(code, Some(WriteBody(None))));
      && (r.LogSucceeded? <==> code == 201)
      && (r.LogSucceeded? ==> !r.partialSuccess && !r.blockchainStatus && r.message == VerifiedMessage)
  {
  }

  datatype RegisterResult =
    | RegisterSucceeded(data: WriteBody, blockchainStatus: bool)
    | RegisterFailed(failure: Failure)

  /** `registerChemical`: any 2xx answer with a readable body is a success. */
  function RegisterChemical(f: Fetch<WriteBody>): (r: RegisterResult)
    ensures r.RegisterSucceeded? <==> f.Answered? && Ok(f.status) && f.body.Some?
    ensures r.RegisterSucceeded? ==> r.data == f.body.value && (r.blockchainStatus <==> f.body.value.blockchain == Some(true))
    ensures f.Answered? && !Ok(f.status) ==> r == RegisterFailed(HttpError(f.status))
  {
    match f
    case Thrown(m) => RegisterFailed(Network(m))
    case Answered(status, body) =>
      if !Ok(status) then RegisterFailed(HttpError(status))
      else if body.None? then RegisterFailed(BadJson)
      else RegisterSucceeded(body.value, BlockchainStatus(body.value))
  }

  /** `registerChemical` accepts more statuses than `logEvent`: a 200 answer
      is a registration success but a logging failure. */
  lemma RegisterAcceptsWhatLogRefuses(data: WriteBody)
    ensures RegisterChemical(Answered(200, Some(data))).RegisterSucceeded?
    ensures LogEvent(Answered(200, Some(data))) == LogFailed(HttpError(200))
  {
  }

  /** The verification endpoint's body; every field may be absent. */
  datatype VerifiedHistory<E> = VerifiedHistory(
    history: Option<seq<E>>, blockchainEnabled: Option<bool>,
    blockchainError: Option<string>, message: Option<string>)

  /** The local history endpoint's body. */
  datatype LocalHistory<E> = LocalHistory(history: Option<seq<E>>)

  const VerifiedDefault: string := "Retrieved chemical history with blockchain verification"
  const LocalError: string := "Blockchain verification unavailable, showing local database records only"
  const LocalMessage: string := "Retrieved chemical history from local database"

  datatype HistoryResult<E> = HistoryResult(
    success: bool, history: seq<E>, blockchainEnabled: Option<bool>,
    blockchainError: Option<string>, message: string, failure: Option<Failure>)

  /** `x || default` for a string that may be absent: the empty string is
      falsy too. */
  function OrDefault(x: Option<string>, default: string): (r: string)
    ensures x.Some? && x.value != "" ==> r == x.value
    ensures x.None? || x == Some("") ==> r == default
  {
    if x.Some? && x.value != "" then x.value else default
  }

  /** `x || null`. */
  function OrNull(x: Option<string>): (r: Option<string>)
    ensures r.Some? <==> x.Some? && x.value != ""
    ensures r.Some? ==> r == x
  {
    if x.Some? && x.value != "" then x else None
  }

  const HistoryFailurePrefix: string := "Failed to get chemical history: "

  /** `error.message` of a caught failure: the fetch's own message, or the
      one thrown for a non-OK answer. The JSON parser's message is left
      empty. */
  function ErrorText(failure: Failure): string {
    match failure
    case Network(m) => m
    case HttpError(status) => "HTTP error! Status: " + Custody.Decimal(status)
    case BadJson => ""
  }

  function Failed<E>(failure: Failure): (r: HistoryResult<E>)
    ensures !r.success && r.history == [] && r.failure == Some(failure)
  {
    HistoryResult(false, [], None, None, HistoryFailurePrefix + ErrorText(failure), Some(failure))
  }

  /** `getChemicalHistory`: the verification endpoint first; a non-OK answer
      there falls back to the local history with the ledger marked disabled.
      A network error on the first call, or any failure of the second, is a
      failure with an empty history; the local endpoint is not tried after a
      network error. */
  function GetChemicalHistory<E>(verified: Fetch<VerifiedHistory<E>>, local: Fetch<LocalHistory<E>>): (r: HistoryResult<E>)
    ensures !r.success ==> r.history == []
    ensures verified.Answered? && Ok(verified.status) ==>
      (r.success <==> verified.body.Some?)
      && (r.success ==> r.blockchainEnabled == verified.body.value.blockchainEnabled
                        && r.history == (if verified.body.value.history.Some? then verified.body.value.history.value else []))
    ensures verified.Answered? && Ok(verified.status) && r.success ==>
      var e := verified.body.value.blockchainError;
      var m := verified.body.value.message;
      && (r.blockchainError.Some? <==> e.Some? && e.value != "")
      && (r.blockchainError.Some? ==> r.blockchainError == e)
      && (m.Some? && m.value != "" ==> r.message == m.value)
      && (m.None? || m == Some("") ==> r.message == VerifiedDefault)
    ensures r.success ==> r.failure.None?
    ensures verified.Answered? && !Ok(verified.status) ==>
      (r.success <==> local.Answered? && Ok(local.status) && local.body.Some?)
      && (r.success ==> r.blockchainEnabled == Some(false) && r.blockchainError == Some(LocalError)
                        && r.message == LocalMessage
                        && r.history == (if local.body.value.history.Some? then local.body.value.history.value else []))
    ensures verified.Thrown? ==> r == Failed(Network(verified.message))
    ensures !r.success <==> r.failure.Some?
    ensures !r.success ==> r.message == HistoryFailurePrefix + ErrorText(r.failure.value)
    ensures verified.Thrown? ==> r.message == HistoryFailurePrefix + verified.message
    ensures verified.Answered? && !Ok(verified.status) && local.Answered? && !Ok(local.status) ==>
      r.message == HistoryFailurePrefix + "HTTP error! Status: " + Custody.Decimal(local.status)
  {
    match verified
    case Thrown(m) => Failed(Network(m))
    case Answered(status, body) =>
      if Ok(status) then
        match body
        case None => Failed(BadJson)
        case Some(data) =>
          HistoryResult(true, if data.history.Some? then data.history.value else [], data.blockchainEnabled,
                        OrNull(data.blockchainError), OrDefault(data.message, VerifiedDefault), None)
      else
        match local
        case Thrown(m) => Failed(Network(m))
        case Answered(localStatus, localBody) =>
          if !Ok(localStatus) then Failed(HttpError(localStatus))
          else if localBody.None? then Failed(BadJson)
          else
            var data := localBody.value;
            HistoryResult(true, if data.history.Some? then data.history.value else [], Some(false),
                          Some(LocalError), LocalMessage, None)
  }

  /** When the verification endpoint is down and the local one fails as
      well, the caller gets no history at all. */
  lemma BothEndpointsDownGiveNothing<E>(status: nat, local: Fetch<LocalHistory<E>>)
    requires !Ok(status)
    requires local.Thrown? || !Ok(local.status) || local.body.None?
    ensures !GetChemicalHistory(Answered(status, None), local).success
    ensures GetChemicalHistory(Answered(status, None), local).history == []
  {
  }

  /** `this.connectionStatus`. */
  datatype ConnectionStatus = Pending | Connected | Disconnected

  /** The `/blockchain-status` body. */
  datatype StatusBody = StatusBody(connected: bool, provider: Option<string>, contractAddress: Option<string>)

  /** The client's remembered connection facts; `None` is a field never set. */
  datatype ClientState = ClientState(status: ConnectionStatus, provider: Option<string>, contractAddress: Option<string>)

  /** The constructor's state before its first check. */
  const Initial: ClientState := ClientState(Pending, None, None)

  /** What `checkConnection` resolves to: the body as sent, or the error
      object with `connected: false`. */
  datatype CheckResult = Reported(body: StatusBody) | CheckError(message: string)

  function ReportsConnected(r: CheckResult): bool {
    match r
    case Reported(b) => b.connected
    case CheckError(_) => false
  }

  /** `checkConnection`: the status follows `data.connected`; the provider and
      address default to "Unknown"; a failed fetch or body marks the client
      disconnected and leaves the other facts as they were. The HTTP status
      itself is not looked at. */
  function CheckConnection(st: ClientState, f: Fetch<StatusBody>): (out: (ClientState, CheckResult))
    ensures out.0.status != Pending
    ensures out.0.status == Connected <==> ReportsConnected(out.1)
    ensures out.0.status == Connected <==> f.Answered? && f.body.Some? && f.body.value.connected
    ensures out.1.CheckError? ==> out.0 == st.(status := Disconnected)
    ensures out.1.Reported? <==> f.Answered? && f.body.Some?
    ensures out.1.Reported? ==> out.1.body == f.body.value
    ensures out.1.Reported? ==>
      var b := out.1.body;
      && (b.provider.Some? && b.provider.value != "" ==> out.0.provider == b.provider)
      && (b.provider.None? || b.provider == Some("") ==> out.0.provider == Some("Unknown"))
      && (b.contractAddress.Some? && b.contractAddress.value != "" ==> out.0.contractAddress == b.contractAddress)
      && (b.contractAddress.None? || b.contractAddress == Some("") ==> out.0.contractAddress == Some("Unknown"))
  {
    match f
    case Thrown(m) => (st.(status := Disconnected), CheckError(m))
    case Answered(_, None) => (st.(status := Disconnected), CheckError("Unexpected end of JSON input"))
    case Answered(_, Some(data)) =>
      (ClientState(if data.connected then Connected else Disconnected,
                   Some(OrDefault(data.provider, "Unknown")), Some(OrDefault(data.contractAddress, "Unknown"))),
       Reported(data))
  }

  /** The status depends only on the latest check, whatever came before. */
  lemma LatestCheckDecides(a: ClientState, b: ClientState, f: Fetch<StatusBody>)
    ensures CheckConnection(a, f).0.status == CheckConnection(b, f).0.status
    ensures CheckConnection(a, f).1 == CheckConnection(b, f).1
  {
  }
}

=== FILE: customer_routes.dfy ===
/** The customer blueprint: verifying an incoming shipment, confirming its
    receipt, and listing the organisation's received and pending shipments. */
module CustomerRoutes {
  import opened Wrappers
  import opened Custody
  import Forms

  /** `MovementLog.query.filter_by(id=<submitted text>).first()`: the text
      matches the row whose id it spells in decimal. */
  function MovementById(s: Store, key: string): (i: Option<nat>)
    ensures i.Some? ==> i.value < |s.movements| && ParseId(key) == Some(s.movements[i.value].id)
    ensures i.None? <==> ParseId(key).None? || forall j :: 0 <= j < |s.movements| ==> s.movements[j].id != ParseId(key).value
  {
    match ParseId(key)
    case None => None
    case Some(id) => Find(s.movements, (m: Movement) => m.id == id)
  }

  /** `Chemical.query.filter_by(id=movement.chemical_id).first()`: a null
      reference matches nothing. */
  function ChemicalByRef(s: Store, ref: Option<nat>): (i: Option<nat>)
    ensures i.Some? ==> i.value < |s.chemicals| && ref == Some(s.chemicals[i.value].id)
    ensures i.None? <==> ref.None? || forall j :: 0 <= j < |s.chemicals| ==> s.chemicals[j].id != ref.value
  {
    match ref
    case None => None
    case Some(id) => Find(s.chemicals, (c: Chemical) => c.id == id)
  }

  datatype VerifyPage =
    | VerifyForm                 // the form, before or after failed validation
    | MovementNotFound
    | NotForYou                  // the shipment goes to another organisation
    | ChemicalMissing
    | TagMismatch
    | Verified(movement: Movement, chemical: Chemical, blockchainVerified: bool, ledgerWarning: bool)

  /** `verify_receipt` on POST; it reads and never writes. Guards in order:
      the form validates, the movement exists, it is addressed to the user's
      organisation, its chemical exists, and a submitted tag is the
      chemical's. The ledger's answer only sets the verified flag; an error
      from it is a warning. */
  function VerifyReceipt(s: Store, user: User, f: Forms.VerifyReceiptForm, ledger: LedgerCall): (p: VerifyPage)
    ensures !Forms.VerifyReceiptValid(f) ==> p == VerifyForm
    ensures p == MovementNotFound <==> Forms.VerifyReceiptValid(f) && MovementById(s, f.movementId).None?
    ensures p == NotForYou <==>
      && Forms.VerifyReceiptValid(f) && MovementById(s, f.movementId).Some?
      && s.movements[MovementById(s, f.movementId).value].destinationOrg != user.org
    ensures p == ChemicalMissing <==>
      && Forms.VerifyReceiptValid(f) && MovementById(s, f.movementId).Some?
      && var m := s.movements[MovementById(s, f.movementId).value];
      && m.destinationOrg == user.org && ChemicalByRef(s, m.chemicalId).None?
    ensures p == TagMismatch <==>
      && Forms.VerifyReceiptValid(f) && MovementById(s, f.movementId).Some?
      && var m := s.movements[MovementById(s, f.movementId).value];
      && m.destinationOrg == user.org && ChemicalByRef(s, m.chemicalId).Some?
      && f.rfidTag != "" && f.rfidTag != s.chemicals[ChemicalByRef(s, m.chemicalId).value].rfidTag
    ensures p.Verified? <==>
      && Forms.VerifyReceiptValid(f) && MovementById(s, f.movementId).Some?
      && var m := s.movements[MovementById(s, f.movementId).value];
      && m.destinationOrg == user.org && ChemicalByRef(s, m.chemicalId).Some?
      && (f.rfidTag == "" || f.rfidTag == s.chemicals[ChemicalByRef(s, m.chemicalId).value].rfidTag)
    ensures p.Verified? ==>
      && p.movement in s.movements && ParseId(f.movementId) == Some(p.movement.id)
      && p.movement.destinationOrg == user.org
      && p.chemical in s.chemicals && p.movement.chemicalId == Some(p.chemical.id)
      && (f.rfidTag != "" ==> f.rfidTag == p.chemical.rfidTag)
      && (p.blockchainVerified <==> Recorded(ledger))
      && (p.ledgerWarning <==> ledger.LedgerRaised?)
  {
    if !Forms.VerifyReceiptValid(f) then VerifyForm
    else match MovementById(s, f.movementId)
      case None => MovementNotFound
      case Some(i) =>
        var m := s.movements[i];
        if m.destinationOrg != user.org then NotForYou
        else match ChemicalByRef(s, m.chemicalId)
          case None => ChemicalMissing
          case Some(k) =>
            var c := s.chemicals[k];
            if f.rfidTag != "" && f.rfidTag != c.rfidTag then TagMismatch
            else Verified(m, c, Recorded(ledger), ledger.LedgerRaised?)
  }

  /** As written the route's `BlockchainClient()` always raises, so no
      shipment is ever shown as verified on the ledger. */
  lemma AsWrittenNeverVerified(s: Store, user: User, f: Forms.VerifyReceiptForm)
    ensures VerifyReceipt(s, user, f, ArgumentlessClient).Verified? ==>
      !VerifyReceipt(s, user, f, ArgumentlessClient).blockchainVerified
      && VerifyReceipt(s, user, f, ArgumentlessClient).ledgerWarning
  {
  }

  datatype ConfirmPage =
    | InvalidSubmission          // redirect to the verification page
    | ConfirmNotFound            // redirect to the verification page
    | ConfirmNotForYou           // redirect to the verification page
    | AlreadyReceived            // redirect to the dashboard
    | ConfirmMismatch            // the verification page, nothing committed
    | ServerError                // the commit raised (the route has no handler)
    | Confirmed(ledgerWarning: bool)

  datatype ConfirmOutcome = ConfirmOutcome(store: Store, page: ConfirmPage)

  function ReceiptFor(s: Store, movementId: nat): (i: Option<nat>)
    ensures i.Some? ==> i.value < |s.receipts| && s.receipts[i.value].movementId == movementId
    ensures i.None? <==> forall j :: 0 <= j < |s.receipts| ==> s.receipts[j].movementId != movementId
  {
    Find(s.receipts, (r: Receipt) => r.movementId == movementId)
  }

  /** The unit of work of a confirmed receipt for movement `i` and chemical
      `k`: the movement delivered to the user with the form's notes and both
      confirmation boxes, and marked as recorded on the ledger exactly when
      the ledger answered truthy; one receipt with the moved quantity as both
      received and expected; one audit row naming the movement; nothing else
      changes. */
  function Receive(s: Store, user: User, f: Forms.ConfirmReceiptForm, i: nat, k: nat, ledger: LedgerCall): (s': Store)
    requires i < |s.movements| && k < |s.chemicals|
    ensures |s'.movements| == |s.movements|
    ensures s'.movements[i] ==
      s.movements[i].(status := Some(Delivered), receivedBy := Some(user.id), receiptNotes := Some(f.receiptNotes),
                      quantityConfirmed := f.confirmQuantity, conditionConfirmed := f.confirmCondition,
                      receiptRecorded := Recorded(ledger))
    ensures forall j :: 0 <= j < |s.movements| && j != i ==> s'.movements[j] == s.movements[j]
    ensures s'.receipts == s.receipts + [Receipt(s.movements[i].id, s.chemicals[k].id,
      s.movements[i].quantity, s.movements[i].quantity, f.confirmCondition, Some(f.receiptNotes), user.id, user.org)]
    ensures s'.audits == s.audits + [Audit("receipt_confirmed", "movement", Some(s.movements[i].id), user.id, user.org)]
    ensures s'.(movements := s.movements, receipts := s.receipts, audits := s.audits) == s
  {
    var m := s.movements[i];
    var m' := m.(status := Some(Delivered), receivedBy := Some(user.id), receiptNotes := Some(f.receiptNotes),
                 quantityConfirmed := f.confirmQuantity, conditionConfirmed := f.confirmCondition,
                 receiptRecorded := Recorded(ledger));
    var receipt := Receipt(m.id, s.chemicals[k].id, m.quantity, m.quantity, f.confirmCondition,
                           Some(f.receiptNotes), user.id, user.org);
    s.(movements := Put(s.movements, i, m'),
       receipts := s.receipts + [receipt],
       audits := s.audits + [Audit("receipt_confirmed", "movement", Some(m.id), user.id, user.org)])
  }

  /** `confirm_receipt` as evidently intended: the confirmation carries the
      tag the customer scanned (`rfidTag`, the field `VerifyReceiptForm`
      declares and `ConfirmReceiptForm` lacks). Guards in order: the form
      validates, the movement exists, it is addressed to the user's
      organisation, it has no receipt yet, its chemical exists and a
      submitted tag equals the movement's tag (the pending changes are then
      discarded). The ledger only decides a warning. `dbOk` false: the commit
      raises and nothing is kept. */
  function ConfirmReceipt(s: Store, user: User, f: Forms.ConfirmReceiptForm, rfidTag: string, ledger: LedgerCall, dbOk: bool)
    : (r: ConfirmOutcome)
    ensures !r.page.Confirmed? ==> r.store == s
    ensures !Forms.ConfirmReceiptValid(f) ==> r.page == InvalidSubmission
    ensures r.page == AlreadyReceived ==>
      MovementById(s, f.movementId).Some? && ReceiptFor(s, s.movements[MovementById(s, f.movementId).value].id).Some?
    ensures r.page.Confirmed? <==>
      && Forms.ConfirmReceiptValid(f)
      && MovementById(s, f.movementId).Some?
      && var m := s.movements[MovementById(s, f.movementId).value];
      && m.destinationOrg == user.org
      && ReceiptFor(s, m.id).None?
      && ChemicalByRef(s, m.chemicalId).Some?
      && (rfidTag != "" ==> m.tag == rfidTag)
      && dbOk
    ensures r.page.Confirmed? ==>
      && r.store == Receive(s, user, f, MovementById(s, f.movementId).value,
                            ChemicalByRef(s, s.movements[MovementById(s, f.movementId).value].chemicalId).value, ledger)
      && r.page.ledgerWarning == !Recorded(ledger)
    ensures r.page.Confirmed? ==>
      var m' := r.store.movements[MovementById(s, f.movementId).value];
      && m'.status == Some(Delivered) && m'.receivedBy == Some(user.id)
      && m'.quantityConfirmed && m'.conditionConfirmed
      && (m'.receiptRecorded <==> Recorded(ledger))
  {
    if !Forms.ConfirmReceiptValid(f) then ConfirmOutcome(s, InvalidSubmission)
    else match MovementById(s, f.movementId)
      case None => ConfirmOutcome(s, ConfirmNotFound)
      case Some(i) =>
        var m := s.movements[i];
        if m.destinationOrg != user.org then ConfirmOutcome(s, ConfirmNotForYou)
        else if ReceiptFor(s, m.id).Some? then ConfirmOutcome(s, AlreadyReceived)
        else match ChemicalByRef(s, m.chemicalId)
          case None => ConfirmOutcome(s, ConfirmMismatch)
          case Some(k) =>
            if rfidTag != "" && m.tag != rfidTag then ConfirmOutcome(s, ConfirmMismatch)
            else if !dbOk then ConfirmOutcome(s, ServerError)
            else ConfirmOutcome(Receive(s, user, f, i, k, ledger), Confirmed(!Recorded(ledger)))
  }

  /** Both confirmation boxes gate the receipt: with either unticked the
      submission is refused before any lookup and nothing is kept. */
  lemma UntickedBoxNeverConfirms(s: Store, user: User, f: Forms.ConfirmReceiptForm, rfidTag: string,
                                 ledger: LedgerCall, dbOk: bool)
    requires !f.confirmQuantity || !f.confirmCondition
    ensures ConfirmReceipt(s, user, f, rfidTag, ledger, dbOk) == ConfirmOutcome(s, InvalidSubmission)
    ensures ConfirmReceiptAsWritten(s, user, f) == ConfirmOutcome(s, InvalidSubmission)
  {
  }

  /** `confirm_receipt` as written. Past the receipt guard the route reads
      `form.rfid_tag`, which `ConfirmReceiptForm` does not declare: with the
      chemical missing the `or` stops before it and the verification page is
      shown; with the chemical present the attribute error ends the request
      with a server error. Either way nothing is committed. */
  function ConfirmReceiptAsWritten(s: Store, user: User, f: Forms.ConfirmReceiptForm): (r: ConfirmOutcome)
    ensures r.store == s
    ensures !r.page.Confirmed?
    ensures r.page == ServerError <==>
      && Forms.ConfirmReceiptValid(f)
      && MovementById(s, f.movementId).Some?
      && var m := s.movements[MovementById(s, f.movementId).value];
      && m.destinationOrg == user.org
      && ReceiptFor(s, m.id).None?
      && ChemicalByRef(s, m.chemicalId).Some?
  {
    if !Forms.ConfirmReceiptValid(f) then ConfirmOutcome(s, InvalidSubmission)
    else match MovementById(s, f.movementId)
      case None => ConfirmOutcome(s, ConfirmNotFound)
      case Some(i) =>
        var m := s.movements[i];
        if m.destinationOrg != user.org then ConfirmOutcome(s, ConfirmNotForYou)
        else if ReceiptFor(s, m.id).Some? then ConfirmOutcome(s, AlreadyReceived)
        else match ChemicalByRef(s, m.chemicalId)
          case None => ConfirmOutcome(s, ConfirmMismatch)
          case Some(_) => ConfirmOutcome(s, ServerError)
  }

  /** The discrepancy: every confirmation the corrected route accepts, with
      or without a tag, ends in a server error as written, and the written
      route agrees with the corrected one on every refusal before the tag
      check. */
  lemma AsWrittenNeverConfirms(s: Store, user: User, f: Forms.ConfirmReceiptForm, rfidTag: string, ledger: LedgerCall)
    ensures ConfirmReceipt(s, user, f, rfidTag, ledger, true).page.Confirmed? ==>
      ConfirmReceiptAsWritten(s, user, f) == ConfirmOutcome(s, ServerError)
    ensures ConfirmReceipt(s, user, f, rfidTag, ledger, true).page in {InvalidSubmission, ConfirmNotFound, ConfirmNotForYou, AlreadyReceived} ==>
      ConfirmReceiptAsWritten(s, user, f) == ConfirmReceipt(s, user, f, rfidTag, ledger, true)
  {
  }

  /** A shipment is received once: confirming the same movement again is
      refused as already received, and nothing changes. */
  lemma ConfirmedOnlyOnce(s: Store, user: User, f: Forms.ConfirmReceiptForm, tag: string, a: LedgerCall, b: LedgerCall)
    requires ConfirmReceipt(s, user, f, tag, a, true).page.Confirmed?
    ensures
      var s1 := ConfirmReceipt(s, user, f, tag, a, true).store;
      ConfirmReceipt(s1, user, f, tag, b, true) == ConfirmOutcome(s1, AlreadyReceived)
  {
    var i := MovementById(s, f.movementId).value;
    var k := ChemicalByRef(s, s.movements[i].chemicalId).value;
    var s1 := Receive(s, user, f, i, k, a);
    assert ConfirmReceipt(s, user, f, tag, a, true).store == s1;
    var id := s.movements[i].id;
    assert forall j :: 0 <= j < |s1.movements| ==> s1.movements[j].id == s.movements[j].id;
    assert MovementById(s1, f.movementId) == Some(i);
    assert s1.receipts[|s.receipts|].movementId == id;
    assert ReceiptFor(s1, id).Some?;
  }

  /** The two lists of `view_receipts`. */
  datatype Receipts = Receipts(received: seq<Movement>, pending: seq<Movement>)

  /** The movements addressed to the user's organisation with the given
      status, latest first. */
  function Addressed(s: Store, user: User, status: string): (ms: seq<Movement>)
    ensures NewestFirst(ms)
    ensures forall m :: m in ms <==> m in s.movements && m.destinationOrg == user.org && m.status == Some(status)
    ensures forall m :: multiset(ms)[m] == if m.destinationOrg == user.org && m.status == Some(status) then multiset(s.movements)[m] else 0
  {
    var p := (m: Movement) => m.destinationOrg == user.org && m.status == Some(status);
    var ms := Newest(Select(s.movements, p));
    forall m ensures m in ms <==> m in s.movements && p(m) {
      NewestSelectExact(s.movements, p, m);
    }
    ms
  }

  /** `view_receipts`: the movements addressed to the user's organisation that
      are delivered, and those still in transit, each latest first; no
      movement is in both lists. */
  function ViewReceipts(s: Store, user: User): (r: Receipts)
    ensures NewestFirst(r.received) && NewestFirst(r.pending)
    ensures forall m :: m in r.received <==> m in s.movements && m.destinationOrg == user.org && m.status == Some(Delivered)
    ensures forall m :: m in r.pending <==> m in s.movements && m.destinationOrg == user.org && m.status == Some(InTransit)
    ensures forall m :: multiset(r.received)[m] == if m.destinationOrg == user.org && m.status == Some(Delivered) then multiset(s.movements)[m] else 0
    ensures forall m :: multiset(r.pending)[m] == if m.destinationOrg == user.org && m.status == Some(InTransit) then multiset(s.movements)[m] else 0
    ensures forall m :: !(m in r.received && m in r.pending)
  {
    Receipts(Addressed(s, user, Delivered), Addressed(s, user, InTransit))
  }

  /** A confirmed receipt moves its shipment into the received list. */
  lemma ConfirmedShowsAsReceived(s: Store, user: User, f: Forms.ConfirmReceiptForm, tag: string, ledger: LedgerCall)
    requires ConfirmReceipt(s, user, f, tag, ledger, true).page.Confirmed?
    ensures
      var s1 := ConfirmReceipt(s, user, f, tag, ledger, true).store;
      s1.movements[MovementById(s, f.movementId).value] in ViewReceipts(s1, user).received
  {
    var i := MovementById(s, f.movementId).value;
    var s1 := ConfirmReceipt(s, user, f, tag, ledger, true).store;
    assert s1.movements[i] in s1.movements;
  }

  predicate OldestFirst(ms: seq<Movement>) {
    forall i, j :: 0 <= i < j < |ms| ==> ms[i].timestamp <= ms[j].timestamp
  }

  function Reverse(ms: seq<Movement>): (r: seq<Movement>)
    ensures |r| == |ms|
    ensures forall i :: 0 <= i < |ms| ==> r[i] == ms[|ms| - 1 - i]
    ensures multiset(r) == multiset(ms)
  {
    if |ms| == 0 then []
    else
      assert ms == [ms[0]] + ms[1..];
      Reverse(ms[1..]) + [ms[0]]
  }

  /** Reversing keeps the rows and turns newest-first into oldest-first. */
  lemma ReverseFlipsOrder(ms: seq<Movement>)
    requires NewestFirst(ms)
    ensures OldestFirst(Reverse(ms))
    ensures forall m :: m in Reverse(ms) <==> m in ms
  {
    var r := Reverse(ms);
    forall m ensures m in r <==> m in ms {
      if m in ms {
        var i :| 0 <= i < |ms| && ms[i] == m;
        assert r[|ms| - 1 - i] == m;
      }
    }
  }

  /** `pending_shipments`: the shipments still in transit to the user's
      organisation, oldest first. */
  function PendingShipments(s: Store, user: User): (p: seq<Movement>)
    ensures OldestFirst(p)
    ensures forall m :: m in p <==> m in s.movements && m.destinationOrg == user.org && m.status == Some(InTransit)
    ensures forall m :: multiset(p)[m] == if m.destinationOrg == user.org && m.status == Some(InTransit) then multiset(s.movements)[m] else 0
  {
    var pending := ViewReceipts(s, user).pending;
    ReverseFlipsOrder(pending);
    Reverse(pending)
  }
}

=== FILE: distributor_routes.dfy ===
/** The distributor blueprint: logging a movement of a chemical the distributor
    holds, listing the distributor's own movements, and looking a chemical up
    by its RFID tag. */
module DistributorRoutes {
  import opened Wrappers
  import opened Custody
  import Forms

  /** What the distributor sees after posting the movement form. */
  datatype Page =
    | FormPage                      // the form again, with its validation errors
    | UnknownTag                    // the form again, flashing that no chemical has the tag
    | Failed                        // the form again after a rollback
    | Logged(ledgerWarning: bool)   // redirect to the dashboard

  datatype Outcome = Outcome(store: Store, page: Page)

  /** Ids of the active organisations: the recipient choices of the form. */
  function ActiveOrgIds(orgs: seq<Org>): set<nat> {
    set i | 0 <= i < |orgs| && orgs[i].active :: orgs[i].id
  }

  function ChemicalByTag(s: Store, tag: string): (i: Option<nat>)
    ensures i.Some? ==> i.value < |s.chemicals| && s.chemicals[i.value].rfidTag == tag
    ensures i.Some? ==> forall j :: 0 <= j < i.value ==> s.chemicals[j].rfidTag != tag
    ensures i.None? <==> forall j :: 0 <= j < |s.chemicals| ==> s.chemicals[j].rfidTag != tag
  {
    Find(s.chemicals, (c: Chemical) => c.rfidTag == tag)
  }

  /** The movement a valid form logs for chemical `c`. */
  function Shipment(s: Store, user: User, f: Forms.MovementForm, c: Chemical, now: int, ledger: LedgerCall): Movement
    requires f.recipientOrganization.Some?
  {
    NewMovement(NextId(Ids(s.movements, (m: Movement) => m.id)), c.rfidTag, f.destinationLocation, now)
      .(chemicalId := Some(c.id), source := Some(f.sourceLocation), purpose := Some(f.movementType),
        status := Some(InTransit), remarks := Some(f.notes), quantity := f.quantity,
        movedByUser := Some(user.id), sourceOrg := user.org,
        destinationOrg := Some(f.recipientOrganization.value),
        ledgerRecorded := f.confirmAccuracy && Recorded(ledger))
  }

  /** The unit of work `log_movement` commits for the chemical at index `k`:
      one new movement in transit to the recipient, the chemical in transit in
      the distributor's custody, one audit row; nothing else changes. */
  function Commit(s: Store, user: User, f: Forms.MovementForm, k: nat, now: int, ledger: LedgerCall): (s': Store)
    requires k < |s.chemicals| && f.recipientOrganization.Some?
    ensures |s'.movements| == |s.movements| + 1 && s'.movements[..|s.movements|] == s.movements
    ensures
      var m := s'.movements[|s.movements|];
      && (forall i :: 0 <= i < |s.movements| ==> s.movements[i].id != m.id)
      && m.tag == s.chemicals[k].rfidTag && m.chemicalId == Some(s.chemicals[k].id)
      && m.status == Some(InTransit) && m.timestamp == now
      && m.location == f.destinationLocation && m.source == Some(f.sourceLocation)
      && m.sourceOrg == user.org && m.movedByUser == Some(user.id)
      && m.destinationOrg == f.recipientOrganization
      && (m.ledgerRecorded <==> f.confirmAccuracy && Recorded(ledger))
    ensures |s'.chemicals| == |s.chemicals|
    ensures s'.chemicals[k] == s.chemicals[k].(location := Some(InTransitLocation), custodianOrg := user.org)
    ensures forall j :: 0 <= j < |s.chemicals| && j != k ==> s'.chemicals[j] == s.chemicals[j]
    ensures s'.audits == s.audits + [Audit("movement_created", "movement", None, user.id, user.org)]
    ensures s'.(movements := s.movements, chemicals := s.chemicals, audits := s.audits) == s
  {
    var c := s.chemicals[k];
    var m := Shipment(s, user, f, c, now, ledger);
    var c' := c.(location := Some(InTransitLocation), custodianOrg := user.org);
    var audit := Audit("movement_created", "movement", None, user.id, user.org);
    s.(movements := s.movements + [m], chemicals := Put(s.chemicals, k, c'), audits := s.audits + [audit])
  }

  /** `log_movement` on POST. Guards in order: the form validates, a chemical
      carries the tag. Then the unit of work above; the ledger call (made only
      when accuracy is confirmed) decides nothing but the `blockchain_recorded`
      flag and a warning. `dbOk` false means the local work raised: rollback. */
  function LogMovement(s: Store, user: User, f: Forms.MovementForm, emailOk: bool, now: int,
                       ledger: LedgerCall, dbOk: bool): (r: Outcome)
    ensures !Forms.MovementValid(f, ActiveOrgIds(s.orgs), emailOk) ==> r == Outcome(s, FormPage)
    ensures Forms.MovementValid(f, ActiveOrgIds(s.orgs), emailOk) && ChemicalByTag(s, f.rfidTag).None? ==> r == Outcome(s, UnknownTag)
    ensures !r.page.Logged? ==> r.store == s
    ensures r.page.Logged? <==> Forms.MovementValid(f, ActiveOrgIds(s.orgs), emailOk) && ChemicalByTag(s, f.rfidTag).Some? && dbOk
    ensures r.page.Logged? ==> f.confirmAccuracy && f.recipientOrganization.Some?
    ensures r.page.Logged? ==> r.page.ledgerWarning == !Recorded(ledger)
    ensures r.page.Logged? ==> r.store == Commit(s, user, f, ChemicalByTag(s, f.rfidTag).value, now, ledger)
  {
    var valid := Forms.MovementValid(f, ActiveOrgIds(s.orgs), emailOk);
    if !valid then Outcome(s, FormPage)
    else match ChemicalByTag(s, f.rfidTag)
      case None => Outcome(s, UnknownTag)
      case Some(k) =>
        if !dbOk then Outcome(s, Failed)
        else Outcome(Commit(s, user, f, k, now, ledger), Logged(!(f.confirmAccuracy && Recorded(ledger))))
  }

  /** The accuracy statement is the form's last gate: a movement whose box
      is unticked is never logged, whatever the ledger or the database would
      have done, and the store is left as it was. */
  lemma UnattestedMovementNeverLogged(s: Store, user: User, f: Forms.MovementForm, emailOk: bool, now: int,
                                      ledger: LedgerCall, dbOk: bool)
    requires !f.confirmAccuracy
    ensures LogMovement(s, user, f, emailOk, now, ledger, dbOk) == Outcome(s, FormPage)
  {
  }

  /** The ledger never blocks the local commit: whatever the ledger call does,
      the same request commits the same rows, apart from the movement's
      `blockchain_recorded` flag. */
  lemma {:induction false} LedgerNeverBlocksCommit(s: Store, user: User, f: Forms.MovementForm, emailOk: bool, now: int,
                                                   a: LedgerCall, b: LedgerCall, dbOk: bool)
    ensures LogMovement(s, user, f, emailOk, now, a, dbOk).page.Logged? <==> LogMovement(s, user, f, emailOk, now, b, dbOk).page.Logged?
    ensures LogMovement(s, user, f, emailOk, now, a, dbOk).page.Logged? ==>
      var ra := LogMovement(s, user, f, emailOk, now, a, dbOk).store;
      var rb := LogMovement(s, user, f, emailOk, now, b, dbOk).store;
      && |ra.movements| == |rb.movements|
      && ra.movements[|s.movements|].(ledgerRecorded := false) == rb.movements[|s.movements|].(ledgerRecorded := false)
      && ra.(movements := rb.movements) == rb
  {
    var ra := LogMovement(s, user, f, emailOk, now, a, dbOk);
    var rb := LogMovement(s, user, f, emailOk, now, b, dbOk);
    if ra.page.Logged? {
      var k := ChemicalByTag(s, f.rfidTag).value;
      var c := s.chemicals[k];
      assert ra.store.movements == s.movements + [Shipment(s, user, f, c, now, a)];
      assert rb.store.movements == s.movements + [Shipment(s, user, f, c, now, b)];
    }
  }

  /** `MovementForm` requires the accuracy box, so a request that gets past
      validation always tries the ledger; the recorded flag then follows the
      ledger's answer exactly. */
  lemma ValidatedFormAlwaysTriesLedger(s: Store, user: User, f: Forms.MovementForm, emailOk: bool, now: int,
                                       ledger: LedgerCall)
    requires LogMovement(s, user, f, emailOk, now, ledger, true).page.Logged?
    ensures f.confirmAccuracy
    ensures LogMovement(s, user, f, emailOk, now, ledger, true).store.movements[|s.movements|].ledgerRecorded <==>
      ledger.LedgerReturned? && ledger.truthy
  {
  }

  /** As written, the route constructs `BlockchainClient()` without the two
      arguments its constructor requires, so the ledger step always raises: a
      logged movement is never flagged as recorded and the distributor is
      always warned. */
  lemma AsWrittenNeverRecords(s: Store, user: User, f: Forms.MovementForm, emailOk: bool, now: int)
    requires LogMovement(s, user, f, emailOk, now, ArgumentlessClient, true).page.Logged?
    ensures !LogMovement(s, user, f, emailOk, now, ArgumentlessClient, true).store.movements[|s.movements|].ledgerRecorded
    ensures LogMovement(s, user, f, emailOk, now, ArgumentlessClient, true).page.ledgerWarning
  {
  }

  /** `view_movements`: the movements the user logged, latest first. */
  function ViewMovements(s: Store, user: User): (ms: seq<Movement>)
    ensures NewestFirst(ms)
    ensures forall m :: m in ms <==> m in s.movements && m.movedByUser == Some(user.id)
    ensures forall m :: multiset(ms)[m] == if m.movedByUser == Some(user.id) then multiset(s.movements)[m] else 0
  {
    var p := (m: Movement) => m.movedByUser == Some(user.id);
    var ms := Newest(Select(s.movements, p));
    forall m ensures m in ms <==> m in s.movements && m.movedByUser == Some(user.id) {
      NewestSelectExact(s.movements, p, m);
    }
    ms
  }

  /** The JSON `get_chemical_by_rfid` answers with, or 404. */
  datatype Lookup = Found(chemical: Chemical) | NotFound404

  function GetChemicalByRfid(s: Store, tag: string): (r: Lookup)
    ensures r.NotFound404? <==> forall j :: 0 <= j < |s.chemicals| ==> s.chemicals[j].rfidTag != tag
    ensures r.Found? ==> r.chemical in s.chemicals && r.chemical.rfidTag == tag
  {
    match ChemicalByTag(s, tag)
    case None => NotFound404
    case Some(i) => Found(s.chemicals[i])
  }
}

=== FILE: domains.dfy ===
/** The two email-domain patterns the application declares, read as rules over
    the dot-separated parts of a domain. */
module Domains {
  import opened Text

  predicate IsLabelChar(c: char) {
    IsAlnum(c) || c == '-'
  }

  /** Letters only, at least two: `[a-zA-Z]{2,}`. */
  predicate Tld(p: string) {
    |p| >= 2 && forall i :: 0 <= i < |p| ==> IsLetter(p[i])
  }

  /** One label of the admin pattern, `[a-zA-Z0-9]([a-zA-Z0-9\-]{0,61}[a-zA-Z0-9])?`:
      1 to 63 letters, digits and hyphens, starting and ending with a letter
      or digit. */
  predicate AdminLabel(p: string) {
    && 1 <= |p| <= 63
    && IsAlnum(p[0]) && IsAlnum(p[|p| - 1])
    && forall i :: 0 <= i < |p| ==> IsLabelChar(p[i])
  }

  predicate NoDoubleHyphen(p: string) {
    forall i :: 0 <= i < |p| - 1 ==> !(p[i] == '-' && p[i + 1] == '-')
  }

  /** One dot-separated part of the form pattern, `[a-zA-Z0-9]+([\-][a-zA-Z0-9]+)*`:
      runs of letters and digits joined by single hyphens, of any length. */
  predicate FormLabel(p: string) {
    && 1 <= |p|
    && IsAlnum(p[0]) && IsAlnum(p[|p| - 1])
    && (forall i :: 0 <= i < |p| ==> IsLabelChar(p[i]))
    && NoDoubleHyphen(p)
  }

  /** Every part but the last satisfies `isLabel`, the last is a `Tld`, and
      there are at least two parts. */
  predicate Dotted(d: string, isLabel: string -> bool) {
    var parts := Split(d, '.');
    |parts| >= 2 && Tld(parts[|parts| - 1]) && forall i :: 0 <= i < |parts| - 1 ==> isLabel(parts[i])
  }

  /** `^([a-zA-Z0-9]([a-zA-Z0-9\-]{0,61}[a-zA-Z0-9])?\.)+[a-zA-Z]{2,}$` without
      the trailing-newline allowance of `$`. */
  predicate AdminPattern(d: string) {
    Dotted(d, AdminLabel)
  }

  /** `^[a-zA-Z0-9]+([\-\.]{1}[a-zA-Z0-9]+)*\.[a-zA-Z]{2,}$` without the
      trailing-newline allowance of `$`. */
  predicate FormPattern(d: string) {
    Dotted(d, FormLabel)
  }

  /** `re.match(pattern + '$', d)`: Python's `$` also matches just before a
      final newline, so one trailing '\n' is tolerated. */
  predicate WithNewlineAllowance(d: string, pattern: string -> bool) {
    pattern(d) || (|d| > 0 && d[|d| - 1] == '\n' && pattern(d[..|d| - 1]))
  }

  /** The two patterns agree on domains whose labels have no doubled hyphen
      and are at most 63 characters long: the form pattern forbids "--"
      and the admin pattern forbids long labels. */
  lemma {:induction false} PatternsAgree(d: string)
    requires forall i :: 0 <= i < |Split(d, '.')| ==> |Split(d, '.')[i]| <= 63 && NoDoubleHyphen(Split(d, '.')[i])
    ensures AdminPattern(d) <==> FormPattern(d)
  {
    var parts := Split(d, '.');
    assert forall i :: 0 <= i < |parts| - 1 ==> (AdminLabel(parts[i]) <==> FormLabel(parts[i]));
  }

  /** A label both patterns read differently: the admin pattern allows a
      doubled hyphen, the form pattern does not. */
  lemma LabelsDiffer()
    ensures AdminLabel("a--b") && !FormLabel("a--b")
  {
    assert "a--b"[1] == '-' && "a--b"[2] == '-';
  }

  /** A domain either pattern accepts starts with a letter or digit and ends
      with a letter, so it has no surrounding blanks and no leading '@'. */
  lemma {:induction false} AcceptedDomainEdges(d: string)
    requires Dotted(d, AdminLabel) || Dotted(d, FormLabel)
    ensures |d| > 0 && IsAlnum(d[0]) && IsLetter(d[|d| - 1])
  {
    var parts := Split(d, '.');
    SplitFirstIsPrefix(d, '.');
    SplitLastIsSuffix(d, '.');
    var first := parts[0];
    var last := parts[|parts| - 1];
    assert |first| >= 1 && IsAlnum(first[0]);
    assert d[0] == first[0];
    assert d[|d| - 1] == last[|last| - 1];
  }
}

=== FILE: forms.dfy ===
/** The validation rules `app/forms.py` declares, as predicates over the
    submitted values. A form is valid when every declared validator accepts;
    WTForms runs them all, so the order only matters for the messages. The
    registration, organisation and anomaly-resolution forms declared here
    are used by no route: those routes declare their own forms or read the
    raw request. */
module Forms {
  import opened Wrappers
  import opened Text
  import opened Custody
  import Domains

  /** `DataRequired` on a text field: not blank once whitespace is stripped. */
  predicate Required(v: string) {
    PyStrip(v) != ""
  }

  /** `Optional(), Length(max=n)`: a blank value stops the chain and passes. */
  predicate OptionalAtMost(v: string, n: nat) {
    PyStrip(v) == "" || |v| <= n
  }

  /** `DataRequired` on a number or a coerced choice: 0 counts as missing. */
  predicate RequiredNumber(v: Option<int>) {
    v.Some? && v.value != 0
  }

  /** The submitted fields of `MovementForm` (numbers abstracted to integers). */
  datatype MovementForm = MovementForm(
    rfidTag: string,
    chemicalId: string,
    movementType: string,
    sourceLocation: string,
    destinationLocation: string,
    quantity: Option<int>,
    unit: string,
    recipientOrganization: Option<nat>,
    recipientEmail: string,
    transportMethod: string,
    estimatedArrival: Option<int>,
    temperatureControlled: bool,
    minTemperature: Option<int>,
    maxTemperature: Option<int>,
    notes: string,
    confirmAccuracy: bool)

  const MovementTypes: seq<string> := ["transfer", "shipping", "return"]
  const TransportMethods: seq<string> := ["road", "rail", "air", "sea"]

  /** `MovementForm.validate_on_submit()`. `recipients` are the ids offered as
      choices (the active organisations); `emailOk` is the `Email()`
      validator's verdict on the recipient address. */
  predicate MovementValid(f: MovementForm, recipients: set<nat>, emailOk: bool) {
    && Required(f.rfidTag) && |f.rfidTag| <= 100
    && Required(f.chemicalId)
    && Required(f.movementType) && f.movementType in MovementTypes
    && Required(f.sourceLocation) && |f.sourceLocation| <= 100
    && Required(f.destinationLocation) && |f.destinationLocation| <= 100
    && RequiredNumber(f.quantity)
    && Required(f.unit) && |f.unit| <= 20
    && f.recipientOrganization.Some? && f.recipientOrganization.value != 0
    && f.recipientOrganization.value in recipients
    && Required(f.recipientEmail) && emailOk
    && Required(f.transportMethod) && f.transportMethod in TransportMethods
    && f.estimatedArrival.Some?
    && OptionalAtMost(f.notes, 500)
    && f.confirmAccuracy
  }

  datatype VerifyReceiptForm = VerifyReceiptForm(movementId: string, rfidTag: string)

  predicate VerifyReceiptValid(f: VerifyReceiptForm) {
    Required(f.movementId) && |f.movementId| <= 100 && OptionalAtMost(f.rfidTag, 100)
  }

  /** No `rfid_tag` field: the confirmation route reads one all the same. */
  datatype ConfirmReceiptForm = ConfirmReceiptForm(
    movementId: string, receiptNotes: string, confirmQuantity: bool, confirmCondition: bool)

  /** Both confirmation boxes are required: an unticked box fails `DataRequired`. */
  predicate ConfirmReceiptValid(f: ConfirmReceiptForm) {
    Required(f.movementId) && OptionalAtMost(f.receiptNotes, 500) && f.confirmQuantity && f.confirmCondition
  }

  const ResolutionStatuses: seq<string> := ["resolved", "false_positive", "escalated"]

  datatype AnomalyResolutionForm = AnomalyResolutionForm(anomalyId: string, notes: string, status: string)

  predicate AnomalyResolutionValid(f: AnomalyResolutionForm) {
    && Required(f.anomalyId)
    && Required(f.notes) && |f.notes| <= 500
    && Required(f.status) && f.status in ResolutionStatuses
  }

  /** The fields of the `RegistrationForm` declared in `app/forms.py`. */
  datatype RegistrationForm = RegistrationForm(
    email: string, password: string, password2: string,
    firstName: string, lastName: string, organizationName: string, organizationDomain: string)

  predicate EmailTaken(s: Store, email: string) {
    exists i :: 0 <= i < |s.users| && s.users[i].email == email
  }

  predicate DomainTaken(s: Store, domain: string) {
    exists i :: 0 <= i < |s.orgs| && s.orgs[i].emailDomain == Some(domain)
  }

  predicate RegistrationValid(f: RegistrationForm, s: Store, emailOk: bool) {
    && Required(f.email) && emailOk && !EmailTaken(s, f.email)
    && Required(f.password) && |f.password| >= 8
    && Required(f.password2) && f.password2 == f.password
    && Required(f.firstName) && Required(f.lastName)
    && Required(f.organizationName)
    && Required(f.organizationDomain) && !DomainTaken(s, f.organizationDomain)
  }

  /** Outcome of an inline validator: it passes, raises `ValidationError`, or
      raises something else and the request fails. */
  datatype Verdict = Accepted | Rejected | Crashed

  /** The index of the first organisation holding `domain`. */
  function OrgWithDomain(s: Store, domain: string): (i: Option<nat>)
    ensures i.Some? ==> i.value < |s.orgs| && s.orgs[i.value].emailDomain == Some(domain)
    ensures i.None? <==> !DomainTaken(s, domain)
  {
    Find(s.orgs, (o: Org) => o.emailDomain == Some(domain))
  }

  /** `OrganizationForm.validate_email_domain` as written: it compares the
      holder's id with `self.id.data`, but the form declares no `id` field,
      so reading it raises whenever some organisation holds the domain. */
  function OrgDomainUniqueAsWritten(s: Store, domain: string): (v: Verdict)
    ensures v == Crashed <==> DomainTaken(s, domain)
    ensures v == Accepted <==> !DomainTaken(s, domain)
  {
    if OrgWithDomain(s, domain).Some? then Crashed else Accepted
  }

  /** The evident intent: reject a domain held by an organisation other than
      the one being edited (`editing`, None when adding). */
  function OrgDomainUnique(s: Store, domain: string, editing: Option<nat>): (v: Verdict)
    ensures v != Crashed
    ensures !DomainTaken(s, domain) ==> v == Accepted
    ensures v == Rejected ==> DomainTaken(s, domain)
    ensures editing.None? ==> (v == Rejected <==> DomainTaken(s, domain))
    ensures v == Accepted && DomainTaken(s, domain) ==> editing == Some(s.orgs[OrgWithDomain(s, domain).value].id)
  {
    match OrgWithDomain(s, domain)
    case None => Accepted
    case Some(i) => if editing == Some(s.orgs[i].id) then Accepted else Rejected
  }

  /** Submitting this form with the domain its organisation already holds:
      the written validator fails the request, the corrected one accepts. No
      route uses this form (the admin routes declare their own), so the
      defect stays latent. */
  lemma OrgDomainResaveDiffers(s: Store, i: nat, domain: string)
    requires i < |s.orgs| && s.orgs[i].emailDomain == Some(domain)
    requires forall j :: 0 <= j < |s.orgs| && j != i ==> s.orgs[j].emailDomain != Some(domain)
    ensures OrgDomainUniqueAsWritten(s, domain) == Crashed
    ensures OrgDomainUnique(s, domain, Some(s.orgs[i].id)) == Accepted
  {
    assert OrgWithDomain(s, domain) == Some(i);
  }

  datatype OrganizationForm = OrganizationForm(name: string, emailDomain: string, description: string)

  /** `OrganizationForm` of `app/forms.py` with the corrected uniqueness check:
      a name of 2 to 100 characters and a domain matching its pattern. */
  predicate OrganizationValid(f: OrganizationForm, s: Store, editing: Option<nat>) {
    && Required(f.name) && 2 <= |f.name| <= 100
    && Required(f.emailDomain) && Domains.WithNewlineAllowance(f.emailDomain, Domains.FormPattern)
    && OptionalAtMost(f.description, 500)
    && OrgDomainUnique(s, f.emailDomain, editing) == Accepted
  }
}

=== FILE: gateway_drift.dfy ===
/** Where the two gateways disagree when the node answers the same way. The
    routes build a `BlockchainClient` and read `'success'` only, but any
    caller that reads the hash, relies on the gas default or on the retry
    loop sees different behaviour depending on which gateway it holds. */
module Drift {
  import opened Wrappers
  import opened Ledger
  import Fallback
  import Client

  /** A mined registration is reported under different keys: `tx_hash` by the
      fallback, `transaction_hash` (plus the contract address) by the client. */
  lemma RegistrationHashKeysDiffer(g: Fallback.Gateway, c: Client.Client, node: Node, tag: string, name: string, manufacturer: string)
    requires Fallback.Passes(Fallback.Guard(g, node))
    requires node.send.Mined?
    ensures Fallback.RegisterChemical(g, node, tag, name, manufacturer).reply.hashKey == "tx_hash"
    ensures Client.RegisterChemical(c, node.send, tag, name, manufacturer).reply.hashKey == "transaction_hash"
    ensures Fallback.RegisterChemical(g, node, tag, name, manufacturer).reply.contractAddress.None?
    ensures Client.RegisterChemical(c, node.send, tag, name, manufacturer).reply.contractAddress == Some(c.contractAddress)
  {
  }

  /** The fallback registers with a tenth of the client's gas budget. */
  lemma RegistrationGasDiffers(g: Fallback.Gateway, c: Client.Client, node: Node, tag: string, name: string, manufacturer: string)
    requires Fallback.Passes(Fallback.Guard(g, node))
    ensures Fallback.RegisterChemical(g, node, tag, name, manufacturer).sent.value.gas * 10
         == Client.RegisterChemical(c, node.send, tag, name, manufacturer).sent.value.gas
  {
  }

  /** When gas estimation fails the fallback still submits with 300000 gas,
      while the client gives up without submitting anything. */
  lemma EstimateFailureDiverges(g: Fallback.Gateway, c: Client.Client, node: Node,
                                tag: string, location: string, actor: string, purpose: string, status: string)
    requires Fallback.Passes(Fallback.Guard(g, node)) && node.recheck.Alive?
    requires node.live.Alive?
    requires node.estimate.EstimateFailed?
    ensures Fallback.RecordMovement(g, node, tag, location, actor, purpose, status).sent
         == Some(Tx(MovementCall(tag, location, actor, purpose, status), FallbackDefaultMovementGas))
    ensures Client.RecordMovement(c, node, tag, location, Some(actor), Some(purpose), Some(status))
         == Client.Write(Refused(node.estimate.error, false), None)
  {
  }

  /** With a working estimate both gateways submit the same call with the same
      buffered gas limit. */
  lemma EstimatedMovementAgrees(g: Fallback.Gateway, c: Client.Client, node: Node,
                                tag: string, location: string, actor: string, purpose: string, status: string)
    requires Fallback.Passes(Fallback.Guard(g, node)) && node.recheck.Alive?
    requires node.live.Alive?
    requires node.estimate.Estimated?
    ensures Fallback.RecordMovement(g, node, tag, location, actor, purpose, status).sent
         == Client.RecordMovement(c, node, tag, location, Some(actor), Some(purpose), Some(status)).sent
    ensures Fallback.RecordMovement(g, node, tag, location, actor, purpose, status).reply.Success()
        <==> Client.RecordMovement(c, node, tag, location, Some(actor), Some(purpose), Some(status)).reply.Success()
  {
  }

  /** The fallback's `reconnect` retries three times; the client's tries once.
      A node that answers only on the second attempt is reached by the first
      and missed by the second. */
  lemma ReconnectRetriesDiffer(g: Fallback.Gateway, c: Client.Client, loads: bool)
    ensures Fallback.Reconnect(g, [Down, Up(loads)]).ok
    ensures Fallback.Reconnect(g, [Down, Up(loads)]).waits == [2]
    ensures !Client.Reconnect(c, Down).ok
  {
    var outcomes := [Down, Up(loads)];
    assert AttemptAt(outcomes, 1).Up?;
  }

  /** On the same node answers, a history read succeeds through one gateway
      exactly when it succeeds through the other, with the same entries; only
      the `'fallback'` marker of a failure differs. */
  lemma {:induction false} HistoryReadsAgree(g: Fallback.Gateway, c: Client.Client, node: Node)
    requires Fallback.Passes(Fallback.Guard(g, node))
    requires node.live.Alive?
    ensures Fallback.GetMovementHistory(g, node).reply.HistoryOk? <==> Client.GetMovementHistory(c, node).HistoryOk?
    ensures Fallback.GetMovementHistory(g, node).reply.HistoryOk? ==>
      Fallback.GetMovementHistory(g, node).reply.history == Client.GetMovementHistory(c, node).history
    ensures Fallback.GetMovementHistory(g, node).reply.HistoryRefused? ==>
      Fallback.GetMovementHistory(g, node).reply.fallback && !Client.GetMovementHistory(c, node).fallback
  {
    var f := Fallback.GetMovementHistory(g, node).reply;
    var k := Client.GetMovementHistory(c, node);
    if f.HistoryOk? {
      assert |f.history| == |k.history|;
      assert forall i :: 0 <= i < |f.history| ==> f.history[i] == k.history[i];
    }
  }
}

=== FILE: ledger.dfy ===
/** The Ethereum node and the traceability contract as both Python gateways see
    them. Nothing here talks to a network: every answer the node could give is
    an input (an oracle), and the gateways are functions of those answers. */
module Ledger {
  import opened Wrappers

  /** Both gateways make at most this many connection attempts in a row. */
  const MaxRetries: nat := 3

  /** Fixed gas budgets the gateways use when they do not estimate. */
  const FallbackRegisterGas: nat := 200000
  const FallbackDefaultMovementGas: nat := 300000
  const ClientFixedGas: nat := 2000000

  /** Outcome of one connection attempt: build a provider and handle, then ask
      `is_connected()`. */
  datatype Attempt =
    | Up(contractLoads: bool)     // reachable; whether building the contract object succeeds
    | Down                        // `is_connected()` answered False
    | Raised(handleBuilt: bool)   // an exception; whether `self.w3` had been assigned before it

  /** `is_connected()` asked of the handle the gateway already holds. */
  datatype Probe = Alive | Lost | Fault(error: string)

  datatype Estimate = Estimated(gas: nat) | EstimateFailed(error: string)

  /** Everything after the gas budget is fixed (nonce, gas price, build, sign,
      broadcast, wait for the receipt), collapsed into its outcome. */
  datatype Send = Mined(txHash: string, block: nat) | SendFailed(error: string)

  datatype Count = Counted(n: nat) | CountFailed(error: string)

  /** One tuple as `getMovementRecord(tag, i)` returns it. */
  datatype Record = Record(location: string, movedBy: string, purpose: string, status: string, timestamp: int)

  datatype Read = Got(record: Record) | ReadFailed(error: string)

  /** What the node answers during one gateway operation. Reconnection attempts
      are taken from `attempts` in the order they are made; `records[i]` answers
      `getMovementRecord(tag, i)`, and an index past its end reverts. */
  datatype Node = Node(
    live: Probe,
    attempts: seq<Attempt>,
    recheck: Probe,
    estimate: Estimate,
    send: Send,
    count: Count,
    records: seq<Read>)

  /** A contract function call with its arguments. */
  datatype Call =
    | RegisterCall(tag: string, name: string, manufacturer: string)
    | MovementCall(tag: string, location: string, movedBy: string, purpose: string, status: string)

  /** A transaction the gateway built and handed on for signing and broadcast. */
  datatype Tx = Tx(call: Call, gas: nat)

  /** The dictionary a write returns: `{'success': True, <hashKey>: …,
      'block_number': …}` or `{'success': False, 'error': …}`, where
      `fallback` tells whether the `'fallback': True` key is present. */
  datatype Reply =
    | Confirmed(hashKey: string, txHash: string, block: nat, contractAddress: Option<string>)
    | Refused(error: string, fallback: bool)
  {
    predicate Success() { Confirmed? }
  }

  /** A history entry: the record's five fields plus `blockchain_verified`. */
  datatype Entry = Entry(record: Record, blockchainVerified: bool)

  datatype HistoryReply =
    | HistoryOk(history: seq<Entry>)
    | HistoryRefused(error: string, fallback: bool)

  /** Message a reverted `getMovementRecord` call raises. */
  const Reverted: string := "execution reverted"

  function Pow2(k: nat): (p: nat)
    ensures p >= 1
  {
    if k == 0 then 1 else 2 * Pow2(k - 1)
  }

  /** The i-th connection attempt's outcome; an exhausted oracle means the node
      stays unreachable. */
  function AttemptAt(outcomes: seq<Attempt>, i: nat): Attempt {
    if i < |outcomes| then outcomes[i] else Down
  }

  function ReadAt(records: seq<Read>, i: nat): Read {
    if i < |records| then records[i] else ReadFailed(Reverted)
  }

  /** Whether an attempt leaves `self.w3` assigned. */
  predicate BuildsHandle(a: Attempt) {
    a.Up? || a.Down? || a.handleBuilt
  }

  /** `int(estimate * 1.1)`: the estimate plus a 10 % buffer, truncated. */
  function Buffered(estimate: nat): (gas: nat)
    ensures estimate <= gas
    ensures gas * 10 <= estimate * 11 < gas * 10 + 10
  {
    estimate * 11 / 10
  }

  /** How a retry loop over attempts `k..MaxRetries` runs: how many attempts it
      makes in total and the sleeps between them. */
  datatype Schedule = Schedule(used: nat, waits: seq<nat>)

  /** The loop `for attempt in range(k, max_retries + 1)` that stops at the first
      reachable node and sleeps `2 ** attempt` seconds after every failed
      attempt but the last. */
  function ScheduleFrom(outcomes: seq<Attempt>, k: nat): (s: Schedule)
    requires 1 <= k <= MaxRetries
    ensures k <= s.used <= MaxRetries
    ensures AttemptAt(outcomes, s.used - 1).Up? || s.used == MaxRetries
    ensures forall i :: k - 1 <= i < s.used - 1 ==> !AttemptAt(outcomes, i).Up?
    ensures |s.waits| == s.used - k
    ensures forall j :: 0 <= j < |s.waits| ==> s.waits[j] == Pow2(k + j)
    decreases MaxRetries - k
  {
    if AttemptAt(outcomes, k - 1).Up? || k == MaxRetries then Schedule(k, [])
    else
      var rest := ScheduleFrom(outcomes, k + 1);
      Schedule(rest.used, [Pow2(k)] + rest.waits)
  }

  /** The whole three-attempt loop. */
  function Backoff(outcomes: seq<Attempt>): (s: Schedule)
    ensures 1 <= s.used <= MaxRetries
    ensures |s.waits| == s.used - 1
    ensures forall j :: 0 <= j < |s.waits| ==> s.waits[j] == Pow2(j + 1)
  {
    ScheduleFrom(outcomes, 1)
  }

  /** Whether the loop ended on a reachable node. */
  predicate Reached(outcomes: seq<Attempt>) {
    AttemptAt(outcomes, Backoff(outcomes).used - 1).Up?
  }

  function Sum(xs: seq<nat>): nat {
    if |xs| == 0 then 0 else xs[0] + Sum(xs[1..])
  }

  lemma {:induction false} SumAppend(xs: seq<nat>, ys: seq<nat>)
    ensures Sum(xs + ys) == Sum(xs) + Sum(ys)
    decreases |xs|
  {
    if |xs| > 0 {
      assert (xs + ys)[1..] == xs[1..] + ys;
      SumAppend(xs[1..], ys);
    } else {
      assert xs + ys == ys;
    }
  }

  /** The loop stops at the first success and gives up only after the third
      failure; it succeeds exactly when one of the three attempts reaches the
      node. */
  lemma {:induction false} BackoffStopsAtFirstSuccess(outcomes: seq<Attempt>)
    ensures forall i :: 0 <= i < Backoff(outcomes).used - 1 ==> !AttemptAt(outcomes, i).Up?
    ensures !Reached(outcomes) ==> Backoff(outcomes).used == MaxRetries
    ensures Reached(outcomes) <==> exists i :: 0 <= i < MaxRetries && AttemptAt(outcomes, i).Up?
  {
    var s := Backoff(outcomes);
    if exists i :: 0 <= i < MaxRetries && AttemptAt(outcomes, i).Up? {
      var i :| 0 <= i < MaxRetries && AttemptAt(outcomes, i).Up?;
      assert i >= s.used - 1;
      assert s.used - 1 <= i < MaxRetries;
      if !Reached(outcomes) {
        assert s.used == MaxRetries;
      }
    }
  }

  /** The sleeps are 2 s then 4 s at most: never more than 6 s in total, and
      nothing is waited after a success on the first attempt. */
  lemma BackoffWaitsAtMostSix(outcomes: seq<Attempt>)
    ensures Sum(Backoff(outcomes).waits) <= 6
    ensures Backoff(outcomes).waits <= [2, 4]
    ensures AttemptAt(outcomes, 0).Up? ==> Backoff(outcomes).waits == []
  {
    var w := Backoff(outcomes).waits;
    if |w| == 2 {
      assert w == [2, 4];
      assert Sum(w) == 2 + Sum(w[1..]);
    } else if |w| == 1 {
      assert w == [2];
      assert Sum(w) == 2 + Sum(w[1..]);
    }
  }

  /** Reads records `i..n-1` in index order; the first failing read aborts with
      its error, as an exception out of the gateway's loop would. */
  function ReadFrom(records: seq<Read>, i: nat, n: nat): (r: Result<seq<Entry>, string>)
    requires i <= n
    ensures r.Ok? <==> forall j :: i <= j < n ==> ReadAt(records, j).Got?
    ensures r.Ok? ==> |r.value| == n - i
    ensures r.Ok? ==> forall j :: i <= j < n ==> r.value[j - i] == Entry(ReadAt(records, j).record, true)
    ensures r.Err? ==> exists j :: i <= j < n && ReadAt(records, j) == ReadFailed(r.error)
    decreases n - i
  {
    if i == n then Ok([])
    else match ReadAt(records, i)
      case ReadFailed(e) => Err(e)
      case Got(rec) =>
        var rest := ReadFrom(records, i + 1, n);
        if rest.Err? then rest else Ok([Entry(rec, true)] + rest.value)
  }

  /** `count` records read by index; entry i comes from index i and is marked
      verified. */
  function ReadHistory(records: seq<Read>, n: nat): (r: Result<seq<Entry>, string>)
    ensures r.Ok? <==> n <= |records| && forall i :: 0 <= i < n ==> records[i].Got?
    ensures r.Ok? ==> |r.value| == n
    ensures r.Ok? ==> forall i :: 0 <= i < n ==> r.value[i] == Entry(records[i].record, true)
  {
    var r := ReadFrom(records, 0, n);
    assert r.Ok? && |records| < n ==> ReadAt(records, |records|).ReadFailed?;
    assert n <= |records| ==> forall i :: 0 <= i < n ==> ReadAt(records, i) == records[i];
    r
  }
}

=== FILE: main_routes.dfy ===
/** The `main` blueprint: a bare chemical registration, the event log that
    scanners and the browser post to, and a tag's local movement history. */
module MainRoutes {
  import opened Wrappers
  import opened Custody

  /** A request body. JSON values may be null (None); a submitted form has no
      nulls. */
  datatype Body = Body(isJson: bool, data: map<string, Option<string>>)

  /** The store after the request and the HTTP status code of the response
      (302 for a redirect). */
  datatype Outcome = Outcome(store: Store, code: nat)

  /** `data.get(key)`. */
  function Get(data: map<string, Option<string>>, key: string): (v: Option<string>)
    ensures key !in data ==> v.None?
    ensures key in data ==> v == data[key]
  {
    if key in data then data[key] else None
  }

  predicate HasFields(data: map<string, Option<string>>) {
    "tag_id" in data && "location" in data
  }

  /** The index of the first chemical carrying `tag`. */
  function ChemicalByTag(s: Store, tag: string): (i: Option<nat>)
    ensures i.Some? ==> i.value < |s.chemicals| && s.chemicals[i.value].rfidTag == tag
    ensures i.None? <==> forall j :: 0 <= j < |s.chemicals| ==> s.chemicals[j].rfidTag != tag
  {
    Find(s.chemicals, (c: Chemical) => c.rfidTag == tag)
  }

  /** The movement `log_event` adds for a body that has both required keys. */
  function EventLog(s: Store, data: map<string, Option<string>>, now: int): Movement
    requires HasFields(data) && data["tag_id"].Some? && data["location"].Some?
  {
    NewMovement(NextId(Ids(s.movements, (m: Movement) => m.id)), data["tag_id"].value, data["location"].value, now)
      .(movedBy := Get(data, "moved_by"), purpose := Get(data, "purpose"),
        status := Get(data, "status"), remarks := Get(data, "remarks"))
  }

  /** `log_event`: 400 without `tag_id` or `location`; otherwise one new
      movement log and, when a chemical has the tag, its new location, all in
      one commit. `dbOk` is false when the database raises (a null required
      column also makes the commit fail), and then nothing is kept. */
  function LogEvent(s: Store, body: Body, now: int, dbOk: bool): (r: Outcome)
    ensures !HasFields(body.data) ==> r == Outcome(s, 400)
    ensures r.code in {201, 302, 400, 500}
    ensures r.code == 201 ==> body.isJson
    ensures r.code == 302 ==> !body.isJson
    ensures r.code == 500 ==> r.store == s
    ensures r.code != 400 && r.code != 500 <==>
      HasFields(body.data) && dbOk && body.data["tag_id"].Some? && body.data["location"].Some?
    ensures r.code != 400 && r.code != 500 ==>
      && r.store.movements == s.movements + [EventLog(s, body.data, now)]
      && r.store.movements[|s.movements|].tag == body.data["tag_id"].value
      && r.store.movements[|s.movements|].location == body.data["location"].value
      && r.store.movements[|s.movements|].timestamp == now
      && (forall i :: 0 <= i < |s.movements| ==> s.movements[i].id != r.store.movements[|s.movements|].id)
      && |r.store.chemicals| == |s.chemicals|
      && r.store.(movements := s.movements, chemicals := s.chemicals) == s
    ensures r.code != 400 && r.code != 500 ==> forall i :: 0 <= i < |s.chemicals| ==>
      r.store.chemicals[i] ==
        if ChemicalByTag(s, body.data["tag_id"].value) == Some(i)
        then s.chemicals[i].(location := Some(body.data["location"].value))
        else s.chemicals[i]
  {
    if !HasFields(body.data) then Outcome(s, 400)
    else if !dbOk || body.data["tag_id"].None? || body.data["location"].None? then Outcome(s, 500)
    else
      var tag := body.data["tag_id"].value;
      var location := body.data["location"].value;
      var chemicals :=
        match ChemicalByTag(s, tag)
        case Some(i) => Put(s.chemicals, i, s.chemicals[i].(location := Some(location)))
        case None => s.chemicals;
      var log := EventLog(s, body.data, now);
      Outcome(s.(movements := s.movements + [log], chemicals := chemicals), if body.isJson then 201 else 302)
  }

  /** An event for a tag no chemical carries is still logged, and no chemical
      changes. */
  lemma UnknownTagStillLogged(s: Store, body: Body, now: int)
    requires HasFields(body.data) && body.data["tag_id"].Some? && body.data["location"].Some?
    requires forall j :: 0 <= j < |s.chemicals| ==> s.chemicals[j].rfidTag != body.data["tag_id"].value
    ensures LogEvent(s, body, now, true).code in {201, 302}
    ensures LogEvent(s, body, now, true).store.chemicals == s.chemicals
    ensures |LogEvent(s, body, now, true).store.movements| == |s.movements| + 1
  {
  }

  /** `chemical_history`: the tag's logs, latest first. */
  function ChemicalHistory(s: Store, tag: string): (h: seq<Movement>)
    ensures NewestFirst(h)
    ensures forall m :: m in h <==> m in s.movements && m.tag == tag
    ensures forall m :: multiset(h)[m] == if m.tag == tag then multiset(s.movements)[m] else 0
  {
    var p := (m: Movement) => m.tag == tag;
    var h := Newest(Select(s.movements, p));
    forall m ensures m in h <==> m in s.movements && m.tag == tag {
      NewestSelectExact(s.movements, p, m);
    }
    h
  }

  /** `register_chemical` of the bare blueprint: name and tag from the JSON
      body, one commit. A missing key raises before anything is added; a null
      name or a tag already in use violates a column constraint at commit. */
  function RegisterChemical(s: Store, data: map<string, Option<string>>, dbOk: bool): (r: Outcome)
    ensures r.code in {201, 500}
    ensures r.code == 500 ==> r.store == s
    ensures r.code == 201 <==>
      && "name" in data && "rfid_tag" in data && data["name"].Some? && data["rfid_tag"].Some?
      && ChemicalByTag(s, data["rfid_tag"].value).None? && dbOk
    ensures r.code == 201 ==>
      && |r.store.chemicals| == |s.chemicals| + 1
      && r.store.chemicals[..|s.chemicals|] == s.chemicals
      && r.store.chemicals[|s.chemicals|].name == data["name"].value
      && r.store.chemicals[|s.chemicals|].rfidTag == data["rfid_tag"].value
      && r.store.(chemicals := s.chemicals) == s
  {
    if !("name" in data && "rfid_tag" in data) then Outcome(s, 500)
    else if data["name"].None? || data["rfid_tag"].None? || !dbOk then Outcome(s, 500)
    else if ChemicalByTag(s, data["rfid_tag"].value).Some? then Outcome(s, 500)
    else
      var c := Chemical(NextId(Ids(s.chemicals, (c: Chemical) => c.id)), data["name"].value, data["rfid_tag"].value,
                        None, None, None, None, None, None);
      Outcome(s.(chemicals := s.chemicals + [c]), 201)
  }

  /** After a successful registration the tag is unique: a second registration
      of the same tag is refused and changes nothing. */
  lemma RegisteredTagRefusedTwice(s: Store, data: map<string, Option<string>>)
    requires RegisterChemical(s, data, true).code == 201
    ensures RegisterChemical(RegisterChemical(s, data, true).store, data, true) == Outcome(RegisterChemical(s, data, true).store, 500)
  {
    var s1 := RegisterChemical(s, data, true).store;
    assert s1.chemicals[|s.chemicals|].rfidTag == data["rfid_tag"].value;
  }
}

=== FILE: manufacturer_routes.dfy ===
/** The manufacturer blueprint: the dashboard statistics, registering a new
    chemical (from the form or from a JSON body), preparing a stored chemical
    for shipment to a distributor, and viewing one of the organisation's
    shipments. */
module ManufacturerRoutes {
  import opened Wrappers
  import opened Text
  import opened Custody
  import Ledger

  /** Thirty days in the seconds of a movement timestamp. */
  const ThirtyDays: int := 30 * 24 * 60 * 60

  const ShipmentPurpose: string := "Manufacturer Shipment"

  datatype Stats = Stats(totalChemicals: nat, pendingShipments: nat, shippedChemicals: nat, activeBatches: nat)

  datatype Dashboard = Dashboard(chemicals: seq<Chemical>, shipments: seq<Movement>, stats: Stats)

  /** The distinct non-empty batch numbers among `cs`. */
  function Batches(cs: seq<Chemical>): (b: set<string>)
    ensures |b| <= |cs|
    ensures forall x :: x in b <==> x != "" && exists c :: c in cs && c.batch == Some(x)
  {
    if |cs| == 0 then {}
    else
      var rest := Batches(cs[1..]);
      var b := if cs[0].batch.Some? && cs[0].batch.value != "" then rest + {cs[0].batch.value} else rest;
      BatchesStep(cs, rest, b);
      b
  }

  /** Adding the first row's batch (when it has one) to the batches of the
      other rows gives the batches of all rows. */
  lemma BatchesStep(cs: seq<Chemical>, rest: set<string>, b: set<string>)
    requires |cs| > 0
    requires forall x :: x in rest <==> x != "" && exists c :: c in cs[1..] && c.batch == Some(x)
    requires b == if cs[0].batch.Some? && cs[0].batch.value != "" then rest + {cs[0].batch.value} else rest
    ensures forall x :: x in b <==> x != "" && exists c :: c in cs && c.batch == Some(x)
  {
    assert cs == [cs[0]] + cs[1..];
  }

  /** An outgoing movement of the user's organisation from the last thirty days. */
  predicate Recent(m: Movement, user: User, now: int) {
    m.sourceOrg == user.org && m.timestamp >= now - ThirtyDays
  }

  predicate IsPending(m: Movement) { m.status == Some(InTransit) }
  predicate IsShipped(m: Movement) { m.status == Some(Delivered) }

  /** `dashboard`: the organisation's chemicals, its shipments of the last
      thirty days latest first, and the four counters. */
  function ViewDashboard(s: Store, user: User, now: int): (d: Dashboard)
    ensures forall c :: c in d.chemicals <==> c in s.chemicals && c.manufacturerOrg == user.org
    ensures forall c :: multiset(d.chemicals)[c] == if c.manufacturerOrg == user.org then multiset(s.chemicals)[c] else 0
    ensures NewestFirst(d.shipments)
    ensures forall m :: m in d.shipments <==>
      m in s.movements && m.sourceOrg == user.org && m.timestamp >= now - ThirtyDays
    ensures forall m :: multiset(d.shipments)[m] == if Recent(m, user, now) then multiset(s.movements)[m] else 0
    ensures d.stats.totalChemicals == |d.chemicals|
    ensures d.stats.pendingShipments == Count(d.shipments, IsPending)
    ensures d.stats.shippedChemicals == Count(d.shipments, IsShipped)
    ensures d.stats.pendingShipments + d.stats.shippedChemicals <= |d.shipments|
    ensures d.stats.activeBatches == |Batches(d.chemicals)| <= d.stats.totalChemicals
    ensures forall x :: x in Batches(d.chemicals) <==>
      x != "" && exists c :: c in s.chemicals && c.manufacturerOrg == user.org && c.batch == Some(x)
  {
    var mine := (c: Chemical) => c.manufacturerOrg == user.org;
    var recent := (m: Movement) => m.sourceOrg == user.org && m.timestamp >= now - ThirtyDays;
    var chemicals := Select(s.chemicals, mine);
    var shipments := Newest(Select(s.movements, recent));
    forall m ensures m in shipments <==> m in s.movements && recent(m) {
      NewestSelectExact(s.movements, recent, m);
    }
    CountDisjoint(shipments, IsPending, IsShipped);
    BatchesOfSelection(s.chemicals, mine);
    Dashboard(chemicals, shipments,
      Stats(|chemicals|, Count(shipments, IsPending), Count(shipments, IsShipped), |Batches(chemicals)|))
  }

  /** The batches of a selection are the batch numbers of the selected rows. */
  lemma BatchesOfSelection(cs: seq<Chemical>, p: Chemical -> bool)
    ensures forall x :: x in Batches(Select(cs, p)) <==> x != "" && exists c :: c in cs && p(c) && c.batch == Some(x)
  {
    var sel := Select(cs, p);
    forall x ensures x in Batches(sel) <==> x != "" && exists c :: c in cs && p(c) && c.batch == Some(x) {
      if x in Batches(sel) {
        var c :| c in sel && c.batch == Some(x);
        assert c in cs && p(c);
      }
    }
  }

  /** A 32-digit lowercase hexadecimal string, as `uuid4().hex` prints one. */
  type Hex = s: string | |s| == 32 && forall i :: 0 <= i < |s| ==> IsLowerHex(s[i])
    witness "00000000000000000000000000000000"

  /** The tag generated when the form leaves the RFID field empty:
      "RFID-" and the first twelve hex digits in upper case. */
  function GeneratedTag(hex: Hex): (t: string)
    ensures |t| == 17 && t[..5] == "RFID-"
    ensures forall i :: 5 <= i < 17 ==> IsUpperHex(t[i]) && t[i] == Upper(hex[i - 5])
  {
    "RFID-" + UpperString(hex[..12])
  }

  /** What the manufacturer posts: the registration form (`valid` is its
      validators' verdict) or a JSON body, whose values may be null.
      `datesParse` is the verdict of `strptime(…, '%Y-%m-%d')` on every
      non-empty `expiry_date`, `received_date` and `manufacturing_date` of
      the body; the form's own dates are printed in that format, so they
      always parse. */
  datatype Registration =
    | ChemicalForm(valid: bool, name: string, rfidTag: string, initialLocation: string,
                   batch: string, quantity: Option<int>)
    | ChemicalJson(data: map<string, Option<string>>, quantity: Option<int>, datesParse: bool)

  /** The application-wide ledger client: absent, or present with the answer
      its `register_chemical` gives (Err when it raises). */
  datatype AppClient = NoClient | Answers(answer: Result<Ledger.Reply, string>)

  datatype RegisterPage =
    | FormAgain                                                  // validation errors shown
    | RegisterFailed                                             // rollback: JSON 500, or the form with the error
    | Created(chemicalId: nat, blockchain: Option<Ledger.Reply>) // JSON 201
    | Registered(chemicalId: nat)                                // redirect to the dashboard

  /** The arguments handed to the application client's `register_chemical`:
      the tag, the name (either None when the JSON body holds null) and the
      manufacturer's name. */
  datatype LedgerRequest = LedgerRequest(tag: Option<string>, name: Option<string>, manufacturer: string)

  /** The store afterwards, the page, and the registration the route sent to
      the application client, if any. */
  datatype Registered = RegisterOutcome(store: Store, page: RegisterPage, ledgerCall: Option<LedgerRequest>)

  /** The name sent to the ledger as the manufacturer. */
  function ManufacturerName(s: Store, user: User): (n: string)
    ensures OrgOf(s, user).Some? ==> n == OrgOf(s, user).value.name
    ensures OrgOf(s, user).None? ==> n == "Unknown Manufacturer"
  {
    match OrgOf(s, user)
    case Some(o) => o.name
    case None => "Unknown Manufacturer"
  }

  /** The columns the request supplies: name, tag, location and batch, each
      possibly null. None when the request never reaches the insert (an
      invalid form, or a JSON body without `name` or `rfid_tag`). */
  datatype Columns = Columns(name: Option<string>, tag: Option<string>, location: Option<string>,
                             batch: Option<string>, quantity: Option<int>)

  function RequestColumns(req: Registration, hex: Hex): (c: Option<Columns>)
    ensures req.ChemicalForm? ==> (c.Some? <==> req.valid)
    ensures req.ChemicalJson? ==> (c.Some? <==> "name" in req.data && "rfid_tag" in req.data)
    ensures c.Some? && req.ChemicalForm? ==>
      && c.value.name == Some(req.name)
      && c.value.tag == Some(if req.rfidTag != "" then req.rfidTag else GeneratedTag(hex))
      && c.value.location == Some(if req.initialLocation != "" then req.initialLocation else StorageLocation)
    ensures c.Some? && req.ChemicalJson? ==>
      && c.value.name == req.data["name"] && c.value.tag == req.data["rfid_tag"]
      && c.value.location == (if "current_location" in req.data then req.data["current_location"] else Some(StorageLocation))
  {
    match req
    case ChemicalForm(valid, name, tag, location, batch, quantity) =>
      if !valid then None
      else Some(Columns(Some(name), Some(if tag != "" then tag else GeneratedTag(hex)),
                        Some(if location != "" then location else StorageLocation), Some(batch), quantity))
    case ChemicalJson(data, quantity, _) =>
      if "name" !in data || "rfid_tag" !in data then None
      else
        var location := if "current_location" in data then data["current_location"] else Some(StorageLocation);
        var batch := if "batch_number" in data then data["batch_number"] else None;
        Some(Columns(data["name"], data["rfid_tag"], location, batch, quantity))
  }

  predicate TagInUse(s: Store, tag: string) {
    exists i :: 0 <= i < |s.chemicals| && s.chemicals[i].rfidTag == tag
  }

  /** The chemical row and audit row a registration adds. */
  function Inserted(s: Store, user: User, name: string, tag: string, cols: Columns): (s': Store)
    ensures |s'.chemicals| == |s.chemicals| + 1 && s'.chemicals[..|s.chemicals|] == s.chemicals
    ensures
      var c := s'.chemicals[|s.chemicals|];
      && (forall i :: 0 <= i < |s.chemicals| ==> s.chemicals[i].id != c.id)
      && c.name == name && c.rfidTag == tag && c.location == cols.location && c.batch == cols.batch
      && c.registeredBy == Some(user.id) && c.manufacturerOrg == user.org && c.custodianOrg == user.org
    ensures s'.audits == s.audits + [Audit("chemical_registered", "Chemical", None, user.id, user.org)]
    ensures s'.(chemicals := s.chemicals, audits := s.audits) == s
  {
    var c := Chemical(NextId(Ids(s.chemicals, (c: Chemical) => c.id)), name, tag, cols.location, cols.batch, cols.quantity,
                      Some(user.id), user.org, user.org);
    s.(chemicals := s.chemicals + [c],
       audits := s.audits + [Audit("chemical_registered", "Chemical", None, user.id, user.org)])
  }

  /** `register_chemical` on POST. An invalid form shows the form again. A
      form posted by a user without an organisation fails while building the
      data (the organisation's name is read). A JSON body without `name` or
      `rfid_tag`, or with a date that does not parse, fails before the
      ledger is reached. Otherwise the application client, when present, is
      asked to register the chemical BEFORE the commit, with whatever name
      and tag the body holds, null included, so its answer is in hand even
      when the commit then fails; a raised error becomes `{'success': False,
      'error': …}`. The commit fails on a null name or tag, on a tag already
      in use, or when `dbOk` is false (a database error): then nothing is
      kept. */
  function RegisterChemical(s: Store, user: User, req: Registration, hex: Hex, client: AppClient, dbOk: bool)
    : (r: Registered)
    ensures req.ChemicalForm? && !req.valid ==> r == RegisterOutcome(s, FormAgain, None)
    ensures req.ChemicalJson? && !req.datesParse ==> r == RegisterOutcome(s, RegisterFailed, None)
    ensures !r.page.Created? && !r.page.Registered? ==> r.store == s
    ensures r.page.Created? ==> req.ChemicalJson?
    ensures r.page.Registered? ==> req.ChemicalForm?
    ensures r.page.Created? || r.page.Registered? <==>
      && RequestColumns(req, hex).Some?
      && (req.ChemicalForm? ==> OrgOf(s, user).Some?)
      && (req.ChemicalJson? ==> req.datesParse)
      && RequestColumns(req, hex).value.name.Some? && RequestColumns(req, hex).value.tag.Some?
      && !TagInUse(s, RequestColumns(req, hex).value.tag.value)
      && dbOk
    ensures r.page.Created? || r.page.Registered? ==>
      var cols := RequestColumns(req, hex).value;
      r.store == Inserted(s, user, cols.name.value, cols.tag.value, cols)
    ensures r.ledgerCall.Some? <==>
      && client.Answers? && RequestColumns(req, hex).Some?
      && (req.ChemicalForm? ==> OrgOf(s, user).Some?)
      && (req.ChemicalJson? ==> req.datesParse)
    ensures r.ledgerCall.Some? ==>
      r.ledgerCall.value == LedgerRequest(RequestColumns(req, hex).value.tag,
                                          RequestColumns(req, hex).value.name,
                                          ManufacturerName(s, user))
    ensures r.page.Created? ==>
      (r.page.blockchain.Some? <==> client.Answers?)
      && (client.Answers? && client.answer.Err? ==> r.page.blockchain == Some(Ledger.Refused(client.answer.error, false)))
      && (client.Answers? && client.answer.Ok? ==> r.page.blockchain == Some(client.answer.value))
  {
    match RequestColumns(req, hex)
    case None => RegisterOutcome(s, if req.ChemicalForm? then FormAgain else RegisterFailed, None)
    case Some(cols) =>
      if req.ChemicalForm? && OrgOf(s, user).None? then RegisterOutcome(s, RegisterFailed, None)
      else if req.ChemicalJson? && !req.datesParse then RegisterOutcome(s, RegisterFailed, None)
      else
        var call := if client.Answers? then Some(LedgerRequest(cols.tag, cols.name, ManufacturerName(s, user))) else None;
        var blockchain :=
          match client
          case NoClient => None
          case Answers(Ok(reply)) => Some(reply)
          case Answers(Err(e)) => Some(Ledger.Refused(e, false));
        if cols.name.None? || cols.tag.None? || TagInUse(s, cols.tag.value) || !dbOk then
          RegisterOutcome(s, RegisterFailed, call)
        else
          var s' := Inserted(s, user, cols.name.value, cols.tag.value, cols);
          var id := s'.chemicals[|s.chemicals|].id;
          RegisterOutcome(s', if req.ChemicalJson? then Created(id, blockchain) else Registered(id), call)
  }

  /** The ledger is asked before the commit: a tag already in use still
      reaches the ledger client, and the local registration then fails. */
  lemma LedgerAskedForRefusedTag(s: Store, user: User, req: Registration, hex: Hex, reply: Ledger.Reply)
    requires req.ChemicalJson? && req.datesParse && "name" in req.data && "rfid_tag" in req.data
    requires req.data["name"].Some? && req.data["rfid_tag"].Some? && TagInUse(s, req.data["rfid_tag"].value)
    ensures RegisterChemical(s, user, req, hex, Answers(Ok(reply)), true).page == RegisterFailed
    ensures RegisterChemical(s, user, req, hex, Answers(Ok(reply)), true).store == s
    ensures RegisterChemical(s, user, req, hex, Answers(Ok(reply)), true).ledgerCall
      == Some(LedgerRequest(req.data["rfid_tag"], req.data["name"], ManufacturerName(s, user)))
  {
  }

  /** A JSON body whose name is null still reaches the ledger client, with
      None for the name, and the local registration then fails. */
  lemma LedgerAskedForNullName(s: Store, user: User, req: Registration, hex: Hex, reply: Ledger.Reply)
    requires req.ChemicalJson? && req.datesParse && "name" in req.data && "rfid_tag" in req.data
    requires req.data["name"].None?
    ensures RegisterChemical(s, user, req, hex, Answers(Ok(reply)), true).page == RegisterFailed
    ensures RegisterChemical(s, user, req, hex, Answers(Ok(reply)), true).store == s
    ensures RegisterChemical(s, user, req, hex, Answers(Ok(reply)), true).ledgerCall
      == Some(LedgerRequest(req.data["rfid_tag"], None, ManufacturerName(s, user)))
  {
  }

  /** A form that leaves the tag empty registers the chemical under the
      generated tag, and the chemical starts in storage when no location was
      given. */
  lemma BlankFormFieldsDefaulted(s: Store, user: User, req: Registration, hex: Hex, client: AppClient)
    requires req.ChemicalForm? && req.valid && req.rfidTag == "" && req.initialLocation == ""
    requires OrgOf(s, user).Some? && !TagInUse(s, GeneratedTag(hex))
    ensures RegisterChemical(s, user, req, hex, client, true).page.Registered?
    ensures
      var c := RegisterChemical(s, user, req, hex, client, true).store.chemicals[|s.chemicals|];
      c.rfidTag[..5] == "RFID-" && |c.rfidTag| == 17 && c.location == Some(StorageLocation)
  {
  }

  /** The fields of the shipment form the route reads; `valid` is the verdict
      of its other validators, and `carrier` the chosen organisation's id. */
  datatype ShipmentForm = ShipmentForm(
    valid: bool,
    carrier: nat,
    notes: string,
    temperatureControlled: bool,
    minTemperature: Option<int>,
    maxTemperature: Option<int>,
    confirmAccuracy: bool)

  /** The carrier choices: active organisations that may distribute. */
  function DistributorIds(orgs: seq<Org>): set<nat> {
    set i | 0 <= i < |orgs| && orgs[i].active && orgs[i].canDistribute :: orgs[i].id
  }

  predicate ShipmentValid(s: Store, f: ShipmentForm) {
    f.valid && f.carrier in DistributorIds(s.orgs)
  }

  datatype ShipmentPage =
    | ChemicalNotFound                 // 404
    | NotYours                         // redirect: another organisation made it
    | NotInStorage                     // redirect: not available for shipment
    | ShipmentFormPage                 // the form (again)
    | ShipmentFailed                   // the form after a rollback
    | Prepared(ledgerWarning: bool)    // redirect to the dashboard

  datatype ShipmentOutcome = ShipmentOutcome(store: Store, page: ShipmentPage)

  function ChemicalById(s: Store, id: nat): (i: Option<nat>)
    ensures i.Some? ==> i.value < |s.chemicals| && s.chemicals[i.value].id == id
    ensures i.None? <==> forall j :: 0 <= j < |s.chemicals| ==> s.chemicals[j].id != id
  {
    Find(s.chemicals, (c: Chemical) => c.id == id)
  }

  /** The movement a valid shipment form logs for chemical `c`. */
  function ShipmentLog(s: Store, user: User, f: ShipmentForm, c: Chemical, now: int, ledger: LedgerCall): Movement {
    NewMovement(NextId(Ids(s.movements, (m: Movement) => m.id)), c.rfidTag, InTransitLocation, now)
      .(chemicalId := Some(c.id), source := Some(StorageLocation), purpose := Some(ShipmentPurpose),
        status := Some(InTransit), remarks := Some(f.notes), quantity := c.quantity,
        movedByUser := Some(user.id), sourceOrg := user.org, destinationOrg := Some(f.carrier),
        temperature := if f.temperatureControlled then Some(Bounds(f.minTemperature, f.maxTemperature)) else None,
        ledgerRecorded := f.confirmAccuracy && Recorded(ledger))
  }

  /** The unit of work `prepare_shipment` commits for the chemical at index
      `k`: one movement from storage to the carrier, the chemical in transit
      (its custodian unchanged), one audit row; nothing else changes. */
  function Ship(s: Store, user: User, f: ShipmentForm, k: nat, now: int, ledger: LedgerCall): (s': Store)
    requires k < |s.chemicals|
    ensures |s'.movements| == |s.movements| + 1 && s'.movements[..|s.movements|] == s.movements
    ensures
      var m := s'.movements[|s.movements|];
      && (forall i :: 0 <= i < |s.movements| ==> s.movements[i].id != m.id)
      && m.tag == s.chemicals[k].rfidTag && m.chemicalId == Some(s.chemicals[k].id)
      && m.location == InTransitLocation && m.source == Some(StorageLocation)
      && m.status == Some(InTransit) && m.quantity == s.chemicals[k].quantity
      && m.sourceOrg == user.org && m.destinationOrg == Some(f.carrier) && m.timestamp == now
      && (m.temperature.Some? <==> f.temperatureControlled)
      && (m.ledgerRecorded <==> f.confirmAccuracy && Recorded(ledger))
    ensures |s'.chemicals| == |s.chemicals|
    ensures s'.chemicals[k] == s.chemicals[k].(location := Some(InTransitLocation))
    ensures forall j :: 0 <= j < |s.chemicals| && j != k ==> s'.chemicals[j] == s.chemicals[j]
    ensures s'.audits == s.audits + [Audit("shipment_created", "MovementLog", None, user.id, user.org)]
    ensures s'.(movements := s.movements, chemicals := s.chemicals, audits := s.audits) == s
  {
    var c := s.chemicals[k];
    var m := ShipmentLog(s, user, f, c, now, ledger);
    s.(movements := s.movements + [m],
       chemicals := Put(s.chemicals, k, c.(location := Some(InTransitLocation))),
       audits := s.audits + [Audit("shipment_created", "MovementLog", None, user.id, user.org)])
  }

  /** `prepare_shipment` on POST. Guards in order: the chemical exists (404),
      the user's organisation made it, it is in storage, the form is valid.
      The ledger is tried only when accuracy is confirmed and decides only
      the recorded flag and a warning; `dbOk` false rolls everything back. */
  function PrepareShipment(s: Store, user: User, chemicalId: nat, f: ShipmentForm, now: int,
                           ledger: LedgerCall, dbOk: bool): (r: ShipmentOutcome)
    ensures !r.page.Prepared? ==> r.store == s
    ensures r.page == ChemicalNotFound <==> ChemicalById(s, chemicalId).None?
    ensures r.page == NotYours <==>
      ChemicalById(s, chemicalId).Some? && s.chemicals[ChemicalById(s, chemicalId).value].manufacturerOrg != user.org
    ensures r.page.Prepared? <==>
      && ChemicalById(s, chemicalId).Some?
      && s.chemicals[ChemicalById(s, chemicalId).value].manufacturerOrg == user.org
      && s.chemicals[ChemicalById(s, chemicalId).value].location == Some(StorageLocation)
      && ShipmentValid(s, f) && dbOk
    ensures r.page.Prepared? ==>
      r.store == Ship(s, user, f, ChemicalById(s, chemicalId).value, now, ledger)
      && r.page.ledgerWarning == (f.confirmAccuracy && !Recorded(ledger))
  {
    match ChemicalById(s, chemicalId)
    case None => ShipmentOutcome(s, ChemicalNotFound)
    case Some(k) =>
      var c := s.chemicals[k];
      if c.manufacturerOrg != user.org then ShipmentOutcome(s, NotYours)
      else if c.location != Some(StorageLocation) then ShipmentOutcome(s, NotInStorage)
      else if !ShipmentValid(s, f) then ShipmentOutcome(s, ShipmentFormPage)
      else if !dbOk then ShipmentOutcome(s, ShipmentFailed)
      else ShipmentOutcome(Ship(s, user, f, k, now, ledger), Prepared(f.confirmAccuracy && !Recorded(ledger)))
  }

  /** A chemical is shipped at most once from storage: after a shipment it is
      in transit, and preparing it again is refused without change. */
  lemma ShippedOnlyOnce(s: Store, user: User, chemicalId: nat, f: ShipmentForm, now: int, ledger: LedgerCall)
    requires PrepareShipment(s, user, chemicalId, f, now, ledger, true).page.Prepared?
    ensures
      var s1 := PrepareShipment(s, user, chemicalId, f, now, ledger, true).store;
      PrepareShipment(s1, user, chemicalId, f, now, ledger, true) == ShipmentOutcome(s1, NotInStorage)
  {
    var k := ChemicalById(s, chemicalId).value;
    var s1 := PrepareShipment(s, user, chemicalId, f, now, ledger, true).store;
    assert s1.chemicals[k].id == chemicalId;
    assert ChemicalById(s1, chemicalId) == Some(k);
  }

  datatype ShipmentView =
    | ShipmentNotFound
    | ShipmentNotYours
    | ShowShipment(shipment: Movement, chemical: Option<Chemical>, destination: Option<Org>, audits: seq<Audit>)

  /** The index of the first movement with id `id`: the row `get_or_404` loads. */
  function ShipmentById(s: Store, id: nat): (i: Option<nat>)
    ensures i.Some? ==> i.value < |s.movements| && s.movements[i.value].id == id
    ensures i.Some? ==> forall j :: 0 <= j < i.value ==> s.movements[j].id != id
    ensures i.None? <==> forall j :: 0 <= j < |s.movements| ==> s.movements[j].id != id
  {
    Find(s.movements, (m: Movement) => m.id == id)
  }

  /** `view_shipment`: 404 for an unknown id; only the source organisation may
      see it; the page shows the chemical, the destination and the audit rows
      that name the shipment. */
  function ViewShipment(s: Store, user: User, shipmentId: nat): (v: ShipmentView)
    ensures v.ShipmentNotFound? <==> ShipmentById(s, shipmentId).None?
    ensures v.ShipmentNotYours? <==>
      ShipmentById(s, shipmentId).Some? && s.movements[ShipmentById(s, shipmentId).value].sourceOrg != user.org
    ensures v.ShowShipment? ==>
      && v.shipment == s.movements[ShipmentById(s, shipmentId).value]
      && v.shipment.id == shipmentId && v.shipment.sourceOrg == user.org
      && (v.chemical.Some? ==> v.chemical.value in s.chemicals && Some(v.chemical.value.id) == v.shipment.chemicalId)
      && (v.chemical.None? <==> v.shipment.chemicalId.None? || forall j :: 0 <= j < |s.chemicals| ==> Some(s.chemicals[j].id) != v.shipment.chemicalId)
      && (v.destination.Some? ==> v.destination.value in s.orgs && Some(v.destination.value.id) == v.shipment.destinationOrg)
      && (v.destination.None? <==> v.shipment.destinationOrg.None? || forall j :: 0 <= j < |s.orgs| ==> Some(s.orgs[j].id) != v.shipment.destinationOrg)
      && forall a :: a in v.audits <==> a in s.audits && a.objectType == "MovementLog" && a.objectId == Some(shipmentId)
  {
    match ShipmentById(s, shipmentId)
    case None => ShipmentNotFound
    case Some(i) =>
      var m := s.movements[i];
      if m.sourceOrg != user.org then ShipmentNotYours
      else
        var chemical :=
          match m.chemicalId
          case None => None
          case Some(id) => (match ChemicalById(s, id) case None => None case Some(k) => Some(s.chemicals[k]));
        var destination :=
          match m.destinationOrg
          case None => None
          case Some(id) => (match Find(s.orgs, (o: Org) => o.id == id) case None => None case Some(j) => Some(s.orgs[j]));
        var audits := Select(s.audits, (a: Audit) => a.objectType == "MovementLog" && a.objectId == Some(shipmentId));
        ShowShipment(m, chemical, destination, audits)
  }

  /** The audit row `prepare_shipment` writes names no object (it is built
      before the movement has an id), so the shipment's own page never lists
      it. */
  lemma ShipmentAuditNeverListed(s: Store, user: User, chemicalId: nat, f: ShipmentForm, now: int, ledger: LedgerCall)
    requires PrepareShipment(s, user, chemicalId, f, now, ledger, true).page.Prepared?
    ensures
      var s1 := PrepareShipment(s, user, chemicalId, f, now, ledger, true).store;
      var v := ViewShipment(s1, user, s1.movements[|s.movements|].id);
      v.ShowShipment? && s1.audits[|s.audits|] !in v.audits
  {
    var s1 := PrepareShipment(s, user, chemicalId, f, now, ledger, true).store;
    var id := s1.movements[|s.movements|].id;
    assert ShipmentById(s1, id) == Some(|s.movements|);
  }
}

=== FILE: movement_js.dfy ===
/** The browser's movement module (modules/movement.js): recording a movement
    through the event log, the movement form's checks and defaults, reading
    a history, and the status label and badge helpers. The request goes to
    the `log_event` route, modelled by `MainRoutes.LogEvent`. */
module BrowserMovement {
  import opened Wrappers
  import opened Text
  import Custody
  import MainRoutes
  import BrowserClient

  /** JavaScript truthiness of a value that may be `null` or `undefined`. */
  predicate Truthy(x: Option<string>) {
    x.Some? && x.value != ""
  }

  /** `x || fallback`. */
  function Or(x: Option<string>, fallback: string): (r: string)
    ensures Truthy(x) ==> r == x.value
    ensures !Truthy(x) ==> r == fallback
  {
    if Truthy(x) then x.value else fallback
  }

  /** A parameter with a default: only `undefined` takes the default. */
  function Defaulted(x: Option<string>, default: string): (r: string)
    ensures x.Some? ==> r == x.value
    ensures x.None? ==> r == default
  {
    if x.Some? then x.value else default
  }

  const DefaultStatus: string := "in_transit"
  const RecordFailure: string := "Failed to record movement"

  datatype RecordResult = RecordOk | RecordFailed(message: string)

  /** The JSON body `recordMovement` sends, under the key `tagKey` for the
      tag. */
  function EventBody(tagKey: string, rfidTag: string, location: string, movedBy: string,
                     purpose: Option<string>, status: Option<string>, isoNow: string): (b: MainRoutes.Body)
    requires tagKey !in {"location", "moved_by", "purpose", "status", "timestamp"}
    ensures b.isJson
    ensures tagKey in b.data && b.data[tagKey] == Some(rfidTag)
    ensures "location" in b.data && b.data["location"] == Some(location)
    ensures "status" in b.data && b.data["status"] == Some(Defaulted(status, DefaultStatus))
    ensures "purpose" in b.data && b.data["purpose"] == Some(Defaulted(purpose, ""))
    ensures b.data.Keys == {tagKey, "location", "moved_by", "purpose", "status", "timestamp"}
  {
    MainRoutes.Body(true, map[tagKey := Some(rfidTag), "location" := Some(location), "moved_by" := Some(movedBy),
                              "purpose" := Some(Defaulted(purpose, "")), "status" := Some(Defaulted(status, DefaultStatus)),
                              "timestamp" := Some(isoNow)])
  }

  /** What `recordMovement` makes of the answer: any 2xx is a success; the
      backend's error bodies carry `error`, not `message`, so a failure always
      reads "Failed to record movement". */
  function Classify(code: nat): (r: RecordResult)
    ensures r == RecordOk <==> BrowserClient.Ok(code)
    ensures r != RecordOk ==> r == RecordFailed(RecordFailure)
  {
    if BrowserClient.Ok(code) then RecordOk else RecordFailed(RecordFailure)
  }

  /** `recordMovement` as written: the tag travels under "rfid_tag". */
  function RecordMovementAsWritten(s: Custody.Store, rfidTag: string, location: string, movedBy: string,
                                   purpose: Option<string>, status: Option<string>, isoNow: string,
                                   serverNow: int, dbOk: bool): (out: (Custody.Store, RecordResult))
    ensures BrowserClient.Ok(MainRoutes.LogEvent(s, EventBody("rfid_tag", rfidTag, location, movedBy, purpose, status, isoNow), serverNow, dbOk).code)
            <==> out.1 == RecordOk
  {
    var r := MainRoutes.LogEvent(s, EventBody("rfid_tag", rfidTag, location, movedBy, purpose, status, isoNow), serverNow, dbOk);
    (r.store, Classify(r.code))
  }

  /** The event log route reads the tag from "tag_id", so every movement the
      browser records as written is refused with 400 and nothing is stored. */
  lemma AsWrittenAlwaysRefused(s: Custody.Store, rfidTag: string, location: string, movedBy: string,
                               purpose: Option<string>, status: Option<string>, isoNow: string, serverNow: int, dbOk: bool)
    ensures RecordMovementAsWritten(s, rfidTag, location, movedBy, purpose, status, isoNow, serverNow, dbOk)
            == (s, RecordFailed(RecordFailure))
  {
    var b := EventBody("rfid_tag", rfidTag, location, movedBy, purpose, status, isoNow);
    assert "tag_id" !in b.data;
  }

  /** `recordMovement` with the tag under the key the route reads. */
  function RecordMovement(s: Custody.Store, rfidTag: string, location: string, movedBy: string,
                          purpose: Option<string>, status: Option<string>, isoNow: string,
                          serverNow: int, dbOk: bool): (out: (Custody.Store, RecordResult))
    ensures out.1 == RecordOk <==> dbOk
    ensures out.1 != RecordOk ==> out.0 == s
    ensures out.1 == RecordOk ==>
      && |out.0.movements| == |s.movements| + 1
      && out.0.movements[..|s.movements|] == s.movements
      && out.0.movements[|s.movements|].tag == rfidTag
      && out.0.movements[|s.movements|].location == location
      && out.0.movements[|s.movements|].status == Some(Defaulted(status, DefaultStatus))
      && out.0.movements[|s.movements|].purpose == Some(Defaulted(purpose, ""))
      && out.0.movements[|s.movements|].movedBy == Some(movedBy)
  {
    var b := EventBody("tag_id", rfidTag, location, movedBy, purpose, status, isoNow);
    var r := MainRoutes.LogEvent(s, b, serverNow, dbOk);
    assert r.code == 201 || r.code == 500;
    (r.store, Classify(r.code))
  }

  /** The movement form as `FormData` reads it: a missing field is `null`. */
  datatype MovementSubmission = MovementSubmission(
    rfidTag: Option<string>, location: Option<string>, purpose: Option<string>, status: Option<string>)

  datatype SubmitResult = MissingFields | FormError(message: string) | Submitted(result: RecordResult)

  const MissingMessage: string := "RFID tag and location are required"

  /** `handleMovementFormSubmit`, with `movedBy` standing for the current
      user's id or "system": a blank tag or location stops the form; otherwise
      the movement is recorded with the purpose defaulting to "" and the
      status to "in_transit", blank values included. */
  function HandleSubmit(s: Custody.Store, f: MovementSubmission, movedBy: string, isoNow: string,
                        serverNow: int, dbOk: bool): (out: (Custody.Store, SubmitResult))
    ensures out.1 == MissingFields <==> !Truthy(f.rfidTag) || !Truthy(f.location)
    ensures out.1 != Submitted(RecordOk) ==> out.0 == s
    ensures out.1 == Submitted(RecordOk) <==> Truthy(f.rfidTag) && Truthy(f.location) && dbOk
    ensures out.1 == Submitted(RecordOk) ==>
      && |out.0.movements| == |s.movements| + 1
      && out.0.movements[|s.movements|].tag == f.rfidTag.value
      && out.0.movements[|s.movements|].status == Some(Or(f.status, DefaultStatus))
      && out.0.movements[|s.movements|].purpose == Some(Or(f.purpose, ""))
      && out.0.movements[|s.movements|].movedBy == Some(movedBy)
  {
    if !Truthy(f.rfidTag) || !Truthy(f.location) then (s, MissingFields)
    else
      var r := RecordMovement(s, f.rfidTag.value, f.location.value, movedBy,
                              Some(Or(f.purpose, "")), Some(Or(f.status, DefaultStatus)), isoNow, serverNow, dbOk);
      (r.0, Submitted(r.1))
  }

  /** The form and the function default differently: a blank status field
      is recorded as "in_transit" by the form, while `recordMovement` called
      with an empty status records the empty string. */
  lemma BlankStatusDefaultsOnlyInForm(s: Custody.Store, tag: string, location: string, movedBy: string, isoNow: string, serverNow: int)
    requires tag != "" && location != ""
    ensures
      var viaForm := HandleSubmit(s, MovementSubmission(Some(tag), Some(location), None, Some("")), movedBy, isoNow, serverNow, true).0;
      var direct := RecordMovement(s, tag, location, movedBy, None, Some(""), isoNow, serverNow, true).0;
      && viaForm.movements[|s.movements|].status == Some(DefaultStatus)
      && direct.movements[|s.movements|].status == Some("")
  {
  }

  /** `handleMovementFormSubmit` as written: it calls `getCurrentUser`, which
      the module never imports, so a form that passes the checks ends in the
      error handler before anything is sent. */
  function HandleSubmitAsWritten(s: Custody.Store, f: MovementSubmission): (out: (Custody.Store, SubmitResult))
    ensures out.1 == MissingFields <==> !Truthy(f.rfidTag) || !Truthy(f.location)
  {
    if !Truthy(f.rfidTag) || !Truthy(f.location) then (s, MissingFields)
    else (s, FormError("getCurrentUser is not defined"))
  }

  /** No submission of the form as written changes the store. */
  lemma AsWrittenFormNeverRecords(s: Custody.Store, f: MovementSubmission)
    ensures HandleSubmitAsWritten(s, f).0 == s
    ensures !HandleSubmitAsWritten(s, f).1.Submitted?
  {
  }

  /** What `getMovementHistory` resolves to: the parsed body, or `[]`. */
  datatype HistoryValue<B> = Parsed(body: B) | EmptyList

  /** `getMovementHistory`: an OK answer's parsed body; `[]` after a network
      error, a non-OK answer or an unreadable body. */
  function GetMovementHistory<B>(f: BrowserClient.Fetch<B>): (r: HistoryValue<B>)
    ensures r.Parsed? <==> f.Answered? && BrowserClient.Ok(f.status) && f.body.Some?
    ensures r.Parsed? ==> r.body == f.body.value
  {
    match f
    case Thrown(_) => EmptyList
    case Answered(status, body) =>
      if BrowserClient.Ok(status) && body.Some? then Parsed(body.value) else EmptyList
  }

  /** Upper-cases the first letter of every word. */
  function CapitalizeAll(words: seq<string>): (r: seq<string>)
    ensures |r| == |words| && forall i :: 0 <= i < |words| ==> r[i] == Capitalize(words[i])
  {
    seq(|words|, i requires 0 <= i < |words| => Capitalize(words[i]))
  }

  /** `formatStatus`: split on '_', capitalise each piece, join with spaces. */
  function FormatStatus(status: string): string {
    Join(CapitalizeAll(Split(status, '_')), " ")
  }

  /** The label character by character: '_' becomes a space, and a character
      at the start of a word is upper-cased. */
  function Label(s: string, wordStart: bool): (r: string)
    ensures |r| == |s|
    ensures '_' !in r
    ensures forall i :: 0 <= i < |s| && s[i] == '_' ==> r[i] == ' '
    ensures forall i :: 0 <= i < |s| && s[i] != '_' ==> r[i] == s[i] || r[i] == Upper(s[i])
  {
    if |s| == 0 then ""
    else
      var rest := Label(s[1..], s[0] == '_');
      var r := [if s[0] == '_' then ' ' else if wordStart then Upper(s[0]) else s[0]] + rest;
      assert forall i :: 1 <= i < |s| ==> r[i] == rest[i - 1] && s[i] == s[1..][i - 1];
      r
  }

  lemma JoinFirstChar(c: char, w: string, tail: seq<string>, sep: string)
    ensures Join([[c] + w] + tail, sep) == [c] + Join([w] + tail, sep)
  {
    if |tail| > 0 {
      assert ([[c] + w] + tail)[1..] == tail;
      assert ([w] + tail)[1..] == tail;
    }
  }

  /** One step of the induction below, for a text starting with '_': the
      leading empty word becomes the leading space. */
  lemma SeparatorStep(s: string)
    requires |s| > 0 && s[0] == '_'
    requires Join(CapitalizeAll(Split(s[1..], '_')), " ") == Label(s[1..], true)
    ensures Join(CapitalizeAll(Split(s, '_')), " ") == Label(s, true)
    ensures Join([Split(s, '_')[0]] + CapitalizeAll(Split(s, '_')[1..]), " ") == Label(s, false)
  {
    var rest := Split(s[1..], '_');
    var parts := [""] + rest;
    assert Split(s, '_') == parts;
    assert CapitalizeAll(parts) == [""] + CapitalizeAll(rest);
    assert [parts[0]] + CapitalizeAll(parts[1..]) == [""] + CapitalizeAll(rest);
    assert ([""] + CapitalizeAll(rest))[1..] == CapitalizeAll(rest);
    assert Label(s, true) == [' '] + Label(s[1..], true);
    assert Label(s, false) == [' '] + Label(s[1..], true);
  }

  /** Capitalising a word list whose first word starts with `c` upper-cases
      `c` and nothing else of that word. */
  lemma CapitalizeCons(c: char, w: string, tail: seq<string>)
    ensures CapitalizeAll([[c] + w] + tail) == [[Upper(c)] + w] + CapitalizeAll(tail)
  {
    assert Capitalize([c] + w) == [Upper(c)] + w;
  }

  /** One step of the induction below, for a text starting with any other
      character: it joins the first word, upper-cased only at a word start. */
  lemma LetterStep(s: string)
    requires |s| > 0 && s[0] != '_'
    requires Join([Split(s[1..], '_')[0]] + CapitalizeAll(Split(s[1..], '_')[1..]), " ") == Label(s[1..], false)
    ensures Join(CapitalizeAll(Split(s, '_')), " ") == Label(s, true)
    ensures Join([Split(s, '_')[0]] + CapitalizeAll(Split(s, '_')[1..]), " ") == Label(s, false)
  {
    var rest := Split(s[1..], '_');
    var w, tail := rest[0], rest[1..];
    var parts := [[s[0]] + w] + tail;
    assert Split(s, '_') == parts;
    assert parts[0] == [s[0]] + w && parts[1..] == tail;
    CapitalizeCons(s[0], w, tail);
    JoinFirstChar(Upper(s[0]), w, CapitalizeAll(tail), " ");
    JoinFirstChar(s[0], w, CapitalizeAll(tail), " ");
    assert Label(s, true) == [Upper(s[0])] + Label(s[1..], false);
    assert Label(s, false) == [s[0]] + Label(s[1..], false);
  }

  lemma {:induction false} FormatMatchesLabel(s: string)
    ensures Join(CapitalizeAll(Split(s, '_')), " ") == Label(s, true)
    ensures Join([Split(s, '_')[0]] + CapitalizeAll(Split(s, '_')[1..]), " ") == Label(s, false)
    decreases |s|
  {
    if |s| == 0 {
      assert CapitalizeAll([""]) == [""];
    } else {
      FormatMatchesLabel(s[1..]);
      if s[0] == '_' {
        SeparatorStep(s);
      } else {
        LetterStep(s);
      }
    }
  }

  /** The label keeps the status's length, has no '_' left, turns every '_'
      into a space and changes no other character except by upper-casing. */
  lemma FormatStatusShape(status: string)
    ensures |FormatStatus(status)| == |status|
    ensures '_' !in FormatStatus(status)
    ensures forall i :: 0 <= i < |status| && status[i] == '_' ==> FormatStatus(status)[i] == ' '
    ensures |status| > 0 && status[0] != '_' ==> FormatStatus(status)[0] == Upper(status[0])
  {
    FormatMatchesLabel(status);
  }

  /** `getStatusBadgeClass`. */
  function BadgeClass(status: string): (c: string)
    ensures c in {"info", "success", "warning", "danger", "dark", "secondary"}
    ensures c == "secondary" <==> status !in {"in_transit", "delivered", "returned", "damaged", "lost"}
    ensures status == "in_transit" ==> c == "info"
    ensures status == "delivered" ==> c == "success"
    ensures status == "returned" ==> c == "warning"
    ensures status == "damaged" ==> c == "danger"
    ensures status == "lost" ==> c == "dark"
  {
    match status
    case "in_transit" => "info"
    case "delivered" => "success"
    case "returned" => "warning"
    case "damaged" => "danger"
    case "lost" => "dark"
    case _ => "secondary"
  }

  /** Each listed status has a badge of its own: two statuses share a badge
      only when both are unlisted. */
  lemma BadgesTellListedStatusesApart(a: string, b: string)
    requires a != b && BadgeClass(a) == BadgeClass(b)
    ensures BadgeClass(a) == "secondary"
  {
  }

  /** The statuses the routes write each have their own badge. */
  lemma RouteStatusesHaveBadges()
    ensures BadgeClass("in_transit") == "info" && BadgeClass("delivered") == "success"
    ensures BadgeClass("In Transit") == "secondary"
  {
  }
}

=== FILE: store.dfy ===
/** The local custody database the Flask routes read and write: organisations,
    users, chemicals, movement logs, receipts, audit entries and ledger
    anomalies, with the queries the routes run over them. Rows are kept in
    insertion order; a route's unit of work either replaces the store with a
    new one (commit) or leaves it as it was (rollback). */
module Custody {
  import opened Wrappers

  datatype Role = Manufacturer | Distributor | Customer | Admin

  datatype Org = Org(
    id: nat,
    name: string,
    emailDomain: Option<string>,
    active: bool,
    canManufacture: bool,
    canDistribute: bool,
    canReceive: bool)

  /** A user; `secret` stands for the password hash, and checking a password
      is comparing with it. */
  datatype User = User(
    id: nat,
    username: string,
    email: string,
    secret: string,
    role: Role,
    isAdmin: bool,
    active: bool,
    org: Option<nat>)

  datatype Chemical = Chemical(
    id: nat,
    name: string,
    rfidTag: string,
    location: Option<string>,
    batch: Option<string>,
    quantity: Option<int>,
    registeredBy: Option<nat>,
    manufacturerOrg: Option<nat>,
    custodianOrg: Option<nat>)

  /** Allowed temperature range of a temperature-controlled shipment. */
  datatype Bounds = Bounds(low: Option<int>, high: Option<int>)

  datatype Movement = Movement(
    id: nat,
    tag: string,
    chemicalId: Option<nat>,
    location: string,
    source: Option<string>,
    timestamp: int,
    movedBy: Option<string>,
    purpose: Option<string>,
    status: Option<string>,
    remarks: Option<string>,
    quantity: Option<int>,
    movedByUser: Option<nat>,
    sourceOrg: Option<nat>,
    destinationOrg: Option<nat>,
    ledgerRecorded: bool,
    temperature: Option<Bounds>,
    receivedBy: Option<nat>,
    receiptNotes: Option<string>,
    quantityConfirmed: bool,
    conditionConfirmed: bool,
    receiptRecorded: bool)

  datatype Receipt = Receipt(
    movementId: nat,
    chemicalId: nat,
    received: Option<int>,
    expected: Option<int>,
    qualityPassed: bool,
    remarks: Option<string>,
    receivedBy: nat,
    customerOrg: Option<nat>)

  /** An audit row; `objectId` is None when the row was built before the
      object it names had been flushed and given an id. */
  datatype Audit = Audit(action: string, objectType: string, objectId: Option<nat>, userId: nat, orgId: Option<nat>)

  datatype Anomaly = Anomaly(id: nat, kind: string, status: string, notes: string, resolvedBy: Option<nat>)

  datatype Store = Store(
    orgs: seq<Org>,
    users: seq<User>,
    chemicals: seq<Chemical>,
    movements: seq<Movement>,
    receipts: seq<Receipt>,
    audits: seq<Audit>,
    anomalies: seq<Anomaly>)

  /** A call into a `BlockchainClient` from a route: it raises, or returns a
      value whose truthiness the route tests. */
  datatype LedgerCall = LedgerRaised(error: string) | LedgerReturned(truthy: bool)

  predicate Recorded(call: LedgerCall) {
    call.LedgerReturned? && call.truthy
  }

  /** What a route's `BlockchainClient()` amounts to as written: the
      constructor requires a contract address and an ABI, so calling it with
      no arguments raises before any ledger traffic. */
  const ArgumentlessClient: LedgerCall :=
    LedgerRaised("__init__() missing 2 required positional arguments: 'contract_address' and 'contract_abi'")

  const InTransit: string := "in_transit"
  const Delivered: string := "delivered"
  const InTransitLocation: string := "In Transit"
  const StorageLocation: string := "Storage"

  /** `query.filter_by(…).first()`: the index of the first row satisfying `p`. */
  function Find<T>(xs: seq<T>, p: T -> bool): (i: Option<nat>)
    ensures i.Some? ==> i.value < |xs| && p(xs[i.value])
    ensures i.Some? ==> forall j :: 0 <= j < i.value ==> !p(xs[j])
    ensures i.None? <==> forall j :: 0 <= j < |xs| ==> !p(xs[j])
  {
    if |xs| == 0 then None
    else if p(xs[0]) then Some(0)
    else
      var rest := Find(xs[1..], p);
      assert forall j :: 1 <= j < |xs| ==> xs[1..][j - 1] == xs[j];
      if rest.None? then None else Some(rest.value + 1)
  }

  /** `query.filter_by(…).all()`: the rows satisfying `p`, in store order. */
  function Select<T(!new)>(xs: seq<T>, p: T -> bool): (r: seq<T>)
    ensures |r| <= |xs|
    ensures forall x :: x in r <==> x in xs && p(x)
    ensures forall x :: multiset(r)[x] == if p(x) then multiset(xs)[x] else 0
  {
    if |xs| == 0 then []
    else
      var rest := Select(xs[1..], p);
      assert xs == [xs[0]] + xs[1..];
      if p(xs[0]) then [xs[0]] + rest else rest
  }

  /** `sum(1 for x in xs if p(x))`. */
  function Count<T(!new)>(xs: seq<T>, p: T -> bool): (n: nat)
    ensures n <= |xs|
  {
    |Select(xs, p)|
  }

  predicate NewestFirst(ms: seq<Movement>) {
    forall i, j :: 0 <= i < j < |ms| ==> ms[i].timestamp >= ms[j].timestamp
  }

  /** A row no older than every row of a newest-first list can go in front. */
  lemma ConsNewestFirst(h: Movement, rest: seq<Movement>)
    requires NewestFirst(rest)
    requires forall k :: 0 <= k < |rest| ==> rest[k].timestamp <= h.timestamp
    ensures NewestFirst([h] + rest)
  {
    var r := [h] + rest;
    forall i, j | 0 <= i < j < |r| ensures r[i].timestamp >= r[j].timestamp {
      assert r[j] == rest[j - 1];
      if i > 0 {
        assert r[i] == rest[i - 1];
      }
    }
  }

  function Insert(m: Movement, ms: seq<Movement>): (r: seq<Movement>)
    requires NewestFirst(ms)
    ensures NewestFirst(r)
    ensures multiset(r) == multiset(ms) + multiset{m}
    ensures forall x :: x in r ==> x == m || x in ms
  {
    if |ms| == 0 then [m]
    else if m.timestamp >= ms[0].timestamp then
      ConsNewestFirst(m, ms);
      [m] + ms
    else
      var rest := Insert(m, ms[1..]);
      assert ms == [ms[0]] + ms[1..];
      assert forall k :: 0 <= k < |rest| ==> rest[k].timestamp <= ms[0].timestamp by {
        forall k | 0 <= k < |rest| ensures rest[k].timestamp <= ms[0].timestamp {
          assert rest[k] in rest;
          if rest[k] != m {
            var j :| 0 <= j < |ms[1..]| && ms[1..][j] == rest[k];
            assert ms[j + 1] == rest[k];
          }
        }
      }
      ConsNewestFirst(ms[0], rest);
      assert multiset([ms[0]] + rest) == multiset{ms[0]} + multiset(rest);
      [ms[0]] + rest
  }

  /** `order_by(MovementLog.timestamp.desc())`: the same rows, latest first.
      Rows with equal timestamps keep an arbitrary but fixed order. */
  function Newest(ms: seq<Movement>): (r: seq<Movement>)
    ensures NewestFirst(r)
    ensures multiset(r) == multiset(ms)
  {
    if |ms| == 0 then []
    else
      assert ms == [ms[0]] + ms[1..];
      Insert(ms[0], Newest(ms[1..]))
  }

  /** The id the database assigns to a new row: one past the largest in use. */
  function NextId(ids: seq<nat>): (n: nat)
    ensures forall i :: 0 <= i < |ids| ==> ids[i] < n
  {
    if |ids| == 0 then 1
    else
      var rest := NextId(ids[1..]);
      assert forall i :: 1 <= i < |ids| ==> ids[i] == ids[1..][i - 1];
      if ids[0] < rest then rest else ids[0] + 1
  }

  /** The primary keys of a table's rows, position by position. */
  function Ids<T>(rows: seq<T>, key: T -> nat): (ids: seq<nat>)
    ensures |ids| == |rows| && forall i :: 0 <= i < |rows| ==> ids[i] == key(rows[i])
  {
    seq(|rows|, i requires 0 <= i < |rows| => key(rows[i]))
  }

  /** A movement log with only the columns every route sets. */
  function NewMovement(id: nat, tag: string, location: string, now: int): Movement {
    Movement(id, tag, None, location, None, now, None, None, None, None, None, None, None, None, false, None, None, None,
             false, false, false)
  }

  /** Replaces row `i`, leaving every other row as it was. */
  function Put<T>(xs: seq<T>, i: nat, x: T): (r: seq<T>)
    requires i < |xs|
    ensures |r| == |xs| && r[i] == x
    ensures forall j :: 0 <= j < |xs| && j != i ==> r[j] == xs[j]
  {
    xs[i := x]
  }

  /** The sorting and filtering queries never invent or lose rows: newest-first
      selection is a reordering of exactly the selected rows. */
  lemma {:induction false} NewestSelectExact(ms: seq<Movement>, p: Movement -> bool, m: Movement)
    ensures m in Newest(Select(ms, p)) <==> m in ms && p(m)
  {
    var r := Newest(Select(ms, p));
    assert multiset(r)[m] == multiset(Select(ms, p))[m];
    assert m in r <==> multiset(r)[m] > 0;
    assert m in ms <==> multiset(ms)[m] > 0;
  }

  /** Counting two predicates that never hold together counts each row at
      most once. */
  lemma {:induction false} CountDisjoint<T(!new)>(xs: seq<T>, p: T -> bool, q: T -> bool)
    requires forall x :: !(p(x) && q(x))
    ensures Count(xs, p) + Count(xs, q) == Count(xs, (x: T) => p(x) || q(x))
    decreases |xs|
  {
    if |xs| > 0 {
      CountDisjoint(xs[1..], p, q);
    }
  }

  /** `int(s)` on a primary-key string: decimal digits only. */
  function ParseId(s: string): (n: Option<nat>)
    ensures n.Some? ==> |s| > 0
    ensures (|s| > 0 && forall i :: 0 <= i < |s| ==> '0' <= s[i] <= '9') <==> n.Some?
    decreases |s|
  {
    if |s| == 0 || !('0' <= s[|s| - 1] <= '9') then None
    else if |s| == 1 then Some(s[0] as nat - '0' as nat)
    else
      match ParseId(s[..|s| - 1])
      case None => None
      case Some(v) => Some(10 * v + (s[|s| - 1] as nat - '0' as nat))
  }

  /** The number a digit string denotes, read from its most significant
      digit down: `acc` holds the value of the digits already read. */
  function DecimalValue(s: string, acc: nat): nat
    requires forall i :: 0 <= i < |s| ==> '0' <= s[i] <= '9'
  {
    if |s| == 0 then acc else DecimalValue(s[1..], 10 * acc + (s[0] as nat - '0' as nat))
  }

  /** Appending a digit multiplies the value by ten and adds the digit. */
  lemma {:induction false} DecimalValueAppend(s: string, c: char, acc: nat)
    requires forall i :: 0 <= i < |s| ==> '0' <= s[i] <= '9'
    requires '0' <= c <= '9'
    ensures DecimalValue(s + [c], acc) == 10 * DecimalValue(s, acc) + (c as nat - '0' as nat)
    decreases |s|
  {
    if |s| > 0 {
      assert (s + [c])[1..] == s[1..] + [c];
      DecimalValueAppend(s[1..], c, 10 * acc + (s[0] as nat - '0' as nat));
    }
  }

  /** `ParseId` reads the decimal value of the digits. */
  lemma {:induction false} ParseIdIsDecimalValue(s: string)
    requires ParseId(s).Some?
    ensures forall i :: 0 <= i < |s| ==> '0' <= s[i] <= '9'
    ensures ParseId(s).value == DecimalValue(s, 0)
    decreases |s|
  {
    if |s| > 1 {
      var init := s[..|s| - 1];
      ParseIdIsDecimalValue(init);
      DecimalValueAppend(init, s[|s| - 1], 0);
      assert init + [s[|s| - 1]] == s;
    }
  }

  /** The decimal digits of `n`, without leading zeros, as `str(n)` prints
      an id into a URL or a form. */
  function Decimal(n: nat): (s: string)
    ensures |s| > 0 && forall i :: 0 <= i < |s| ==> '0' <= s[i] <= '9'
    ensures |s| > 1 ==> s[0] != '0'
  {
    if n < 10 then [('0' as nat + n) as char]
    else Decimal(n / 10) + [('0' as nat + n % 10) as char]
  }

  /** Every printed id reads back as itself. */
  lemma {:induction false} ParseIdDecimal(n: nat)
    ensures ParseId(Decimal(n)) == Some(n)
  {
    if n >= 10 {
      ParseIdDecimal(n / 10);
      assert Decimal(n)[..|Decimal(n)| - 1] == Decimal(n / 10);
    }
  }

  /** `current_user.organization`: the organisation the user's id points at. */
  function OrgOf(s: Store, user: User): (o: Option<Org>)
    ensures o.Some? ==> o.value in s.orgs && user.org == Some(o.value.id)
    ensures o.None? <==> user.org.None? || forall i :: 0 <= i < |s.orgs| ==> s.orgs[i].id != user.org.value
  {
    match user.org
    case None => None
    case Some(id) =>
      match Find(s.orgs, (o: Org) => o.id == id)
      case None => None
      case Some(i) => Some(s.orgs[i])
  }
}

=== FILE: text.dfy ===
/** The handful of Python and JavaScript string operations the system relies
    on, over `string` (= `seq<char>`). Case mapping covers ASCII letters only. */
module Text {

  predicate StartsWith(s: string, prefix: string) {
    |prefix| <= |s| && s[..|prefix|] == prefix
  }

  /** Python `sub in s` / JavaScript `s.includes(sub)`. */
  predicate Contains(s: string, sub: string)
    decreases |s|
  {
    StartsWith(s, sub) || (|s| > 0 && Contains(s[1..], sub))
  }

  lemma {:induction false} ContainsAt(s: string, sub: string, i: nat)
    requires i + |sub| <= |s| && s[i..i + |sub|] == sub
    ensures Contains(s, sub)
    decreases i
  {
    if i == 0 {
      assert s[..|sub|] == sub;
    } else {
      assert s[1..][i - 1..i - 1 + |sub|] == s[i..i + |sub|];
      ContainsAt(s[1..], sub, i - 1);
    }
  }

  predicate IsLower(c: char) { 'a' <= c <= 'z' }
  predicate IsUpper(c: char) { 'A' <= c <= 'Z' }
  predicate IsLetter(c: char) { IsLower(c) || IsUpper(c) }
  predicate IsDigit(c: char) { '0' <= c <= '9' }
  predicate IsAlnum(c: char) { IsLetter(c) || IsDigit(c) }
  predicate IsLowerHex(c: char) { IsDigit(c) || 'a' <= c <= 'f' }
  predicate IsUpperHex(c: char) { IsDigit(c) || 'A' <= c <= 'F' }

  /** `toUpperCase` / `upper()` restricted to ASCII: only 'a'..'z' change. */
  function Upper(c: char): (u: char)
    ensures IsLower(c) ==> IsUpper(u) && u as int == c as int - 32
    ensures !IsLower(c) ==> u == c
  {
    if IsLower(c) then (c as int - 32) as char else c
  }

  function UpperString(s: string): (r: string)
    ensures |r| == |s|
    ensures forall i :: 0 <= i < |s| ==> r[i] == Upper(s[i])
  {
    seq(|s|, i requires 0 <= i < |s| => Upper(s[i]))
  }

  /** JavaScript `s.charAt(0).toUpperCase() + s.slice(1)`. */
  function Capitalize(s: string): (r: string)
    ensures |r| == |s|
    ensures |s| > 0 ==> r[0] == Upper(s[0]) && r[1..] == s[1..]
  {
    if |s| == 0 then "" else [Upper(s[0])] + s[1..]
  }

  /** Whitespace common to Python `str.isspace` and JavaScript `trim`: ASCII
      blanks, no-break space and the Unicode space separators. */
  predicate IsCommonSpace(c: char) {
    c == ' ' || c == '\t' || c == '\n' || c == '\r' || c == '\U{B}' || c == '\U{C}'
    || c == '\U{A0}' || c == '\U{1680}' || ('\U{2000}' <= c <= '\U{200A}')
    || c == '\U{2028}' || c == '\U{2029}' || c == '\U{202F}' || c == '\U{205F}'
    || c == '\U{3000}'
  }

  /** Python `str.isspace`: also the four ASCII separators and NEL. */
  predicate IsPySpace(c: char) {
    IsCommonSpace(c) || ('\U{1C}' <= c <= '\U{1F}') || c == '\U{85}'
  }

  /** JavaScript `trim` whitespace: also the byte-order mark. */
  predicate IsJsSpace(c: char) {
    IsCommonSpace(c) || c == '\U{FEFF}'
  }

  /** Drops the longest prefix of characters satisfying `drop`. */
  function TrimStart(s: string, drop: char -> bool): (r: string)
    ensures |r| <= |s| && r == s[|s| - |r|..]
    ensures |r| > 0 ==> !drop(r[0])
    ensures forall i :: 0 <= i < |s| - |r| ==> drop(s[i])
    decreases |s|
  {
    if |s| > 0 && drop(s[0]) then TrimStart(s[1..], drop) else s
  }

  /** Drops the longest suffix of characters satisfying `drop`. */
  function TrimEnd(s: string, drop: char -> bool): (r: string)
    ensures |r| <= |s| && r == s[..|r|]
    ensures |r| > 0 ==> !drop(r[|r| - 1])
    ensures forall i :: |r| <= i < |s| ==> drop(s[i])
    decreases |s|
  {
    if |s| > 0 && drop(s[|s| - 1]) then TrimEnd(s[..|s| - 1], drop) else s
  }

  /** Python `s.strip()`. */
  function PyStrip(s: string): string {
    TrimEnd(TrimStart(s, IsPySpace), IsPySpace)
  }

  /** JavaScript `s.trim()`. */
  function JsTrim(s: string): string {
    TrimEnd(TrimStart(s, IsJsSpace), IsJsSpace)
  }

  /** Python `s.lstrip(c)`: removes every leading `c`. */
  function LStripChar(s: string, c: char): (r: string)
    ensures |r| <= |s| && r == s[|s| - |r|..]
    ensures forall i :: 0 <= i < |s| - |r| ==> s[i] == c
    ensures |r| == 0 || r[0] != c
  {
    TrimStart(s, x => x == c)
  }

  /** Python `s.split(c)[-1]`: the text after the last `c`, or all of `s`. */
  function AfterLast(s: string, c: char): (r: string)
    ensures |r| <= |s| && r == s[|s| - |r|..]
    ensures c !in r
    ensures |r| < |s| ==> s[|s| - |r| - 1] == c
    decreases |s|
  {
    if |s| == 0 then ""
    else if s[|s| - 1] == c then ""
    else
      var front := s[..|s| - 1];
      var rest := AfterLast(front, c);
      assert s[|s| - |rest| - 1..] == front[|front| - |rest|..] + [s[|s| - 1]];
      rest + [s[|s| - 1]]
  }

  /** JavaScript `s.split(c)` / Python `s.split(c)` with a one-character separator. */
  function Split(s: string, c: char): (parts: seq<string>)
    ensures |parts| >= 1
    decreases |s|
  {
    if |s| == 0 then [""]
    else
      var rest := Split(s[1..], c);
      if s[0] == c then [""] + rest
      else [[s[0]] + rest[0]] + rest[1..]
  }

  /** JavaScript `parts.join(sep)`. */
  function Join(parts: seq<string>, sep: string): string
    decreases |parts|
  {
    if |parts| == 0 then ""
    else if |parts| == 1 then parts[0]
    else parts[0] + sep + Join(parts[1..], sep)
  }

  lemma {:induction false} SplitPartsAvoidSeparator(s: string, c: char)
    ensures forall i :: 0 <= i < |Split(s, c)| ==> c !in Split(s, c)[i]
    decreases |s|
  {
    if |s| > 0 {
      SplitPartsAvoidSeparator(s[1..], c);
    }
  }

  lemma {:induction false} JoinSplitRoundTrip(s: string, c: char)
    ensures Join(Split(s, c), [c]) == s
    decreases |s|
  {
    if |s| > 0 {
      var rest := Split(s[1..], c);
      JoinSplitRoundTrip(s[1..], c);
      if s[0] == c {
        assert Split(s, c) == [""] + rest;
        assert ([""] + rest)[1..] == rest;
      } else {
        var parts := [[s[0]] + rest[0]] + rest[1..];
        assert Split(s, c) == parts;
        if |rest| == 1 {
          assert Join(rest, [c]) == rest[0];
        } else {
          assert parts[1..] == rest[1..];
          assert Join(rest, [c]) == rest[0] + [c] + Join(rest[1..], [c]);
        }
      }
    }
  }

  /** The first part of a split is a prefix of the text, and a split with a
      single part returns the whole text. */
  lemma {:induction false} SplitFirstIsPrefix(s: string, c: char)
    ensures |Split(s, c)[0]| <= |s| && Split(s, c)[0] == s[..|Split(s, c)[0]|]
    ensures |Split(s, c)| == 1 ==> Split(s, c)[0] == s
    decreases |s|
  {
    if |s| > 0 {
      SplitFirstIsPrefix(s[1..], c);
    }
  }

  /** The last part of a split is a suffix of the text. */
  lemma {:induction false} SplitLastIsSuffix(s: string, c: char)
    ensures var parts := Split(s, c);
      |parts[|parts| - 1]| <= |s| && parts[|parts| - 1] == s[|s| - |parts[|parts| - 1]|..]
    decreases |s|
  {
    if |s| > 0 {
      var rest := Split(s[1..], c);
      var tail := rest[|rest| - 1];
      SplitLastIsSuffix(s[1..], c);
      assert s[1..][|s[1..]| - |tail|..] == s[|s| - |tail|..];
      if s[0] == c {
        assert Split(s, c) == [""] + rest;
      } else if |rest| == 1 {
        SplitFirstIsPrefix(s[1..], c);
        assert Split(s, c) == [[s[0]] + rest[0]];
        assert [s[0]] + s[1..] == s;
      } else {
        assert Split(s, c) == [[s[0]] + rest[0]] + rest[1..];
      }
    }
  }
}

=== FILE: wrappers.dfy ===
/** Optional values and results with an error, as the rest of the model uses them. */
module Wrappers {

  datatype Option<+T> = None | Some(value: T) {
    function GetOr(default: T): T {
      if Some? then value else default
    }
  }

  datatype Result<+T, +E> = Ok(value: T) | Err(error: E)
}
